=== FILE: README.md ===
# CubeTick core in Dafny

A model of the logic behind the CubeTick browser speedcubing timer. The model
pulls the program's bookkeeping out of its React components and writes it as
pure functions over immutable data. It covers:

- the solve statistics: the best single, the average of the last N solves,
  the best average, and the session chart's trimmed running average;
- the time formatting, and the labels built from it;
- the session store, which maps session names to solve lists and holds the
  current session and event, with every transition that changes it;
- the command palette: its page stack, its two-level search, its key
  handling and its placeholder table;
- the display helpers: the solve table's order and row numbers, the solve
  dialog, and the React keys of the scramble's moves.

Modules, one concept each:

| module | file | what it holds |
|---|---|---|
| `JsValues` | js_values.dfy | `null` as `Option`, numbers that may be `Infinity` (`Ext`) and JavaScript's `<` on them, `indexOf` |
| `Decimal` | decimal.dfy | `toString` and `padStart(n, "0")` on integers, and the value of a digit string |
| `Text` | text.dfy | `toLowerCase`, `includes`, `split`/`join`, `trim() === ""` |
| `ObjectMap` | object_map.dfy | a plain JavaScript object used as a dictionary: insertion-ordered keys, spread-write, `delete` |
| `Sorting` | sorting.dfy | `sortOrder` and its toggle; the stable `Array.prototype.sort` as an insertion sort |
| `SolveRecord` | solve_record.dfy | the solve record, penalties, the `solveTime` getter, `findIndex`/`filter`/`map` by id |
| `FormatTime` | format_time.dfy | `formatTime`, and a reader that parses its text back |
| `GetTimes` | get_times.dfy | `getMinSolveTimeId`, `getAverageOfSolveTime`, `getMinAverageId`, and a DNF-aware average |
| `SessionStore` | session_store.dfy | `sessionData` and its transitions (save, delete, update, create, rename, delete session, select, event) |
| `SolveTable` | solve_table.dfy | the solve table's order, row numbers and cells; the solve dialog's lookup, label, buttons and delete |
| `SessionInfo` | session_info.dfy | the statistics dialog: chronological order, running average, DNF and solve counts, the diff column |
| `MenuConfig` | menu_config.dfy | the palette's fixed tables: pages, main entries, nested entries, placeholders |
| `PaletteState` | palette_state.dfy | the palette's open flag, search, page stack, timer lock, keys and breadcrumbs |
| `Scramble` | scramble.dfy | the scramble's moves and their distinct React keys |
| `CommandMenu` | command_menu.dfy | which entries a page shows for a search, and what selecting an entry does |

Modelling choices:

- `solveTime` is `times.end - times.start`. The getter is always recomputed from `times`, and `times` never changes.
- Random ids, the scramble text and the clock's start and end times are parameters of `SaveSolve`.
- JavaScript's `%` truncates toward zero. It is written out as `JsRem`.
- `Math.floor` of a division by a positive number is Dafny's `/`.
- A `null` inside `+` or a template literal prints as "null". A `null` React child renders nothing.
- Session names keep `Object.keys` insertion order, so the select lists sessions in the order they were made, except that JavaScript lists integer-like names such as "2" first (see "## Left out"). A rename moves the name to the end.
- The palette's item lists are what `renderPageContent` returns. The cmdk component then filters them again (see "## Left out").
- The palette's `setTimeout` callbacks run in order, straight after the selection.
- `currentEvent` starts absent. The initial `sessionData` never sets it; the select's `defaultValue` of "333" does not write it.
- App.jsx passes `Top` neither `sessionData` nor `setSessionData`, so `Top` throws on its first render. With no error boundary above it, React unmounts the whole `App` and nothing renders, the event select included (`SessionStore.TopFailsAsWritten`, listed under "## Findings"). `SessionStore.SetEvent` models the select's handler as if the store were passed.
- `getAverageOfSolveTime` drops no best or worst time: five solves of 1 to 5 seconds average 3000 ms (`GetTimes.UntrimmedAverage`).
- The solve dialog's average rows are written `average && <tr>…</tr>`. An average of 0, which five DNFs in a row give, is a falsy number that React still renders, so the dialog shows a bare "0" where the row would be (`SolveTable.AverageSlotOf`, `SolveTable.AllDnfStrayZero`).
- Deleting a session is never refused. Nothing guards "Default" or the last session.
- Deleting the current session always names "Default", even when "Default" is gone.
- Renaming to an existing name overwrites that session. Renaming to the same name deletes the session.

## Model

| member | source | states |
|---|---|---|
| JsValues.IndexOf | src/components/Modals/SolveInfoModal.jsx:36 | `indexOf` is the first position holding the value, or -1 exactly when none does |
| Decimal.NatToDecimal | src/utils/formatTime.js:3 | `toString` of a non-negative integer is a non-empty string of digits |
| Decimal.DecValueOfNatToDecimal | src/utils/formatTime.js:3 | reading back the digits `toString` wrote gives the number |
| Decimal.PadStartValue | src/utils/formatTime.js:3 | padding with zeros on the left keeps the text made of digits and keeps its value |
| Decimal.NatToDecimalInjective | src/utils/formatTime.js:3 | different numbers print differently |
| Text.JoinSplit | src/components/Main/Top.jsx:22 | splitting at a separator and joining back gives the original text |
| Text.SplitJoin | src/components/Main/Top.jsx:22 | joining pieces free of the separator and splitting again gives the pieces |
| Text.ContainsIff | src/components/CommandMenu/CommandMenu.jsx:176-178 | `includes` holds exactly when the needle occurs at some position |
| Text.Lower | src/components/CommandMenu/CommandMenu.jsx:166 | lower-casing, restricted to ASCII, maps each character on its own: A–Z to a–z, everything else unchanged |
| ObjectMap.Keys | src/components/Select.jsx:32 | `Object.keys` lists one key per entry, in entry order |
| ObjectMap.Get | src/App.jsx:23-24 | `o[k]` is present exactly when `k` is a key, and is that entry's value |
| ObjectMap.Put | src/App.jsx:44-50 | a spread-write keeps an existing key in place and appends a new one at the end |
| ObjectMap.GetPut | src/App.jsx:44-50 | after a write the written key reads the new value and every other key reads as before |
| ObjectMap.PutUnique | src/App.jsx:44-50 | a write keeps the keys distinct |
| ObjectMap.Remove | src/components/CommandMenu/CommandMenu.jsx:134 | the rest pattern keeps only entries of the object, none with the removed key |
| ObjectMap.GetRemove | src/components/CommandMenu/CommandMenu.jsx:134 | after removal the key reads absent and every other key reads as before |
| ObjectMap.RemoveAbsent | src/components/CommandMenu/CommandMenu.jsx:116 | deleting a missing key changes nothing |
| ObjectMap.RemoveUnique | src/components/CommandMenu/CommandMenu.jsx:116 | deletion keeps the keys distinct |
| ObjectMap.KeysRemove | src/components/CommandMenu/CommandMenu.jsx:134-139 | the keys after removal are the old keys without the removed one, order kept |
| ObjectMap.PutFrame | src/components/CommandMenu/CommandMenu.jsx:95 | a write sets the key and leaves every other key alone |
| ObjectMap.RemoveFrame | src/components/CommandMenu/CommandMenu.jsx:134 | a removal drops the key and leaves every other key alone |
| Sorting.Toggle | src/components/Main/Solves.jsx:18-20 | toggling always changes the order |
| Sorting.ToggleTwice | src/components/Main/Solves.jsx:18-20 | toggling twice gives back the order |
| Sorting.SortBy | src/components/Main/Solves.jsx:41-48 | the sort is a permutation of its input and is sorted by the key in the chosen order |
| Sorting.SortByStable | src/components/Main/Solves.jsx:41-48 | for every key value, the elements with that key keep their input order |
| Sorting.InsertSorted | src/components/Main/Solves.jsx:41-48 | inserting into a sorted list keeps it sorted |
| SolveRecord.FindIndex | src/utils/getTimes.js:29 | `findIndex` is -1 exactly when no solve has the id, else the first position holding it |
| SolveRecord.RemoveId | src/App.jsx:55 | `filter` drops exactly the solves with the id, keeps the rest in order, and changes nothing for an absent id |
| SolveRecord.UpdateId | src/App.jsx:70-76 | `map` keeps length, order, ids, scrambles and times; only the named field of matching solves changes |
| FormatTime.FormatTime | src/utils/formatTime.js:1-2 | the result is `null` exactly for 0, the only falsy integer |
| FormatTime.FormatIsDigits | src/utils/formatTime.js:2-13 | every positive input gives a string, never `null` |
| FormatTime.FormatFields | src/utils/formatTime.js:5-12 | the millisecond field is exactly three digits, the seconds field is digits, and the prefix is empty or ends in ':' |
| FormatTime.DigitsRoundTrip | src/utils/formatTime.js:5-12 | the digits after the last ':' times 1000, plus the three digits after '.', give back the input |
| FormatTime.FormatParseRoundTrip | src/utils/formatTime.js:1-16 | reading back `formatTime(ms)` gives `ms` for every positive `ms` |
| FormatTime.FormatTimeInjective | src/utils/formatTime.js:1-16 | different positive inputs give different texts |
| FormatTime.FormatColons | src/utils/formatTime.js:7-12 | a minutes field appears exactly from 60000 ms and an hours field exactly from 3600000 ms; below a minute there is no ':' |
| FormatTime.LeadingDigit | src/utils/formatTime.js:10-12 | the text opens with a digit |
| FormatTime.FormatSixtyOneSeconds | src/utils/formatTime.js:6-12 | seconds are not reduced modulo 60: 61000 ms shows "01:61.000" |
| FormatTime.FormatOneHour | src/utils/formatTime.js:6-12 | every field is a total: one hour shows "01:60:3600.000" |
| GetTimes.FirstMinIndex | src/utils/getTimes.js:20-25 | a `reduce` that replaces only on strict `<` keeps a least key that is strictly below every earlier key |
| GetTimes.MinSolveIndex | src/utils/getTimes.js:1-16 | the best single's penalised time is at most every other's, ties go to the earliest, it is a DNF exactly when all are, and then it is the first solve |
| GetTimes.AverageOfSolveTime | src/utils/getTimes.js:28-49 | `null` exactly when the solve's index is below N-1, which includes an absent id |
| GetTimes.AverageIsFloorMean | src/utils/getTimes.js:31-45 | a present average is the floor of the window's sum over N: a·N ≤ sum < a·N + N |
| GetTimes.AverageBounds | src/utils/getTimes.js:32-45 | with non-negative times the average lies between 0 and the window's largest term |
| GetTimes.MaxTerm | src/utils/getTimes.js:36-42 | the largest term is at least every term and is one of them |
| GetTimes.MinAverageIndex | src/utils/getTimes.js:18-26 | `null` exactly when N exceeds the list; otherwise the first solve whose `average \|\| Infinity` is least |
| GetTimes.UntrimmedAverage | src/utils/getTimes.js:32-45 | no best or worst is dropped: 1 to 5 seconds average 3000 ms |
| GetTimes.AllDnfAverageZero | src/utils/getTimes.js:38-42 | five DNFs in a row average 0 |
| GetTimes.DnfLowersAverage | src/utils/getTimes.js:38-42 | a DNF counts 0: five one-second solves average 1000, and with one DNF 800 |
| GetTimes.AverageDnfAware | src/utils/getTimes.js:28-49 | absent exactly when the original is, and infinite exactly when the window holds a DNF |
| GetTimes.WindowAverage | src/utils/getTimes.js:32-45 | a window's average is infinite exactly when the window holds a DNF |
| GetTimes.AverageDnfAwareAgrees | src/utils/getTimes.js:28-49 | the DNF-aware average is absent when the original is, and its finite values are the original's |
| GetTimes.DnfNeverLowersAverage | src/utils/getTimes.js:38-42 | with DNFs counted as infinitely slow, marking any solve DNF never improves an average |
| GetTimes.MarksNeverLowerAverage | src/utils/getTimes.js:38-42 | the same for any set of solves marked DNF at once |
| GetTimes.WindowMarksNeverLower | src/utils/getTimes.js:32-45 | on one window, marking solves DNF gives an average no better |
| SessionStore.InitialValid | src/App.jsx:19-22 | the first state has the one empty session "Default", which is current, so the current solves are empty |
| SessionStore.WithCurrentSolves | src/App.jsx:57-66 | writing the current session's solves sets them and leaves the other sessions, the names' order, the current name and the event alone; a missing current session is re-created |
| SessionStore.SaveSolve | src/App.jsx:31-52 | a save fails exactly when the current session is missing; otherwise it appends the new solve and changes nothing else |
| SessionStore.SaveSolveAppends | src/App.jsx:42-51 | the saved solve is last, with no penalty, an empty comment, the given times and scramble, and every earlier solve is untouched |
| SessionStore.DeleteSolve | src/App.jsx:54-67 | the current session keeps exactly the solves with another id; other sessions, the current name and the event are unchanged |
| SessionStore.UpdateSolve | src/App.jsx:69-88 | the current session's matching solves take the change; other sessions, the current name and the event are unchanged |
| SessionStore.CreateSession | src/components/CommandMenu/CommandMenu.jsx:92-97 | the typed name maps to an empty session and becomes current; a same-named session is replaced; other names are unchanged |
| SessionStore.RenameSession | src/components/CommandMenu/CommandMenu.jsx:107-121 | the old name is gone; a different new name holds the old name's session; the current name follows the rename; others are unchanged |
| SessionStore.DeleteSession | src/components/CommandMenu/CommandMenu.jsx:132-141 | exactly that name is removed; a deleted current session is replaced by the name "Default" |
| SessionStore.SelectOptions | src/components/Select.jsx:32-40 | the select offers exactly the session names, one each |
| SessionStore.SelectSession | src/components/Select.jsx:10-12 | choosing sets only the current name |
| SessionStore.SetEvent | src/components/Main/Top.jsx:66-69 | choosing an event sets only the event |
| SessionStore.AppTopProps | src/App.jsx:96-100 | App gives `Top` no store |
| SessionStore.RenderTop | src/components/Main/Top.jsx:25-69 | `Top` renders only when it is given a store whose event is one of `wcaEvents`, and then shows that event |
| SessionStore.TopFailsAsWritten | src/App.jsx:96-100 | as wired, `Top` throws on render for every store; passing the initial store, which holds no event, would throw as well |
| SessionStore.FixedTopProps | src/App.jsx:96-100 | the intended wiring passes the store to `Top` |
| SessionStore.InitialFixed | src/components/Main/Top.jsx:63-65 | the intended first state is the valid initial store with the select's default event "333" |
| SessionStore.PickEvents | src/components/Main/Top.jsx:66-69 | a run of event picks changes neither the sessions nor the current session |
| SessionStore.PicksKeepTopRendering | src/components/Main/Top.jsx:43-69 | with the store passed, `Top` keeps rendering through any picks of known events and shows the last one picked |
| SessionStore.TopFixedRenders | src/components/Main/Top.jsx:25-69 | from the intended first state `Top` shows "333", then each event picked |
| SessionStore.SelectOfferedValid | src/components/Select.jsx:10-40 | choosing an offered name always lands on an existing session, and shows its solves |
| SessionStore.RenameSessionValid | src/components/CommandMenu/CommandMenu.jsx:107-121 | a rename to a different name keeps the store valid and the current solves in place |
| SessionStore.DeleteSessionValidIff | src/components/CommandMenu/CommandMenu.jsx:132-141 | after deletion the current name still exists exactly when it was not deleted, or it was and "Default" survives |
| SessionStore.DeleteDefaultDangles | src/components/CommandMenu/CommandMenu.jsx:132-141 | deleting "Default" from the first state leaves the current name dangling, and the next save fails |
| SessionStore.RenameToSelfDeletes | src/components/CommandMenu/CommandMenu.jsx:107-121 | renaming the current session to its own name deletes it, and the next save fails |
| SessionStore.DeleteSessionFixed | src/components/CommandMenu/CommandMenu.jsx:132-141 | the corrected deletion removes the name and falls back to a "Default" that exists |
| SessionStore.DeleteSessionFixedValid | src/components/CommandMenu/CommandMenu.jsx:132-141 | the corrected deletion keeps every valid store valid, and agrees with the original whenever the original does |
| SessionStore.RenameSessionFixed | src/components/CommandMenu/CommandMenu.jsx:107-121 | the corrected rename moves the session to the new name, and removes the old name only when it differs |
| SessionStore.RenameSessionFixedValid | src/components/CommandMenu/CommandMenu.jsx:107-121 | the corrected rename keeps every valid store valid, and the current solves in place |
| SolveTable.SortedSolves | src/components/Main/Solves.jsx:41-48 | the table is a permutation of the session sorted by start time |
| SolveTable.SortedSolvesStable | src/components/Main/Solves.jsx:41-48 | solves with equal start times keep their session order |
| SolveTable.SortedAscending | src/components/Main/Solves.jsx:41-48 | on a session saved in time order the ascending sort is the session |
| SolveTable.SortedDescending | src/components/Main/Solves.jsx:41-48 | on a session saved in time order the descending sort is the session reversed |
| SolveTable.SortedSessionOrder | src/components/Main/Solves.jsx:41-48 | both orders of the table, for a session saved in time order |
| SolveTable.Reverse | src/components/Main/Solves.jsx:46 | reversal keeps the length and mirrors the positions |
| SolveTable.RowNumber | src/components/Main/Solves.jsx:107-109 | a row number is below the row count |
| SolveTable.RowNumbersPermutation | src/components/Main/Solves.jsx:107-109 | row numbers are distinct, and numbering twice gives back the row |
| SolveTable.RowShowsSessionPosition | src/components/Main/Solves.jsx:107-122 | in a session saved in time order, a row's number is its solve's position in the session |
| SolveTable.RowLabelReads | src/components/Main/Solves.jsx:122-123 | the row label ends in "*" exactly when the comment is non-empty, and its digits read as the row number |
| SolveTable.TimeCellRoundTrip | src/components/Main/Solves.jsx:132-136 | a time cell reads back as the penalised time, and starts with "+" exactly for a "+2" |
| SolveTable.TimeCellHidesDnfTime | src/components/Main/Solves.jsx:132-136 | two DNFs of different lengths show the same cell but different dialog labels |
| SolveTable.TimeLabelRoundTrip | src/components/Modals/SolveInfoModal.jsx:138-150 | the dialog label reads back as the penalty and the raw time |
| SolveTable.PlusTwoLabelReads | src/components/Modals/SolveInfoModal.jsx:139-144 | a "+2" label reads back as "+2" with the raw time |
| SolveTable.DnfLabelReads | src/components/Modals/SolveInfoModal.jsx:145-147 | a `DNF(...)` label reads back as DNF with the raw time |
| SolveTable.PlainLabelReads | src/components/Modals/SolveInfoModal.jsx:148-150 | an unpenalised label reads back as no penalty with the raw time |
| SolveTable.RelabelReads | src/components/Modals/SolveInfoModal.jsx:138-150 | after a penalty change the label reads back as the new penalty with the same raw time |
| SolveTable.CrownedIff | src/components/Modals/SolveInfoModal.jsx:124-136 | with distinct ids, a solve wears the crown exactly when it is the best single, and the best single wears it |
| SolveTable.AverageRowVisibleIff | src/components/Modals/SolveInfoModal.jsx:154-158 | the dialog's average row is shown exactly when the table's average cell is non-empty |
| SolveTable.AverageSlotOf | src/components/Modals/SolveInfoModal.jsx:154-158 | the dialog's average slot is empty for `null`, the bare text "0" exactly for an average of 0, and the row exactly when the row is visible |
| SolveTable.AverageSlotMatchesCell | src/components/Modals/SolveInfoModal.jsx:154-158 | a shown average row carries the table's cell text, and is shown exactly when that text is non-empty |
| SolveTable.AllDnfStrayZero | src/components/Modals/SolveInfoModal.jsx:154-158 | five DNFs leave the bare text "0" where the Ao5 row would be |
| SolveTable.AverageCellReads | src/components/Main/Solves.jsx:144-146 | a shown positive average reads back as the average |
| SolveTable.FilterId | src/components/Modals/SolveInfoModal.jsx:35 | the filter keeps only solves with the id |
| SolveTable.FirstMatch | src/components/Modals/SolveInfoModal.jsx:35 | the filter is empty exactly when `findIndex` is -1, and its first hit is the solve at `findIndex` |
| SolveTable.ShownSolve | src/components/Modals/SolveInfoModal.jsx:35-36 | the dialog shows nothing exactly when no solve has the id; otherwise the first such solve, numbered by its position |
| SolveTable.ShownAfterUpdate | src/App.jsx:69-88 | an update keeps the shown solve at its position, with its id, scramble and times |
| SolveTable.ShownAfterUpdateId | src/App.jsx:70-76 | the same, on the solve list itself |
| SolveTable.PressHighlights | src/components/Modals/SolveInfoModal.jsx:290-340 | after a penalty click that button, and only that one, is highlighted, and nothing else about the solve changes |
| SolveTable.PressRelabels | src/components/Modals/SolveInfoModal.jsx:290-340 | after a penalty click the label reads back as the new penalty with the same raw time |
| SolveTable.EditCommentShown | src/components/Modals/SolveInfoModal.jsx:273-280 | after a keystroke the shown solve holds the typed text and nothing else changes |
| SolveTable.HandleDeleteClick | src/components/Modals/SolveInfoModal.jsx:38-46 | with shift the solve goes at once and the rest stay; without shift only the confirmation opens |
| SessionInfo.Chronological | src/components/Modals/SessionInfoModal.jsx:73-75 | the chronological list is a permutation sorted by start, and is the session itself when it was saved in time order |
| SessionInfo.InTimeOrder | src/components/Modals/SessionInfoModal.jsx:73-75 | a session saved in time order is already chronological |
| SessionInfo.ValidTimes | src/components/Modals/SessionInfoModal.jsx:85-87 | valid times plus DNFs number the window's solves |
| SessionInfo.ValidTimesIgnorePlusTwo | src/components/Modals/SessionInfoModal.jsx:85-87 | swapping one non-DNF penalty for another leaves the valid times unchanged |
| SessionInfo.MinValid | src/components/Modals/SessionInfoModal.jsx:88 | the threshold is the least count reaching 60% of the size |
| SessionInfo.MinValidOfChartSizes | src/components/Modals/SessionInfoModal.jsx:88 | an Ao5 needs 3 valid times and an Ao12 needs 8 |
| SessionInfo.Window | src/components/Modals/SessionInfoModal.jsx:84 | the window is the `size` solves ending at the index |
| SessionInfo.MinOf | src/components/Modals/SessionInfoModal.jsx:92-94 | the least value is in the list and at most every value |
| SessionInfo.MaxOf | src/components/Modals/SessionInfoModal.jsx:92-93 | the greatest value is in the list and at least every value |
| SessionInfo.Trimmed | src/components/Modals/SessionInfoModal.jsx:91-95 | trimming removes exactly one least and one greatest value |
| SessionInfo.TrimmedParts | src/components/Modals/SessionInfoModal.jsx:92-94 | `pop` removes the sorted list's last value and `shift` its first |
| SessionInfo.SortedEnds | src/components/Modals/SessionInfoModal.jsx:92 | the ends of the numeric sort are the least and the greatest value |
| SessionInfo.RunningKept | src/components/Modals/SessionInfoModal.jsx:82-96 | `null` exactly before a full window or below the valid threshold; otherwise the valid times, trimmed for sizes above 3 |
| SessionInfo.RunningMean | src/components/Modals/SessionInfoModal.jsx:97 | the running average is present exactly when kept times are |
| SessionInfo.KeptWithinValid | src/components/Modals/SessionInfoModal.jsx:82-96 | every kept time lies between the window's least and greatest valid time |
| SessionInfo.RunningMeanBounds | src/components/Modals/SessionInfoModal.jsx:82-98 | the running average in seconds lies between the fastest and slowest valid time |
| SessionInfo.RunningKeptIgnoresPlusTwo | src/components/Modals/SessionInfoModal.jsx:84-87 | a "+2" never moves the chart |
| SessionInfo.SessionCounts | src/components/Modals/SessionInfoModal.jsx:247-306 | both counts are 0 exactly when no solve is valid; otherwise the DNFs and all solves |
| SessionInfo.DnfCountPermutation | src/components/Modals/SessionInfoModal.jsx:299-300 | counting DNFs does not depend on the order |
| SessionInfo.DnfCountAppend | src/components/Modals/SessionInfoModal.jsx:299-300 | the DNFs of two lists add up |
| SessionInfo.SessionCountsOfSession | src/components/Modals/SessionInfoModal.jsx:299-301 | the counts shown are those of the session itself, whatever its order |
| SessionInfo.AllDnfShowsNothing | src/components/Modals/SessionInfoModal.jsx:252-264 | a session of DNFs only reports no solves and no DNFs |
| SessionInfo.Neighbour | src/components/Modals/SessionInfoModal.jsx:663-667 | the diff neighbour is missing exactly for the row numbered 0, the earliest |
| SessionInfo.NeighbourIsPrevious | src/components/Modals/SessionInfoModal.jsx:663-667 | in a session saved in time order the neighbour is the previous solve in time |
| SessionInfo.Diff | src/components/Modals/SessionInfoModal.jsx:659-698 | the diff cell is empty exactly when there is no neighbour |
| SessionInfo.DiffEqualTimesShowsNull | src/components/Modals/SessionInfoModal.jsx:678-698 | equal neighbouring times show "+null", which reads as no number |
| SessionInfo.DiffFixed | src/components/Modals/SessionInfoModal.jsx:673-698 | the corrected cell is empty exactly when there is no neighbour |
| SessionInfo.DiffFixedReads | src/components/Modals/SessionInfoModal.jsx:673-698 | the corrected cell reads back as the signed difference, zero included |
| SessionInfo.DiffFixedAgrees | src/components/Modals/SessionInfoModal.jsx:673-698 | for a non-zero difference the corrected cell is the cell as written |
| MenuConfig.MainMenuActions | src/components/CommandMenu/commandMenuConfig.js:35-83 | seven entries; only the first regenerates, the others each push a different page of the palette |
| MenuConfig.MainMenuChildren | src/components/CommandMenu/commandMenuConfig.js:24-65 | only "Theme" and "Scramble Visualization" have children, exactly their nested entries |
| MenuConfig.MainMenuTitlesDistinct | src/components/CommandMenu/commandMenuConfig.js:35-83 | the seven titles are distinct |
| MenuConfig.PlaceholderSingle | src/components/CommandMenu/commandMenuConfig.js:85-104 | an empty stack and "home" give the default prompt; a single page has its own prompt exactly when the table lists it |
| MenuConfig.PlaceholderRenameFlow | src/components/CommandMenu/commandMenuConfig.js:85-104 | the rename flow's second level gets "Enter new session name" only for a session called "new name" |
| PaletteState.CurrentPage | src/components/CommandMenu/useCommandMenu.js:8 | the page is missing exactly for an empty stack, else it is the top of the stack |
| PaletteState.NavigateToPage | src/components/CommandMenu/useCommandMenu.js:32-35 | pushes exactly one page, which becomes current, and clears the search |
| PaletteState.NavigateBack | src/components/CommandMenu/useCommandMenu.js:27-30 | pops the top page, does nothing to an empty stack, and clears the search |
| PaletteState.ResetNavigation | src/components/CommandMenu/useCommandMenu.js:37-40 | empties the stack and the search |
| PaletteState.NavigateRoundTrip | src/components/CommandMenu/useCommandMenu.js:27-40 | a push then a pop restores the stack; resetting twice is resetting once |
| PaletteState.SetOpen | src/components/CommandMenu/useCommandMenu.js:22-25 | a change of `open` clears the search and sets the timer lock to `open` |
| PaletteState.ShortcutKey | src/components/CommandMenu/useCommandMenu.js:10-20 | Ctrl+K or Cmd+K toggles the palette; any other key changes nothing |
| PaletteState.HandleKeyDown | src/components/CommandMenu/CommandMenu.jsx:151-161 | Escape, or Backspace in an empty search, pops a page and clears the search; Escape on an empty stack also closes |
| PaletteState.TimerSyncedPreserved | src/components/CommandMenu/useCommandMenu.js:22-25 | every palette transition keeps the timer lock equal to `open` |
| PaletteState.CrumbClick | src/components/CommandMenu/CommandMenu.jsx:401-410 | a breadcrumb keeps a prefix of the stack |
| PaletteState.CrumbClickFixed | src/components/CommandMenu/CommandMenu.jsx:401-410 | the corrected breadcrumb cuts the stack back to the clicked page, which ends it |
| PaletteState.CrumbClickShallow | src/components/CommandMenu/CommandMenu.jsx:401-410 | on stacks of up to two distinct pages the two agree |
| PaletteState.CrumbClickDeep | src/components/CommandMenu/CommandMenu.jsx:401-410 | on ["rename session", "rename session", "Default"] the first crumb keeps two pages where the corrected one keeps one; on ["a", "b", "c"] the first crumb keeps two pages and the second one |
| Scramble.Moves | src/components/Main/Top.jsx:22 | the moves are never an empty list, and joined by spaces give back the scramble |
| Scramble.MoveKeys | src/components/Main/Top.jsx:117-128 | one key per move: the bare move the first time, move + "-" + k the k-th time |
| Scramble.OccurrencesGrow | src/components/Main/Top.jsx:120-127 | a later copy of a move has been counted more often than an earlier one |
| Scramble.KeysDistinct | src/components/Main/Top.jsx:117-128 | when no move holds a '-', every move gets a different key |
| Scramble.KeysCollideWithDash | src/components/Main/Top.jsx:117-128 | a move "R-2" collides with the second "R" |
| CommandMenu.TitleHits | src/components/CommandMenu/CommandMenu.jsx:176-178 | the title filter keeps at most every entry |
| CommandMenu.TitleHitsIff | src/components/CommandMenu/CommandMenu.jsx:176-178 | an item is returned by `renderPageContent` exactly when some entry's lower-cased title holds the lower-cased query |
| CommandMenu.ChildHitsIff | src/components/CommandMenu/CommandMenu.jsx:188-223 | an item is returned by `renderPageContent` exactly when some child's "label keywords" holds the query, titled "Parent → Child" |
| CommandMenu.RootSearchEmpty | src/components/CommandMenu/CommandMenu.jsx:169-173 | with an empty search `renderPageContent` returns the seven main entries in order |
| CommandMenu.RootSearchTitles | src/components/CommandMenu/CommandMenu.jsx:175-185 | when some title matches, `renderPageContent` returns exactly the matching entries |
| CommandMenu.RootSearchChildren | src/components/CommandMenu/CommandMenu.jsx:187-229 | when no title matches, `renderPageContent` returns exactly the matching children |
| CommandMenu.SolveLabelMarksComment | src/components/CommandMenu/CommandMenu.jsx:237-239 | a solve's label carries its bracketed comment exactly when the comment is not blank |
| CommandMenu.DeleteSolveItems | src/components/CommandMenu/CommandMenu.jsx:233-248 | one entry per solve, in order, each choosing that solve for deletion |
| CommandMenu.SessionItems | src/components/CommandMenu/CommandMenu.jsx:308-324 | one entry per session, labelled with its position, choosing it for rename or deletion |
| CommandMenu.OfferedEnabled | src/components/CommandMenu/CommandMenu.jsx:326-335 | a rename is only offered for an existing session |
| CommandMenu.CloseAndReset | src/components/CommandMenu/CommandMenu.jsx:103-104 | closing and resetting empties the stack and search, closes, and touches nothing else |
| CommandMenu.Select | src/components/CommandMenu/useCommandMenu.js:22-25 | every selection keeps the timer lock equal to `open` |
| CommandMenu.CreateOfferedIff | src/components/CommandMenu/CommandMenu.jsx:298-306 | the create entry is offered exactly when a name is typed, and creates that session |
| CommandMenu.RenameFlow | src/components/CommandMenu/CommandMenu.jsx:308-335 | picking a session pushes its name, and the next page offers renaming it to the search |
| CommandMenu.RenameShadowedByPage | src/components/CommandMenu/CommandMenu.jsx:232-335 | a session named "theme" gets the theme page instead of a rename |
| CommandMenu.PageItemsFixed | src/components/CommandMenu/CommandMenu.jsx:308-335 | the corrected switch offers the rename for any session picked on the rename page |
| CommandMenu.RenamePageLists | src/components/CommandMenu/CommandMenu.jsx:308-315 | the rename page lists every session, each choice pushing its name |
| CommandMenu.DeepStackReachable | src/components/CommandMenu/CommandMenu.jsx:298-335 | with sessions "Default" and "rename session", two offered choices on the rename page build ["rename session", "rename session", "Default"], where the first crumb keeps two pages |
| CommandMenu.RenameFixedReachesEverySession | src/components/CommandMenu/CommandMenu.jsx:308-335 | with the corrected switch every offered session can be renamed |
| CommandMenu.ChildShortcutEffects | src/components/CommandMenu/CommandMenu.jsx:202-215 | the "Dark Theme" shortcut sets the dark theme and closes the palette; the "3D" shortcut sets the view and leaves the palette open on the visualization page |

## Left out

- Timer start and stop, key listeners and hold delays (`Timer.jsx`): event and timer plumbing.
- Toasts, ripple buttons, the resize bar and every animation: display only.
- The chart glue of the statistics dialog: mean, standard deviation, median, consistency, histogram bins, `toFixed`, the best-solve trend and the chart options. These are floating point.
- The scramble service, `useLocalStorage` persistence, `TwistyPlayer` and `wcaEvents`: external calls. The scramble text is a parameter of `SaveSolve`.
- `Math.random` ids and the clock: they are parameters.
- The delete-solve confirmation dialog and the dialogs' open flags. The confirmation is a thin wrapper over `deleteSolve`; `SolveTable.HandleDeleteClick` returns whether it opens.
- `CommandMenuItem.jsx`: it sets each entry's filter value to `${label} ${keywords}`, which only cmdk's own filter reads (next line). The build configuration has no logic.
- CommandMenu.ChildHitsIff, CommandMenu.RootSearchChildren, CommandMenu.PageItems: these describe what `renderPageContent` returns, not what the palette shows. The `<Command>` element (CommandMenu.jsx:379-384) keeps cmdk's default fuzzy filter. That filter scores each entry's `label keywords` value against the search and hides those scoring 0, which drops entries whose value does not hold the query's letters in order. It also reorders entries by score. A child hit carries its parent's keywords, so for the search "black" the returned "Theme → Dark Theme" is hidden: its value "Theme → Dark Theme theme appearance light dark mode color" has no "b", and the palette reports no results. "white", "bright", "night", "day" and "flat" behave the same. On the theme, visualization, delete-solve, rename and delete-session pages the typed search filters the listed entries too, while `PageItems` ignores it. cmdk's scoring is a foreign library and is not modelled.
- ObjectMap.Keys, ObjectMap.Put: keep plain insertion order. JavaScript lists integer-like object keys (such as "2") first, in ascending numeric order, ahead of the other keys; a session named "2" is listed before "Default". The model does not reorder them.
- The statistics dialog's own `sortedSolves` and `toggleSortOrder` (SessionInfoModal.jsx:60-71). They are the table's, and `SolveTable.SortedSolves` models both.
- SessionInfo.RunningMean: states only when the average is present, and its bounds (via `SessionInfo.RunningMeanBounds`). The JavaScript division is floating point, while the model divides exactly in `real`.
- SessionInfo.RunningKept: requires a size of at least 1. A size of 0 divides by zero (NaN), and the dialog only uses 5 and 12.
- SessionInfo.MinValid: computes `Math.ceil(size * 0.6)` exactly. It agrees with the floating-point product at the sizes 5 and 12 the dialog uses.
- SolveTable.CrownedIff: requires distinct ids, which random ids make near certain. It also requires a non-empty session, as `reduce` without a seed throws on an empty list.
- SolveTable.RowShowsSessionPosition, SolveTable.SortedAscending and SolveTable.SortedDescending: require a session saved in time order, as the timer saves it.
- SessionStore.RenameSession: requires the old name to exist. The only caller checks it (CommandMenu.jsx:327).
- SessionStore.SaveSolve: returns no store where the source throws (a missing current session).
- SolveTable.TimeCellRoundTrip and SolveTable.TimeLabelRoundTrip: require a positive solve time. A zero time shows `null` text.
- Text.Lower: maps only A–Z. JavaScript's `toLowerCase` applies full Unicode case mapping: it lowers letters such as "Ä" or the Kelvin sign (U+212A, to "k"), and can change the length ("İ" becomes two code units). The palette's search lemmas (`CommandMenu.TitleHitsIff`, `CommandMenu.ChildHitsIff`) hold for this ASCII lowering, so they describe the program only for queries and titles whose letters are ASCII.
- SessionStore.SetEvent: models Top.jsx:66-69 as though App passed `sessionData` and `setSessionData`; as written the select never renders (see "## Findings").
- FormatTime.FormatParseRoundTrip: holds for positive inputs only. Negative inputs format with '-' signs inside the fields, and no solve time is negative on a working clock.

## Findings

| source | as written | input that shows it | evidently intended | confidence | as-written member | corrected member |
|---|---|---|---|---|---|---|
| src/utils/getTimes.js:38-42 | a DNF adds 0 to the window sum | five 1000 ms solves average 1000; marking one DNF gives 800 | a DNF never improves an average (speedcubing counts it as infinitely slow) | not executed; high | GetTimes.DnfLowersAverage | GetTimes.DnfNeverLowersAverage |
| src/components/CommandMenu/CommandMenu.jsx:132-141 | a deleted current session is replaced by the name "Default" without checking that it exists | delete "Default" in the first state; the next save reads an undefined session | the current name always names an existing session | not executed; high | SessionStore.DeleteDefaultDangles | SessionStore.DeleteSessionFixedValid |
| src/components/CommandMenu/CommandMenu.jsx:107-121 | the new key is written, then the old key is deleted | rename the current session "Default" to "Default"; it is gone and the next save fails | a rename to the same name changes nothing | not executed; high | SessionStore.RenameToSelfDeletes | SessionStore.RenameSessionFixedValid |
| src/components/CommandMenu/CommandMenu.jsx:232-335 | the page switch tests the fixed page names before the session names | a session named "theme", picked on the rename page, shows the theme choices | every session on the rename page can be renamed | not executed; high | CommandMenu.RenameShadowedByPage | CommandMenu.RenameFixedReachesEverySession |
| src/components/CommandMenu/CommandMenu.jsx:401-410 | a breadcrumb keeps `length - indexOf(page) - 1` pages | with sessions "Default" and "rename session", choose "rename session" and then "Default" on the rename page; the stack is ["rename session", "rename session", "Default"], and clicking the first crumb keeps two pages | clicking a crumb returns to that page | not executed; medium | PaletteState.CrumbClickDeep | PaletteState.CrumbClickFixed |
| src/App.jsx:96-100 | `Top` is rendered without `sessionData` and `setSessionData`, and reads `sessionData.currentEvent` while rendering | the first render of the app | the event select shows the store's event and writes the picked one back | not executed; high | SessionStore.TopFailsAsWritten | SessionStore.TopFixedRenders |
| src/components/Modals/SessionInfoModal.jsx:678-698 | `formatTime(0)` is `null`, so a zero difference prints as "+null" | two neighbouring solves of the same time | "+00.000" | not executed; high | SessionInfo.DiffEqualTimesShowsNull | SessionInfo.DiffFixedReads |

The displayed averages and cells keep the program's behaviour as written.
`AverageOfSolveTime`, `DeleteSession`, `RenameSession`, `PageItems`,
`CrumbClick` and `Diff` are what the screens use. The corrected members sit
beside them and are proved against them: each agrees with the original
wherever the original does what was meant (`GetTimes.AverageDnfAwareAgrees`,
`SessionStore.DeleteSessionFixedValid`, `CommandMenu.PageItemsFixed`,
`PaletteState.CrumbClickShallow`, `SessionInfo.DiffFixedAgrees`).

=== FILE: command_menu.dfy ===
/** The command palette (src/components/CommandMenu/CommandMenu.jsx): which
    entries a page stack and a search show, and what selecting an entry does to
    the palette, the session store, the theme and the scramble view. The
    palette's `setTimeout` delays are taken as running in order, right after
    the selection. */
module CommandMenu {

  import opened JsValues
  import opened Text
  import opened Decimal
  import opened FormatTime
  import opened SolveRecord
  import opened ObjectMap
  import opened SessionStore
  import opened MenuConfig
  import opened PaletteState

  /** What selecting an entry does. */
  datatype Command =
    | MainAction(action: Action)                    // a main-menu entry's `onSelect`
    | ChildShortcut(action: Action, child: string)  // a "Parent → Child" search hit
    | PickTheme(dark: bool)
    | PickVisualization(view: string)
    | PickSolveToDelete(id: string)
    | CreateNamed(name: string)
    | RenameTo(oldName: string, newName: string)
    | DeleteNamed(name: string)

  /** A rendered `CommandMenuItem`: its text and its `onSelect`. */
  datatype Item = Item(title: string, command: Command)

  function MainItem(m: MenuItem): Item {
    Item(m.title, MainAction(m.action))
  }

  /** The root level's first test: the lower-cased title holds the query. */
  predicate TitleHit(m: MenuItem, q: string) {
    Contains(Lower(m.title), Lower(q))
  }

  /** The root level's fallback test on "label keywords". */
  predicate ChildHit(c: Child, q: string) {
    Contains(Lower(c.title + " " + c.keywords), Lower(q))
  }

  function ChildItem(m: MenuItem, c: Child): Item {
    Item(m.title + " → " + c.title, ChildShortcut(m.action, c.title))
  }

  /** `mainItems.filter(item => item.label.toLowerCase().includes(searchLower))`. */
  function TitleHits(items: seq<MenuItem>, q: string): (r: seq<Item>)
    ensures |r| <= |items|
  {
    if items == [] then []
    else (if TitleHit(items[0], q) then [MainItem(items[0])] else []) + TitleHits(items[1..], q)
  }

  /** An item of the title search: some entry's title matches and the item is
      that entry. */
  ghost predicate IsTitleHit(items: seq<MenuItem>, q: string, e: Item) {
    exists i :: 0 <= i < |items| && TitleHit(items[i], q) && e == MainItem(items[i])
  }

  lemma {:induction false} TitleHitsIff(items: seq<MenuItem>, q: string, e: Item)
    ensures e in TitleHits(items, q) <==> IsTitleHit(items, q, e)
  {
    if items != [] {
      TitleHitsIff(items[1..], q, e);
      if e in TitleHits(items[1..], q) {
        var i :| 0 <= i < |items[1..]| && TitleHit(items[1..][i], q) && e == MainItem(items[1..][i]);
        assert items[i + 1] == items[1..][i];
      }
      if IsTitleHit(items, q, e) {
        var i :| 0 <= i < |items| && TitleHit(items[i], q) && e == MainItem(items[i]);
        if i > 0 {
          assert items[1..][i - 1] == items[i];
          assert IsTitleHit(items[1..], q, e);
        }
      }
    }
  }

  /** The hits among one entry's children, relabelled "Parent → Child". */
  function ChildHitsOf(m: MenuItem, cs: seq<Child>, q: string): (r: seq<Item>)
    ensures |r| <= |cs|
  {
    if cs == [] then []
    else (if ChildHit(cs[0], q) then [ChildItem(m, cs[0])] else []) + ChildHitsOf(m, cs[1..], q)
  }

  lemma {:induction false} ChildHitsOfIff(m: MenuItem, cs: seq<Child>, q: string, e: Item)
    ensures e in ChildHitsOf(m, cs, q) <==> exists j :: 0 <= j < |cs| && ChildHit(cs[j], q) && e == ChildItem(m, cs[j])
  {
    if cs != [] {
      ChildHitsOfIff(m, cs[1..], q, e);
      if e in ChildHitsOf(m, cs[1..], q) {
        var j :| 0 <= j < |cs[1..]| && ChildHit(cs[1..][j], q) && e == ChildItem(m, cs[1..][j]);
        assert cs[j + 1] == cs[1..][j];
      }
      if exists j :: 0 <= j < |cs| && ChildHit(cs[j], q) && e == ChildItem(m, cs[j]) {
        var j :| 0 <= j < |cs| && ChildHit(cs[j], q) && e == ChildItem(m, cs[j]);
        if j > 0 {
          assert cs[1..][j - 1] == cs[j];
        }
      }
    }
  }

  /** `getChildMatches(mainItems)`: the `flatMap` over the entries' children. */
  function ChildHits(items: seq<MenuItem>, q: string): seq<Item> {
    if items == [] then [] else ChildHitsOf(items[0], items[0].children, q) + ChildHits(items[1..], q)
  }

  /** An item of the child search: some entry's child matches and the item is
      that child relabelled under its parent. */
  ghost predicate IsChildHit(items: seq<MenuItem>, q: string, e: Item) {
    exists i, j :: 0 <= i < |items| && 0 <= j < |items[i].children|
      && ChildHit(items[i].children[j], q) && e == ChildItem(items[i], items[i].children[j])
  }

  lemma {:induction false} ChildHitsIff(items: seq<MenuItem>, q: string, e: Item)
    ensures e in ChildHits(items, q) <==> IsChildHit(items, q, e)
  {
    if items != [] {
      ChildHitsIff(items[1..], q, e);
      var head := ChildHitsOf(items[0], items[0].children, q);
      ChildHitsOfIff(items[0], items[0].children, q, e);
      assert ChildHits(items, q) == head + ChildHits(items[1..], q);
      if e in head {
        var j :| 0 <= j < |items[0].children| && ChildHit(items[0].children[j], q)
                 && e == ChildItem(items[0], items[0].children[j]);
        assert IsChildHit(items, q, e);
      } else if IsChildHit(items[1..], q, e) {
        var i, j :| 0 <= i < |items[1..]| && 0 <= j < |items[1..][i].children|
          && ChildHit(items[1..][i].children[j], q) && e == ChildItem(items[1..][i], items[1..][i].children[j]);
        assert items[i + 1] == items[1..][i];
        assert IsChildHit(items, q, e);
      }
      if IsChildHit(items, q, e) {
        var i, j :| 0 <= i < |items| && 0 <= j < |items[i].children|
          && ChildHit(items[i].children[j], q) && e == ChildItem(items[i], items[i].children[j]);
        if i > 0 {
          assert items[1..][i - 1] == items[i];
          assert IsChildHit(items[1..], q, e);
        }
      }
    }
  }

  /** The root level's list for a search. */
  function RootItems(search: string): seq<Item> {
    RootItemsOf(MainMenuItems(), search)
  }

  /** The root list over any entries: all of them for an empty search, else
      the title hits, or the child hits when no title matches. */
  function RootItemsOf(items: seq<MenuItem>, search: string): seq<Item> {
    if search == "" then seq(|items|, i requires 0 <= i < |items| => MainItem(items[i]))
    else
      var hits := TitleHits(items, search);
      if hits != [] then hits else ChildHits(items, search)
  }

  /** An empty search lists the seven main entries in order. */
  lemma RootSearchEmpty()
    ensures |RootItems("")| == 7
    ensures forall i :: 0 <= i < 7 ==> RootItems("")[i] == MainItem(MainMenuItems()[i])
  {
  }

  /** A search that some main title holds lists exactly those entries. */
  lemma {:induction false} RootSearchTitles(search: string, e: Item)
    requires search != ""
    requires exists i :: 0 <= i < 7 && TitleHit(MainMenuItems()[i], search)
    ensures e in RootItems(search) <==> IsTitleHit(MainMenuItems(), search, e)
  {
    assert |MainMenuItems()| == 7;
    RootTitles(MainMenuItems(), search, e);
  }

  lemma {:induction false} RootTitles(items: seq<MenuItem>, search: string, e: Item)
    requires search != ""
    requires exists i :: 0 <= i < |items| && TitleHit(items[i], search)
    ensures e in RootItemsOf(items, search) <==> IsTitleHit(items, search, e)
  {
    var i :| 0 <= i < |items| && TitleHit(items[i], search);
    TitleHitsIff(items, search, MainItem(items[i]));
    TitleHitsIff(items, search, e);
  }

  /** A search that no main title holds lists exactly the matching children,
      each under its parent's title. */
  lemma {:induction false} RootSearchChildren(search: string, e: Item)
    requires search != ""
    requires forall i :: 0 <= i < 7 ==> !TitleHit(MainMenuItems()[i], search)
    ensures e in RootItems(search) <==> IsChildHit(MainMenuItems(), search, e)
  {
    assert |MainMenuItems()| == 7;
    RootChildren(MainMenuItems(), search, e);
  }

  lemma {:induction false} RootChildren(items: seq<MenuItem>, search: string, e: Item)
    requires search != ""
    requires forall i :: 0 <= i < |items| ==> !TitleHit(items[i], search)
    ensures e in RootItemsOf(items, search) <==> IsChildHit(items, search, e)
  {
    if TitleHits(items, search) != [] {
      var x := TitleHits(items, search)[0];
      TitleHitsIff(items, search, x);
    }
    ChildHitsIff(items, search, e);
  }

  /** The solve's label on the "delete solve" page: its position, its time
      (`null` when it is 0) and its comment in brackets unless blank. */
  function SolveLabel(index: nat, s: Solve): string {
    NatToDecimal(index) + " " + Concat(FormatTime.FormatTime(s.SolveTime())) + " "
    + (if !IsBlank(s.comment) then "[" + s.comment + "]" else "")
  }

  /** The bracketed comment is there exactly when the comment is not blank. */
  lemma {:induction false} SolveLabelMarksComment(index: nat, s: Solve)
    ensures var l := SolveLabel(index, s);
      |l| > 0 && (l[|l| - 1] == ']' <==> !IsBlank(s.comment))
  {
  }

  /** One entry per solve, in order, each choosing that solve for deletion. */
  function DeleteSolveItems(solves: seq<Solve>, from: nat): (r: seq<Item>)
    ensures |r| == |solves|
    ensures forall k :: 0 <= k < |r| ==>
      r[k] == Item(SolveLabel(from + k, solves[k]), PickSolveToDelete(solves[k].id))
  {
    if solves == [] then []
    else [Item(SolveLabel(from, solves[0]), PickSolveToDelete(solves[0].id))] + DeleteSolveItems(solves[1..], from + 1)
  }

  /** One entry per session name, labelled with its position; the rename page
      pushes the name, the delete page deletes it. */
  function SessionItems(names: seq<string>, from: nat, forRename: bool): (r: seq<Item>)
    ensures |r| == |names|
    ensures forall k :: 0 <= k < |r| ==> r[k].title == NatToDecimal(from + k) + " " + names[k]
    ensures forall k :: 0 <= k < |r| ==>
      r[k].command == if forRename then MainAction(NavigateTo(names[k])) else DeleteNamed(names[k])
  {
    if names == [] then []
    else
      var c := if forRename then MainAction(NavigateTo(names[0])) else DeleteNamed(names[0]);
      [Item(NatToDecimal(from) + " " + names[0], c)] + SessionItems(names[1..], from + 1, forRename)
  }

  function RenameItem(page: string, search: string): Item {
    Item("Rename Session: " + page + " → " + search, RenameTo(page, search))
  }

  /** `renderPageContent()`: the root level when the top page is missing or
      empty (both falsy), otherwise the page switch, whose fallback offers the
      rename of a page that names a session. */
  function PageItems(pages: seq<string>, search: string, st: Store): seq<Item> {
    var page := CurrentPage(pages);
    if page.None? || page.value == "" then RootItems(search)
    else if page.value == DeleteSolvePage then DeleteSolveItems(SessionSolves(st), 0)
    else if page.value == ThemePage then [Item("Light Theme", PickTheme(false)), Item("Dark Theme", PickTheme(true))]
    else if page.value == VisualizationPage then [Item("2D", PickVisualization("2D")), Item("3D", PickVisualization("3D"))]
    else if page.value == CreateSessionPage then
      (if search != "" then [Item("Create Session: " + search, CreateNamed(search))] else [])
    else if page.value == RenameSessionPage then SessionItems(Keys(st.sessions), 0, true)
    else if page.value == DeleteSessionPage then SessionItems(Keys(st.sessions), 0, false)
    else if Has(st.sessions, page.value) then [RenameItem(page.value, search)]
    else []
  }

  /** Everything the palette's entries act on. `scrambleRequests` counts calls
      of `generateScramble`; `deleteDialog` is the solve whose delete
      confirmation is open. */
  datatype Ui = Ui(palette: Palette, store: Store, dark: bool, view: string,
                   scrambleRequests: nat, deleteDialog: Option<string>)

  /** A rename is only offered for a session that exists. */
  predicate Enabled(st: Store, c: Command) {
    c.RenameTo? ==> Has(st.sessions, c.oldName)
  }

  /** Every offered entry can be selected. */
  lemma {:induction false} OfferedEnabled(pages: seq<string>, search: string, st: Store, e: Item)
    requires e in PageItems(pages, search, st)
    ensures Enabled(st, e.command)
  {
    var page := CurrentPage(pages);
    if page.None? || page.value == "" {
      RootNeverRenames(MainMenuItems(), search, e);
    }
  }

  /** The root level offers main entries and shortcuts, never a rename. */
  lemma {:induction false} RootNeverRenames(items: seq<MenuItem>, search: string, e: Item)
    requires e in RootItemsOf(items, search)
    ensures !e.command.RenameTo?
  {
    if search != "" && TitleHits(items, search) == [] {
      ChildHitsIff(items, search, e);
    } else if search != "" {
      TitleHitsIff(items, search, e);
    }
  }

  /** `setOpen(false)` and `resetNavigation()`. */
  function CloseAndReset(ui: Ui): (r: Ui)
    ensures !r.palette.open && r.palette.pages == [] && r.palette.search == ""
    ensures r == ui.(palette := r.palette)
    ensures TimerSynced(ui.palette) ==> TimerSynced(r.palette)
  {
    ui.(palette := SetOpen(ResetNavigation(ui.palette), false))
  }

  /** A main-menu entry's `onSelect`. */
  function RunAction(ui: Ui, a: Action): Ui {
    match a
    case Regenerate => ui.(scrambleRequests := ui.scrambleRequests + 1, palette := SetOpen(ui.palette, false))
    case NavigateTo(p) => ui.(palette := NavigateToPage(ui.palette, p))
  }

  /** Selecting an entry. */
  function Select(ui: Ui, c: Command): (r: Ui)
    requires Enabled(ui.store, c)
    ensures TimerSynced(ui.palette) ==> TimerSynced(r.palette)
  {
    match c
    case MainAction(a) => RunAction(ui, a)
    case ChildShortcut(a, child) =>
      var u := RunAction(ui, a);
      if child == "Light Theme" then CloseAndReset(u).(dark := false)
      else if child == "Dark Theme" then CloseAndReset(u).(dark := true)
      else if child == "2D" || child == "3D" then u.(view := child)
      else u
    case PickTheme(d) => CloseAndReset(ui).(dark := d)
    case PickVisualization(v) => CloseAndReset(ui).(view := v)
    case PickSolveToDelete(id) => ui.(palette := SetOpen(ui.palette, false), deleteDialog := Some(id))
    case CreateNamed(n) => CloseAndReset(ui).(store := CreateSession(ui.store, n))
    case RenameTo(o, n) => CloseAndReset(ui).(store := RenameSession(ui.store, o, n))
    case DeleteNamed(n) => CloseAndReset(ui).(store := DeleteSession(ui.store, n))
  }

  /** "Create session" offers its one entry exactly when a name has been typed,
      and selecting it creates that session, makes it current and closes. */
  lemma {:induction false} CreateOfferedIff(ui: Ui)
    requires CurrentPage(ui.palette.pages) == Some(CreateSessionPage)
    ensures PageItems(ui.palette.pages, ui.palette.search, ui.store) != [] <==> ui.palette.search != ""
    ensures ui.palette.search != "" ==>
      var r := Select(ui, PageItems(ui.palette.pages, ui.palette.search, ui.store)[0].command);
      && r.store.currentSession == ui.palette.search
      && Get(r.store.sessions, ui.palette.search) == Some(Session([]))
      && !r.palette.open && r.palette.pages == []
  {
  }

  /** The rename flow for a session whose name is not one of the palette's
      pages: choosing it shows one entry, which renames it to the search and
      closes the palette. */
  lemma {:induction false} RenameFlow(ui: Ui, name: string)
    requires Has(ui.store.sessions, name) && name != "" && !IsMenuPage(name)
    requires ui.palette.pages == [RenameSessionPage]
    ensures var u := Select(ui, MainAction(NavigateTo(name)));
      && u.palette.pages == [RenameSessionPage, name]
      && PageItems(u.palette.pages, u.palette.search, u.store) == [RenameItem(name, u.palette.search)]
  {
  }

  /** Finding: a session named like one of the palette's pages (here "theme")
      cannot be renamed: choosing it on the rename page opens that page. */
  lemma {:induction false} RenameShadowedByPage(st: Store, search: string)
    requires Has(st.sessions, ThemePage)
    ensures forall e :: e in PageItems([RenameSessionPage, ThemePage], search, st) ==> !e.command.RenameTo?
    ensures PageItems([RenameSessionPage, ThemePage], search, st)
            == [Item("Light Theme", PickTheme(false)), Item("Dark Theme", PickTheme(true))]
  {
  }

  /** The breadcrumb finding's stack can be built. With sessions "Default"
      and "rename session", choosing "rename session" on the rename page
      pushes the rename page again, and choosing "Default" there gives a
      three-page stack; its first crumb then keeps two pages, not one. */
  lemma DeepStackReachable(ui: Ui)
    requires ui.palette.pages == [RenameSessionPage] && ui.palette.search == ""
    requires ui.store.sessions == [Entry("Default", Session([])), Entry(RenameSessionPage, Session([]))]
    ensures var c1 := MainAction(NavigateTo(RenameSessionPage));
            var u1 := Select(ui, c1);
            var c2 := MainAction(NavigateTo("Default"));
            var u2 := Select(u1, c2);
            && |PageItems(ui.palette.pages, ui.palette.search, ui.store)| == 2
            && PageItems(ui.palette.pages, ui.palette.search, ui.store)[1].command == c1
            && |PageItems(u1.palette.pages, u1.palette.search, u1.store)| == 2
            && PageItems(u1.palette.pages, u1.palette.search, u1.store)[0].command == c2
            && u2.palette.pages == [RenameSessionPage, RenameSessionPage, "Default"]
            && CrumbClick(u2.palette.pages, 0) == [RenameSessionPage, RenameSessionPage]
            && CrumbClickFixed(u2.palette.pages, 0) == [RenameSessionPage]
  {
    var names := Keys(ui.store.sessions);
    assert names == ["Default", RenameSessionPage];
    var items := SessionItems(names, 0, true);
    assert items[0].command == MainAction(NavigateTo("Default"));
    assert items[1].command == MainAction(NavigateTo(RenameSessionPage));
    RenamePageLists(ui.palette.pages, ui.palette.search, ui.store);
    var u1 := Select(ui, MainAction(NavigateTo(RenameSessionPage)));
    assert u1.palette == NavigateToPage(ui.palette, RenameSessionPage);
    assert u1.store == ui.store;
    RenamePageLists(u1.palette.pages, u1.palette.search, u1.store);
    var u2 := Select(u1, MainAction(NavigateTo("Default")));
    assert u2.palette.pages == [RenameSessionPage, RenameSessionPage, "Default"];
    var pages := [RenameSessionPage, RenameSessionPage, "Default"];
    assert IndexOf(pages, RenameSessionPage) == 0;
  }

  /** The rename page lists every session for renaming. */
  lemma {:induction false} RenamePageLists(pages: seq<string>, search: string, st: Store)
    requires CurrentPage(pages) == Some(RenameSessionPage)
    ensures PageItems(pages, search, st) == SessionItems(Keys(st.sessions), 0, true)
  {
  }

  /** The page switch with the rename step recognised by its place in the
      stack rather than by the session's name. */
  function PageItemsFixed(pages: seq<string>, search: string, st: Store): (r: seq<Item>)
    ensures |pages| == 2 && pages[0] == RenameSessionPage && Has(st.sessions, pages[1])
            ==> r == [RenameItem(pages[1], search)]
    ensures !(|pages| == 2 && pages[0] == RenameSessionPage) ==> r == PageItems(pages, search, st)
  {
    if |pages| == 2 && pages[0] == RenameSessionPage then
      if Has(st.sessions, pages[1]) then [RenameItem(pages[1], search)] else []
    else PageItems(pages, search, st)
  }

  /** Every session offered on the rename page can be renamed. */
  lemma {:induction false} RenameFixedReachesEverySession(ui: Ui, k: nat)
    requires ui.palette.pages == [RenameSessionPage]
    requires k < |Keys(ui.store.sessions)|
    ensures var offered := PageItems(ui.palette.pages, ui.palette.search, ui.store);
      var u := Select(ui, offered[k].command);
      var name := Keys(ui.store.sessions)[k];
      && PageItemsFixed(u.palette.pages, u.palette.search, u.store) == [RenameItem(name, u.palette.search)]
  {
    var name := Keys(ui.store.sessions)[k];
    assert Has(ui.store.sessions, name);
  }

  /** A child shortcut first opens its parent's page. The theme shortcuts then
      close the palette; the visualization shortcuts leave it open on the
      visualization page. */
  lemma {:induction false} ChildShortcutEffects(ui: Ui)
    requires ui.palette.open && ui.palette.pages == []
    ensures var r := Select(ui, ChildShortcut(NavigateTo(ThemePage), "Dark Theme"));
      r.dark && !r.palette.open && r.palette.pages == []
    ensures var r := Select(ui, ChildShortcut(NavigateTo(VisualizationPage), "3D"));
      r.view == "3D" && r.palette.open && r.palette.pages == [VisualizationPage]
  {
  }
}

=== FILE: decimal.dfy ===
/** Decimal digit strings: what `Number.prototype.toString()` and
    `String.prototype.padStart(n, "0")` produce for integers, and the number
    a digit string denotes. */
module Decimal {

  predicate IsDigit(c: char) {
    '0' <= c <= '9'
  }

  predicate AllDigits(s: string) {
    forall i :: 0 <= i < |s| ==> IsDigit(s[i])
  }

  function DigitChar(d: nat): (c: char)
    requires d < 10
    ensures IsDigit(c)
  {
    ('0' as int + d) as char
  }

  function DigitValue(c: char): nat
    requires IsDigit(c)
  {
    c as int - '0' as int
  }

  /** `n.toString()` for a non-negative integer: no leading zeros. */
  function NatToDecimal(n: nat): (s: string)
    ensures |s| >= 1 && AllDigits(s)
  {
    if n < 10 then [DigitChar(n)] else NatToDecimal(n / 10) + [DigitChar(n % 10)]
  }

  /** `x.toString()` for any integer. */
  function IntToString(x: int): string {
    if x < 0 then "-" + NatToDecimal(-x) else NatToDecimal(x)
  }

  function Zeros(k: nat): (z: string)
    ensures |z| == k && AllDigits(z)
  {
    if k == 0 then "" else "0" + Zeros(k - 1)
  }

  /** `s.padStart(n, "0")`: zeros on the left up to length `n`; longer strings are kept. */
  function PadStart(s: string, n: nat): string {
    if |s| >= n then s else Zeros(n - |s|) + s
  }

  /** The number a digit string denotes, most significant digit first; "" denotes 0. */
  function DecValue(s: string): nat
    requires AllDigits(s)
  {
    if s == [] then 0 else DecValue(s[..|s| - 1]) * 10 + DigitValue(s[|s| - 1])
  }

  /** Reading back what `toString` wrote gives the number. */
  lemma {:induction false} DecValueOfNatToDecimal(n: nat)
    ensures DecValue(NatToDecimal(n)) == n
  {
    if n >= 10 {
      var s := NatToDecimal(n);
      assert s[..|s| - 1] == NatToDecimal(n / 10);
      DecValueOfNatToDecimal(n / 10);
    }
  }

  /** A leading zero does not change the value. */
  lemma {:induction false} DecValueLeadingZero(s: string)
    requires AllDigits(s)
    ensures AllDigits("0" + s) && DecValue("0" + s) == DecValue(s)
  {
    if s != [] {
      var t := "0" + s;
      assert t[..|t| - 1] == "0" + s[..|s| - 1];
      DecValueLeadingZero(s[..|s| - 1]);
    }
  }

  lemma {:induction false} DecValueZeros(k: nat, s: string)
    requires AllDigits(s)
    ensures AllDigits(Zeros(k) + s) && DecValue(Zeros(k) + s) == DecValue(s)
  {
    if k > 0 {
      DecValueZeros(k - 1, s);
      assert Zeros(k) + s == "0" + (Zeros(k - 1) + s);
      DecValueLeadingZero(Zeros(k - 1) + s);
    } else {
      assert Zeros(k) + s == s;
    }
  }

  /** Zero padding keeps the string made of digits, and keeps its value. */
  lemma {:induction false} PadStartValue(n: nat, w: nat)
    ensures AllDigits(PadStart(NatToDecimal(n), w))
    ensures DecValue(PadStart(NatToDecimal(n), w)) == n
  {
    var s := NatToDecimal(n);
    DecValueOfNatToDecimal(n);
    if |s| < w {
      DecValueZeros(w - |s|, s);
    }
  }

  /** Numbers below 1000 take at most three digits. */
  lemma {:induction false} NatToDecimalBelow1000(n: nat)
    requires n < 1000
    ensures |NatToDecimal(n)| <= 3
  {
    if n >= 10 {
      assert |NatToDecimal(n)| == |NatToDecimal(n / 10)| + 1;
      if n / 10 >= 10 {
        assert |NatToDecimal(n / 10)| == |NatToDecimal(n / 10 / 10)| + 1;
        assert n / 10 / 10 < 10;
      }
    }
  }

  /** Different numbers print differently. */
  lemma {:induction false} NatToDecimalInjective(a: nat, b: nat)
    requires NatToDecimal(a) == NatToDecimal(b)
    ensures a == b
  {
    DecValueOfNatToDecimal(a);
    DecValueOfNatToDecimal(b);
  }
}

=== FILE: format_time.dfy ===
/** `formatTime` (src/utils/formatTime.js): milliseconds to the text the timer
    shows, and the reading of that text back into milliseconds. */
module FormatTime {

  import opened JsValues
  import opened Decimal
  import opened Text

  /** JavaScript's `%`: the remainder takes the sign of the dividend. */
  function JsRem(a: int, b: int): int
    requires b > 0
  {
    if a >= 0 then a % b else -((-a) % b)
  }

  /** `x.toString().padStart(n, "0")`. */
  function Pad(x: int, n: nat): string {
    PadStart(IntToString(x), n)
  }

  /** The milliseconds as "[hh:][mm:]ss.mmm", or `null` for 0 (the only falsy
      integer). Hours, minutes and seconds are each the TOTAL count
      (`Math.floor`, which is Dafny's `/` for a positive divisor), none of them
      reduced modulo 60. */
  function FormatTime(ms: int): (r: Option<string>)
    ensures r.None? <==> ms == 0
  {
    if ms == 0 then None
    else
      var remainingMs := JsRem(ms, 1000);
      var s := ms / 1000;
      var m := s / 60;
      var h := m / 60;
      Some((if h > 0 then Pad(h, 2) + ":" else "")
           + (if m > 0 then Pad(m, 2) + ":" else "")
           + Pad(s, 2) + "." + Pad(remainingMs, 3))
  }

  /** Reads a shown time back: the digits after the last ':' (or from the start)
      up to the last '.' are seconds, and exactly three digits after that '.'
      are milliseconds. */
  function ParseTime(t: string): Option<int> {
    match SplitAtLast(t, '.')
    case None => None
    case Some(parts) => ReadFields(parts.0, parts.1)
  }

  /** The number shown by the text before and after the last '.'. */
  function ReadFields(head: string, frac: string): Option<int> {
    var secs := AfterLast(head, ':');
    if |frac| == 3 && AllDigits(frac) && |secs| > 0 && AllDigits(secs)
    then Some(DecValue(secs) * 1000 + DecValue(frac))
    else None
  }

  /** The prefix in front of the seconds: "hh:" and "mm:" when present. */
  function Prefix(ms: nat): string {
    var s := ms / 1000;
    var m := s / 60;
    var h := m / 60;
    (if h > 0 then Pad(h, 2) + ":" else "") + (if m > 0 then Pad(m, 2) + ":" else "")
  }

  lemma {:induction false} DigitsHaveNoSeparator(d: string)
    requires AllDigits(d)
    ensures ':' !in d && '.' !in d
  {
    forall i | 0 <= i < |d| ensures d[i] != ':' && d[i] != '.' {
      assert IsDigit(d[i]);
    }
  }

  /** The text `formatTime` gives for a positive input, written for every
      non-negative one: for 0 it is "00.000", the text `formatTime(0)` would
      show were 0 not falsy. */
  function FormatDigits(ms: nat): string {
    Prefix(ms) + PadStart(NatToDecimal(ms / 1000), 2) + "." + PadStart(NatToDecimal(ms % 1000), 3)
  }

  /** For a positive input the text is the prefix, the padded total seconds,
      a '.', and the milliseconds below 1000 padded to exactly three digits. */
  lemma {:induction false} FormatIsDigits(ms: int)
    requires ms > 0
    ensures FormatTime(ms) == Some(FormatDigits(ms))
  {
  }

  /** The fields are digit strings, the millisecond field exactly three long,
      and the prefix, if any, ends in ':'. */
  lemma {:induction false} FormatFields(ms: nat)
    ensures |PadStart(NatToDecimal(ms % 1000), 3)| == 3
    ensures AllDigits(PadStart(NatToDecimal(ms / 1000), 2))
    ensures AllDigits(PadStart(NatToDecimal(ms % 1000), 3))
    ensures Prefix(ms) == "" || Prefix(ms)[|Prefix(ms)| - 1] == ':'
  {
    NatToDecimalBelow1000(ms % 1000);
    PadStartValue(ms / 1000, 2);
    PadStartValue(ms % 1000, 3);
  }

  /** Reading "[prefix]ss.mmm" takes the seconds after the prefix and the three
      millisecond digits. */
  lemma {:induction false} ParseFields(p: string, secStr: string, fracStr: string)
    requires AllDigits(secStr) && |secStr| > 0
    requires AllDigits(fracStr) && |fracStr| == 3
    requires p == [] || p[|p| - 1] == ':'
    ensures ParseTime(p + secStr + "." + fracStr) == Some(DecValue(secStr) * 1000 + DecValue(fracStr))
  {
    SplitFields(p, secStr, fracStr);
    ReadFieldsAfterPrefix(p, secStr, fracStr);
  }

  lemma {:induction false} SplitFields(p: string, secStr: string, fracStr: string)
    requires AllDigits(fracStr)
    ensures SplitAtLast(p + secStr + "." + fracStr, '.') == Some((p + secStr, fracStr))
  {
    DigitsHaveNoSeparator(fracStr);
    assert p + secStr + "." + fracStr == (p + secStr) + ['.'] + fracStr;
    SplitAtLastAppend(p + secStr, fracStr, '.');
  }

  lemma {:induction false} ReadFieldsAfterPrefix(p: string, secStr: string, fracStr: string)
    requires AllDigits(secStr) && |secStr| > 0
    requires AllDigits(fracStr) && |fracStr| == 3
    requires p == [] || p[|p| - 1] == ':'
    ensures ReadFields(p + secStr, fracStr) == Some(DecValue(secStr) * 1000 + DecValue(fracStr))
  {
    DigitsHaveNoSeparator(secStr);
    AfterLastAppend(p, secStr, ':');
    var secs := AfterLast(p + secStr, ':');
    assert secs == secStr;
    assert |fracStr| == 3 && AllDigits(fracStr) && |secs| > 0 && AllDigits(secs);
  }

  /** The digits round trip: the seconds field times 1000 plus the millisecond
      field is the input. Because the seconds field is not reduced modulo 60
      no other field is needed. */
  lemma {:induction false} DigitsRoundTrip(ms: nat)
    ensures ParseTime(FormatDigits(ms)) == Some(ms)
  {
    FormatFields(ms);
    PadStartValue(ms / 1000, 2);
    PadStartValue(ms % 1000, 3);
    ParseFields(Prefix(ms), PadStart(NatToDecimal(ms / 1000), 2), PadStart(NatToDecimal(ms % 1000), 3));
  }

  /** The text opens with a digit, so it never starts with "+", "-" or "DNF". */
  lemma {:induction false} LeadingDigit(ms: nat)
    ensures |FormatDigits(ms)| > 0 && IsDigit(FormatDigits(ms)[0])
  {
    var s := ms / 1000;
    var m := s / 60;
    var h := m / 60;
    var secStr := PadStart(NatToDecimal(s), 2);
    PadStartValue(s, 2);
    assert |secStr| >= 1;
    if h > 0 {
      PadStartValue(h, 2);
      assert Pad(h, 2) == PadStart(NatToDecimal(h), 2);
      assert FormatDigits(ms)[0] == Pad(h, 2)[0];
    } else if m > 0 {
      PadStartValue(m, 2);
      assert Pad(m, 2) == PadStart(NatToDecimal(m), 2);
      assert FormatDigits(ms)[0] == Pad(m, 2)[0];
    } else {
      assert FormatDigits(ms)[0] == secStr[0];
    }
  }

  /** Round trip of `formatTime` itself on positive inputs. */
  lemma {:induction false} FormatParseRoundTrip(ms: int)
    requires ms > 0
    ensures ParseTime(FormatTime(ms).value) == Some(ms)
  {
    FormatIsDigits(ms);
    DigitsRoundTrip(ms);
  }

  /** Different positive inputs give different texts. */
  lemma {:induction false} FormatTimeInjective(a: int, b: int)
    requires a > 0 && b > 0
    requires FormatTime(a) == FormatTime(b)
    ensures a == b
  {
    FormatParseRoundTrip(a);
    FormatParseRoundTrip(b);
  }

  /** A minutes field appears from one minute on, an hours field from one hour on;
      below one minute the text holds no ':' at all. */
  lemma {:induction false} FormatColons(ms: int)
    requires ms > 0
    ensures CountChar(FormatTime(ms).value, ':')
            == (if ms >= 3600000 then 2 else if ms >= 60000 then 1 else 0)
  {
    FormatIsDigits(ms);
    DigitsColons(ms);
    PrefixColons(ms);
    assert ms / 1000 / 60 > 0 <==> ms >= 60000;
    assert ms / 1000 / 60 / 60 > 0 <==> ms >= 3600000;
  }

  /** The only ':' of the text are those of its prefix. */
  lemma {:induction false} DigitsColons(ms: nat)
    ensures CountChar(FormatDigits(ms), ':') == CountChar(Prefix(ms), ':')
  {
    var secStr := PadStart(NatToDecimal(ms / 1000), 2);
    var fracStr := PadStart(NatToDecimal(ms % 1000), 3);
    PaddedNoColon(ms / 1000, 2);
    PaddedNoColon(ms % 1000, 3);
    CountCharAppend(Prefix(ms), secStr, ':');
    CountCharAppend(Prefix(ms) + secStr, ".", ':');
    CountCharAppend(Prefix(ms) + secStr + ".", fracStr, ':');
  }

  /** The prefix holds one ':' per field it shows. */
  lemma {:induction false} PrefixColons(ms: nat)
    ensures CountChar(Prefix(ms), ':')
            == (if ms / 1000 / 60 / 60 > 0 then 1 else 0) + (if ms / 1000 / 60 > 0 then 1 else 0)
  {
    var m := ms / 1000 / 60;
    var h := m / 60;
    var hp := if h > 0 then Pad(h, 2) + ":" else "";
    var mp := if m > 0 then Pad(m, 2) + ":" else "";
    assert Prefix(ms) == hp + mp;
    PaddedNoColon(h, 2);
    PaddedNoColon(m, 2);
    CountCharAppend(Pad(h, 2), ":", ':');
    CountCharAppend(Pad(m, 2), ":", ':');
    CountCharAppend(hp, mp, ':');
  }

  lemma {:induction false} PaddedNoColon(x: nat, n: nat)
    ensures CountChar(Pad(x, n), ':') == 0
    ensures CountChar(PadStart(NatToDecimal(x), n), ':') == 0
  {
    PadStartValue(x, n);
    assert Pad(x, n) == PadStart(NatToDecimal(x), n);
    DigitsHaveNoSeparator(PadStart(NatToDecimal(x), n));
    CountCharAbsent(PadStart(NatToDecimal(x), n), ':');
  }

  /** The seconds field keeps counting past 59: 61 seconds show as "01:61.000". */
  lemma FormatSixtyOneSeconds()
    ensures FormatTime(61000) == Some("01:61.000")
  {
    assert NatToDecimal(61) == "61" by {
      assert NatToDecimal(6) == "6";
      assert NatToDecimal(1) == "1";
    }
    assert Pad(61, 2) == "61";
    assert Pad(1, 2) == "01" by {
      assert NatToDecimal(1) == "1";
      assert Zeros(1) == "0";
    }
    assert Pad(0, 3) == "000" by {
      assert NatToDecimal(0) == "0";
      assert Zeros(2) == "00";
    }
    assert JsRem(61000, 1000) == 0;
    assert 61000 / 1000 == 61 && 61 / 60 == 1 && 1 / 60 == 0;
    assert FormatTime(61000).value == Pad(1, 2) + ":" + Pad(61, 2) + "." + Pad(0, 3);
    assert "01" + ":" + "61" + "." + "000" == "01:61.000";
  }

  /** One hour shows every field as a total: "01:60:3600.000". */
  lemma FormatOneHour()
    ensures FormatTime(3600000) == Some("01:60:3600.000")
  {
    assert NatToDecimal(3600) == "3600" by {
      assert NatToDecimal(360) == "360" by {
        assert NatToDecimal(36) == "36" by {
          assert NatToDecimal(3) == "3";
          assert NatToDecimal(6) == "6";
        }
        assert NatToDecimal(0) == "0";
      }
    }
    assert Pad(3600, 2) == "3600";
    assert NatToDecimal(60) == "60" by {
      assert NatToDecimal(6) == "6";
      assert NatToDecimal(0) == "0";
    }
    assert Pad(60, 2) == "60";
    assert Pad(1, 2) == "01" by {
      assert NatToDecimal(1) == "1";
      assert Zeros(1) == "0";
    }
    assert Pad(0, 3) == "000" by {
      assert NatToDecimal(0) == "0";
      assert Zeros(2) == "00";
    }
    assert JsRem(3600000, 1000) == 0;
    assert 3600000 / 1000 == 3600 && 3600 / 60 == 60 && 60 / 60 == 1;
    assert FormatTime(3600000).value
        == Pad(1, 2) + ":" + Pad(60, 2) + ":" + Pad(3600, 2) + "." + Pad(0, 3);
    assert "01" + ":" + "60" + ":" + "3600" + "." + "000" == "01:60:3600.000";
  }
}

=== FILE: get_times.dfy ===
/** src/utils/getTimes.js: best single, average of the last N solves, and
    best average, over a session's solves in insertion order. */
module GetTimes {

  import opened JsValues
  import opened SolveRecord

  /** The index `reduce` keeps when it replaces the running minimum only on a
      strict `<`: the FIRST minimum. */
  function FirstMinIndex(keys: seq<Ext>): (k: nat)
    requires |keys| > 0
    ensures k < |keys|
    ensures forall j :: 0 <= j < |keys| ==> LessEq(keys[k], keys[j])
    ensures forall j :: 0 <= j < k ==> Less(keys[k], keys[j])
  {
    if |keys| == 1 then 0
    else
      var k := FirstMinIndex(keys[..|keys| - 1]);
      if Less(keys[|keys| - 1], keys[k]) then |keys| - 1 else k
  }

  function PenalisedTimes(solves: seq<Solve>): (keys: seq<Ext>)
    ensures |keys| == |solves|
    ensures forall i :: 0 <= i < |solves| ==> keys[i] == Penalised(solves[i])
  {
    seq(|solves|, i requires 0 <= i < |solves| => Penalised(solves[i]))
  }

  /** `getMinSolveTimeId` returns the id of the solve at this index. `reduce`
      without a seed throws on an empty list, so callers pass a non-empty one.
      The solve has the least penalised time, strictly less than every earlier
      solve's; it is a DNF exactly when every solve is, and then it is the first. */
  function MinSolveIndex(solves: seq<Solve>): (k: nat)
    requires |solves| > 0
    ensures k < |solves|
    ensures forall j :: 0 <= j < |solves| ==> LessEq(Penalised(solves[k]), Penalised(solves[j]))
    ensures forall j :: 0 <= j < k ==> Less(Penalised(solves[k]), Penalised(solves[j]))
    ensures solves[k].penalty == Dnf <==> forall j :: 0 <= j < |solves| ==> solves[j].penalty == Dnf
    ensures (forall j :: 0 <= j < |solves| ==> solves[j].penalty == Dnf) ==> k == 0
  {
    var k := FirstMinIndex(PenalisedTimes(solves));
    assert solves[k].penalty == Dnf ==> forall j :: 0 <= j < |solves| ==> solves[j].penalty == Dnf by {
      if solves[k].penalty == Dnf {
        forall j | 0 <= j < |solves| ensures solves[j].penalty == Dnf {
          assert LessEq(Penalised(solves[k]), Penalised(solves[j]));
        }
      }
    }
    assert (forall j :: 0 <= j < |solves| ==> solves[j].penalty == Dnf) ==> k == 0 by {
      if k > 0 {
        assert Less(Penalised(solves[k]), Penalised(solves[0]));
      }
    }
    k
  }

  function MinSolveTimeId(solves: seq<Solve>): string
    requires |solves| > 0
  {
    solves[MinSolveIndex(solves)].id
  }

  /** A solve's contribution to `getAverageOfSolveTime`: +2000 for "+2" and 0
      for "dnf". */
  function Term(s: Solve): int {
    match s.penalty
    case NoPenalty => s.SolveTime()
    case PlusTwo => s.SolveTime() + 2000
    case Dnf => 0
  }

  function SumTerms(w: seq<Solve>): int {
    if w == [] then 0 else SumTerms(w[..|w| - 1]) + Term(w[|w| - 1])
  }

  /** `getAverageOfSolveTime(solves, id, n)`: `null` while the solve's position
      (-1 when the id is absent) is below n-1; otherwise the floor of the mean of
      the n terms ending at that position. No best or worst term is dropped. */
  function AverageOfSolveTime(solves: seq<Solve>, id: string, n: nat): (r: Option<int>)
    requires n >= 1
    ensures r.None? <==> FindIndex(solves, id) < n - 1
    ensures (forall j :: 0 <= j < |solves| ==> solves[j].id != id) ==> r.None?
  {
    var index := FindIndex(solves, id);
    if index >= n - 1 then Some(SumTerms(solves[index - n + 1..index + 1]) / n)
    else None
  }

  /** The average is the floor of the mean of the window's terms. */
  lemma {:induction false} AverageIsFloorMean(solves: seq<Solve>, id: string, n: nat)
    requires n >= 1
    requires AverageOfSolveTime(solves, id, n).Some?
    ensures var i := FindIndex(solves, id);
      var total := SumTerms(solves[i - n + 1..i + 1]);
      var a := AverageOfSolveTime(solves, id, n).value;
      a * n <= total < a * n + n
  {
    var i := FindIndex(solves, id);
    FloorDivision(SumTerms(solves[i - n + 1..i + 1]), n);
  }

  /** `Math.floor(a / b)` for a positive divisor is Dafny's `a / b`. */
  lemma {:induction false} FloorDivision(a: int, b: int)
    requires b > 0
    ensures (a / b) * b <= a < (a / b) * b + b
  {
  }

  /** The largest term of a non-empty window. */
  function MaxTerm(w: seq<Solve>): (m: int)
    requires |w| > 0
    ensures forall j :: 0 <= j < |w| ==> Term(w[j]) <= m
    ensures exists j :: 0 <= j < |w| && Term(w[j]) == m
  {
    if |w| == 1 then Term(w[0])
    else
      var m := MaxTerm(w[..|w| - 1]);
      var j :| 0 <= j < |w| - 1 && Term(w[..|w| - 1][j]) == m;
      assert Term(w[j]) == m;
      if Term(w[|w| - 1]) > m then Term(w[|w| - 1]) else m
  }

  lemma {:induction false} SumTermsBounds(w: seq<Solve>, hi: int)
    requires forall j :: 0 <= j < |w| ==> 0 <= Term(w[j]) <= hi
    ensures 0 <= SumTerms(w) <= |w| * hi
  {
    if w != [] {
      var w' := w[..|w| - 1];
      SumTermsBounds(w', hi);
      assert |w| * hi == |w'| * hi + hi;
    }
  }

  /** With non-negative solve times, the average lies between 0 and the largest
      term of its window. */
  lemma {:induction false} AverageBounds(solves: seq<Solve>, id: string, n: nat)
    requires n >= 1
    requires forall j :: 0 <= j < |solves| ==> solves[j].SolveTime() >= 0
    requires AverageOfSolveTime(solves, id, n).Some?
    ensures var i := FindIndex(solves, id);
            var a := AverageOfSolveTime(solves, id, n).value;
            0 <= a <= MaxTerm(solves[i - n + 1..i + 1])
  {
    var i := FindIndex(solves, id);
    SliceMeanBounds(solves, i - n + 1, i + 1, n);
  }

  lemma {:induction false} SliceMeanBounds(solves: seq<Solve>, lo: nat, hi: nat, n: nat)
    requires lo < hi <= |solves| && hi - lo == n
    requires forall j :: 0 <= j < |solves| ==> solves[j].SolveTime() >= 0
    ensures 0 <= SumTerms(solves[lo..hi]) / n <= MaxTerm(solves[lo..hi])
  {
    NonNegativeSlice(solves, lo, hi);
    WindowMeanBounds(solves[lo..hi]);
  }

  lemma {:induction false} NonNegativeSlice(solves: seq<Solve>, lo: nat, hi: nat)
    requires lo <= hi <= |solves|
    requires forall j :: 0 <= j < |solves| ==> solves[j].SolveTime() >= 0
    ensures forall j :: 0 <= j < hi - lo ==> solves[lo..hi][j].SolveTime() >= 0
  {
    forall j | 0 <= j < hi - lo ensures solves[lo..hi][j].SolveTime() >= 0 {
      assert solves[lo..hi][j] == solves[lo + j];
    }
  }

  /** A floor mean of a window of non-negative times lies between 0 and its
      largest term. */
  lemma {:induction false} WindowMeanBounds(w: seq<Solve>)
    requires |w| > 0
    requires forall j :: 0 <= j < |w| ==> w[j].SolveTime() >= 0
    ensures 0 <= SumTerms(w) / |w| <= MaxTerm(w)
  {
    var hi := MaxTerm(w);
    forall j | 0 <= j < |w| ensures 0 <= Term(w[j]) <= hi {
    }
    SumTermsBounds(w, hi);
    FloorDivision(SumTerms(w), |w|);
    QuotientBounds(SumTerms(w) / |w|, SumTerms(w), |w|, hi);
  }

  /** A floor quotient of a total between 0 and n * hi lies between 0 and hi. */
  lemma {:induction false} QuotientBounds(a: int, total: int, n: int, hi: int)
    requires n > 0
    requires a * n <= total < a * n + n
    requires 0 <= total <= n * hi
    ensures 0 <= a <= hi
  {
  }

  /** What `getMinAverageId` compares: `average || Infinity`, so a `null` and a
      0 average both count as infinite. */
  function AverageKey(solves: seq<Solve>, s: Solve, n: nat): Ext
    requires n >= 1
  {
    match AverageOfSolveTime(solves, s.id, n)
    case None => Inf
    case Some(a) => if a == 0 then Inf else Fin(a)
  }

  function AverageKeys(solves: seq<Solve>, n: nat): (keys: seq<Ext>)
    requires n >= 1
    ensures |keys| == |solves|
    ensures forall i :: 0 <= i < |solves| ==> keys[i] == AverageKey(solves, solves[i], n)
  {
    seq(|solves|, i requires 0 <= i < |solves| => AverageKey(solves, solves[i], n))
  }

  /** `getMinAverageId(solves, n)` returns the id of the solve at this index:
      `null` exactly when n exceeds the number of solves, else the first solve
      whose average key is least. */
  function MinAverageIndex(solves: seq<Solve>, n: nat): (r: Option<nat>)
    requires n >= 1
    ensures r.None? <==> n > |solves|
    ensures r.Some? ==>
      && r.value < |solves|
      && (forall j :: 0 <= j < |solves| ==>
            LessEq(AverageKey(solves, solves[r.value], n), AverageKey(solves, solves[j], n)))
      && (forall j :: 0 <= j < r.value ==>
            Less(AverageKey(solves, solves[r.value], n), AverageKey(solves, solves[j], n)))
  {
    if n > |solves| then None else Some(FirstMinIndex(AverageKeys(solves, n)))
  }

  function MinAverageId(solves: seq<Solve>, n: nat): Option<string>
    requires n >= 1
  {
    match MinAverageIndex(solves, n)
    case None => None
    case Some(k) => Some(solves[k].id)
  }

  /** A DNF inside a window contributes 0 and so LOWERS the average: five
      one-second solves average 1000, and marking the middle one DNF gives 800. */
  lemma DnfLowersAverage()
    ensures var one := Times(0, 1000);
            var w := [Solve("a", "", NoPenalty, one, ""), Solve("b", "", NoPenalty, one, ""),
                      Solve("c", "", NoPenalty, one, ""), Solve("d", "", NoPenalty, one, ""),
                      Solve("e", "", NoPenalty, one, "")];
            && AverageOfSolveTime(w, "e", 5) == Some(1000)
            && AverageOfSolveTime(w[2 := w[2].(penalty := Dnf)], "e", 5) == Some(800)
  {
    var one := Times(0, 1000);
    var w := [Solve("a", "", NoPenalty, one, ""), Solve("b", "", NoPenalty, one, ""),
              Solve("c", "", NoPenalty, one, ""), Solve("d", "", NoPenalty, one, ""),
              Solve("e", "", NoPenalty, one, "")];
    var w' := w[2 := w[2].(penalty := Dnf)];
    FindLast(w);
    FindLast(w');
    assert w[0..5] == w;
    assert w'[0..5] == w';
    SumFive(w);
    SumFive(w');
  }

  /** No best or worst time is dropped: solves of 1 to 5 seconds average 3000,
      the plain floor of 15000 / 5. */
  lemma UntrimmedAverage()
    ensures var w := [Solve("a", "", NoPenalty, Times(0, 1000), ""), Solve("b", "", NoPenalty, Times(0, 2000), ""),
                      Solve("c", "", NoPenalty, Times(0, 3000), ""), Solve("d", "", NoPenalty, Times(0, 4000), ""),
                      Solve("e", "", NoPenalty, Times(0, 5000), "")];
            AverageOfSolveTime(w, "e", 5) == Some(3000)
  {
    var w := [Solve("a", "", NoPenalty, Times(0, 1000), ""), Solve("b", "", NoPenalty, Times(0, 2000), ""),
              Solve("c", "", NoPenalty, Times(0, 3000), ""), Solve("d", "", NoPenalty, Times(0, 4000), ""),
              Solve("e", "", NoPenalty, Times(0, 5000), "")];
    FindLast(w);
    assert w[0..5] == w;
    SumFive(w);
  }

  /** Five DNFs in a row average 0: every term of the window is 0. */
  lemma AllDnfAverageZero()
    ensures var one := Times(0, 1000);
            var w := [Solve("a", "", Dnf, one, ""), Solve("b", "", Dnf, one, ""),
                      Solve("c", "", Dnf, one, ""), Solve("d", "", Dnf, one, ""),
                      Solve("e", "", Dnf, one, "")];
            AverageOfSolveTime(w, "e", 5) == Some(0)
  {
    var one := Times(0, 1000);
    var w := [Solve("a", "", Dnf, one, ""), Solve("b", "", Dnf, one, ""),
              Solve("c", "", Dnf, one, ""), Solve("d", "", Dnf, one, ""),
              Solve("e", "", Dnf, one, "")];
    FindLast(w);
    assert w[0..5] == w;
    SumFive(w);
  }

  lemma {:induction false} FindLast(w: seq<Solve>)
    requires |w| == 5
    requires w[0].id == "a" && w[1].id == "b" && w[2].id == "c" && w[3].id == "d" && w[4].id == "e"
    ensures FindIndex(w, "e") == 4
  {
    assert FindIndex(w[4..], "e") == 0;
    assert w[3..][1..] == w[4..];
    assert w[2..][1..] == w[3..];
    assert w[1..][1..] == w[2..];
    assert w[1..] == w[1..];
  }

  lemma {:induction false} SumFive(w: seq<Solve>)
    requires |w| == 5
    ensures SumTerms(w) == Term(w[0]) + Term(w[1]) + Term(w[2]) + Term(w[3]) + Term(w[4])
  {
    assert w[..1][..0] == [];
    assert SumTerms(w[..1]) == Term(w[0]);
    assert w[..2][..1] == w[..1];
    assert SumTerms(w[..2]) == Term(w[0]) + Term(w[1]);
    assert w[..3][..2] == w[..2];
    assert SumTerms(w[..3]) == Term(w[0]) + Term(w[1]) + Term(w[2]);
    assert w[..4][..3] == w[..3];
    assert SumTerms(w[..4]) == Term(w[0]) + Term(w[1]) + Term(w[2]) + Term(w[3]);
  }

  /** The average with a DNF taken as infinitely slow, as speedcubing
      averages treat it: `Inf` as soon as the window holds a DNF, otherwise
      the same floor of the mean. */
  function AverageDnfAware(solves: seq<Solve>, id: string, n: nat): (r: Option<Ext>)
    requires n >= 1
    ensures r.None? <==> FindIndex(solves, id) < n - 1
    ensures r.Some? ==>
      var i := FindIndex(solves, id);
      (r.value == Inf <==> HasDnf(solves[i - n + 1..i + 1]))
  {
    var index := FindIndex(solves, id);
    if index < n - 1 then None
    else
      Some(WindowAverage(solves[index - n + 1..index + 1], n))
  }

  /** The average of one window, `Inf` when it holds a DNF. */
  function WindowAverage(w: seq<Solve>, n: nat): (r: Ext)
    requires n >= 1
    ensures r == Inf <==> HasDnf(w)
  {
    if HasDnf(w) then Inf else Fin(SumTerms(w) / n)
  }

  /** Whether a window holds a DNF. */
  function HasDnf(w: seq<Solve>): bool {
    w != [] && (w[|w| - 1].penalty == Dnf || HasDnf(w[..|w| - 1]))
  }

  lemma {:induction false} HasDnfIff(w: seq<Solve>)
    ensures HasDnf(w) <==> exists j :: 0 <= j < |w| && w[j].penalty == Dnf
  {
    if w != [] {
      var w' := w[..|w| - 1];
      HasDnfIff(w');
      if exists j :: 0 <= j < |w'| && w'[j].penalty == Dnf {
        var j :| 0 <= j < |w'| && w'[j].penalty == Dnf;
        assert w[j] == w'[j];
      }
      if exists j :: 0 <= j < |w| && w[j].penalty == Dnf {
        var j :| 0 <= j < |w| && w[j].penalty == Dnf;
        if j < |w'| {
          assert w'[j] == w[j];
        }
      }
    }
  }

  /** Without a DNF in the window both averages agree, and both are absent
      for the same solves. */
  lemma {:induction false} AverageDnfAwareAgrees(solves: seq<Solve>, id: string, n: nat)
    requires n >= 1
    ensures AverageDnfAware(solves, id, n).None? <==> AverageOfSolveTime(solves, id, n).None?
    ensures var r := AverageDnfAware(solves, id, n);
      r.Some? && r.value.Fin? ==> r.value.n == AverageOfSolveTime(solves, id, n).value
  {
  }

  /** With DNFs taken as infinitely slow, marking a solve of the window DNF never
      makes its average better. */
  lemma {:induction false} DnfNeverLowersAverage(solves: seq<Solve>, id: string, n: nat, p: nat)
    requires n >= 1
    requires p < |solves|
    requires AverageDnfAware(solves, id, n).Some?
    ensures var marked := solves[p := solves[p].(penalty := Dnf)];
            var before := AverageDnfAware(solves, id, n);
            var after := AverageDnfAware(marked, id, n);
            after.Some? && LessEq(before.value, after.value)
  {
    var marked := solves[p := solves[p].(penalty := Dnf)];
    forall j | 0 <= j < |solves| ensures marked[j].id == solves[j].id {}
    forall j | 0 <= j < |solves| ensures marked[j] == solves[j] || marked[j].penalty == Dnf {}
    MarksNeverLowerAverage(solves, marked, id, n);
  }

  /** The same for any number of solves marked DNF at once. */
  lemma {:induction false} MarksNeverLowerAverage(solves: seq<Solve>, marked: seq<Solve>, id: string, n: nat)
    requires n >= 1
    requires |marked| == |solves|
    requires forall j :: 0 <= j < |solves| ==> marked[j].id == solves[j].id
    requires forall j :: 0 <= j < |solves| ==> marked[j] == solves[j] || marked[j].penalty == Dnf
    requires AverageDnfAware(solves, id, n).Some?
    ensures var before := AverageDnfAware(solves, id, n);
            var after := AverageDnfAware(marked, id, n);
            after.Some? && LessEq(before.value, after.value)
  {
    FindIndexSameIds(solves, marked, id);
    var i := FindIndex(solves, id);
    SliceMarksNeverLower(solves, marked, i - n + 1, i + 1, n);
    AverageDnfAwareWindow(solves, id, n);
    AverageDnfAwareWindow(marked, id, n);
  }

  lemma {:induction false} SliceMarksNeverLower(solves: seq<Solve>, marked: seq<Solve>, lo: nat, hi: nat, n: nat)
    requires n >= 1 && lo <= hi <= |solves| == |marked|
    requires forall j :: 0 <= j < |solves| ==> marked[j] == solves[j] || marked[j].penalty == Dnf
    ensures LessEq(WindowAverage(solves[lo..hi], n), WindowAverage(marked[lo..hi], n))
  {
    var w, w' := solves[lo..hi], marked[lo..hi];
    forall k | 0 <= k < |w| ensures w'[k] == w[k] || w'[k].penalty == Dnf {
      assert w'[k] == marked[lo + k] && w[k] == solves[lo + k];
    }
    WindowMarksNeverLower(w, w', n);
  }

  /** A present average is that of the window ending at the solve. */
  lemma {:induction false} AverageDnfAwareWindow(solves: seq<Solve>, id: string, n: nat)
    requires n >= 1 && FindIndex(solves, id) >= n - 1
    ensures var i := FindIndex(solves, id);
      AverageDnfAware(solves, id, n) == Some(WindowAverage(solves[i - n + 1..i + 1], n))
  {
  }

  /** On one window: a window with some solves marked DNF averages no better. */
  lemma {:induction false} WindowMarksNeverLower(w: seq<Solve>, w': seq<Solve>, n: nat)
    requires n >= 1 && |w'| == |w|
    requires forall k :: 0 <= k < |w| ==> w'[k] == w[k] || w'[k].penalty == Dnf
    ensures LessEq(WindowAverage(w, n), WindowAverage(w', n))
  {
    if !HasDnf(w') {
      HasDnfIff(w');
      assert w' == w;
    }
  }

  lemma {:induction false} FindIndexSameIds(a: seq<Solve>, b: seq<Solve>, id: string)
    requires |a| == |b|
    requires forall j :: 0 <= j < |a| ==> a[j].id == b[j].id
    ensures FindIndex(a, id) == FindIndex(b, id)
  {
    if a != [] && a[0].id != id {
      FindIndexSameIds(a[1..], b[1..], id);
    }
  }
}

=== FILE: js_values.dfy ===
/** Values of the JavaScript program that the rest of the model needs:
    `null`/`undefined` as `None`, and numbers that may be `Infinity`. */
module JsValues {

  /** A value that may be `null` (or `undefined`). */
  datatype Option<+T> = None | Some(value: T) {

    /** The value, or `d` when absent (`x || d` and `x ?? d` on non-falsy values). */
    function GetOr(d: T): T {
      match this
      case Some(v) => v
      case None => d
    }
  }

  /** What a string-valued `Option` becomes inside a `+` concatenation or a
      template literal: `null` prints as "null". */
  function Concat(o: Option<string>): string {
    match o
    case Some(s) => s
    case None => "null"
  }

  /** What a string-valued `Option` shows as a React child: `null` renders nothing. */
  function Render(o: Option<string>): string {
    o.GetOr("")
  }

  /** An integer number of milliseconds, or `Infinity`. */
  datatype Ext = Fin(n: int) | Inf

  /** JavaScript's `<` on such numbers: `Infinity < Infinity` is false. */
  predicate Less(a: Ext, b: Ext) {
    match (a, b)
    case (Fin(x), Fin(y)) => x < y
    case (Fin(_), Inf) => true
    case (Inf, _) => false
  }

  predicate LessEq(a: Ext, b: Ext) {
    !Less(b, a)
  }

  /** `a.indexOf(x)`: the first position holding `x`, or -1. */
  function IndexOf<T(==)>(a: seq<T>, x: T): (i: int)
    ensures -1 <= i < |a|
    ensures i >= 0 ==> a[i] == x && forall j :: 0 <= j < i ==> a[j] != x
    ensures i == -1 <==> x !in a
  {
    if a == [] then -1
    else if a[0] == x then 0
    else
      var k := IndexOf(a[1..], x);
      if k == -1 then -1 else k + 1
  }
}

=== FILE: menu_config.dfy ===
/** The command palette's fixed tables (src/components/CommandMenu/commandMenuConfig.js):
    the page names, the two nested child lists, the seven main-menu entries
    and the input placeholder for a page stack. */
module MenuConfig {

  import opened Text

  /** `MENU_PAGES`. */
  const HomePage := "home"
  const DeleteSolvePage := "delete solve"
  const ThemePage := "theme"
  const VisualizationPage := "scramble visualization"
  const CreateSessionPage := "create session"
  const RenameSessionPage := "rename session"
  const DeleteSessionPage := "delete session"

  /** The pages that have an entry of their own in the palette's page switch. */
  predicate IsMenuPage(p: string) {
    p == DeleteSolvePage || p == ThemePage || p == VisualizationPage
    || p == CreateSessionPage || p == RenameSessionPage || p == DeleteSessionPage
  }

  /** An entry of `NESTED_ITEMS`. */
  datatype Child = Child(title: string, keywords: string)

  /** What a main-menu entry's `onSelect` does: regenerate the scramble and
      close, or push a page. */
  datatype Action = Regenerate | NavigateTo(page: string)

  datatype MenuItem = MenuItem(title: string, keywords: string, action: Action, children: seq<Child>)

  /** `NESTED_ITEMS[page]`; a page without nested entries has none. */
  function NestedItems(page: string): seq<Child> {
    if page == ThemePage then
      [Child("Light Theme", "light bright white day mode"), Child("Dark Theme", "dark night black mode")]
    else if page == VisualizationPage then
      [Child("2D", "2d flat visualization"), Child("3D", "3d cube visualization")]
    else []
  }

  /** `getMainMenuItems(handlers)`. */
  function MainMenuItems(): seq<MenuItem> {
    [ MenuItem("Generate Scramble", "new refresh scramble generate", Regenerate, []),
      MenuItem("Delete Solve", "remove delete solve time", NavigateTo(DeleteSolvePage), []),
      MenuItem("Theme", "theme appearance light dark mode color", NavigateTo(ThemePage), NestedItems(ThemePage)),
      MenuItem("Scramble Visualization", "view cube 2d 3d display scramble",
               NavigateTo(VisualizationPage), NestedItems(VisualizationPage)),
      MenuItem("Create New Session", "new create add session", NavigateTo(CreateSessionPage), []),
      MenuItem("Rename Session", "rename change session name", NavigateTo(RenameSessionPage), []),
      MenuItem("Delete Session", "remove delete session", NavigateTo(DeleteSessionPage), []) ]
  }

  /** Every entry but the first pushes one of the palette's own pages, a
      different one each. */
  lemma MainMenuActions()
    ensures |MainMenuItems()| == 7
    ensures forall i :: 0 <= i < 7 ==> (MainMenuItems()[i].action == Regenerate <==> i == 0)
    ensures forall i :: 0 < i < 7 ==> IsMenuPage(MainMenuItems()[i].action.page)
    ensures forall i, j :: 0 < i < j < 7 ==> MainMenuItems()[i].action.page != MainMenuItems()[j].action.page
  {
    var pages := seq(6, i requires 0 <= i < 6 => MainMenuItems()[i + 1].action.page);
    assert pages == [DeleteSolvePage, ThemePage, VisualizationPage,
                     CreateSessionPage, RenameSessionPage, DeleteSessionPage];
  }

  /** Only the entries whose page has nested entries carry children, and those
      are exactly the nested entries. */
  lemma MainMenuChildren()
    ensures forall i :: 0 < i < 7 ==> MainMenuItems()[i].children == NestedItems(MainMenuItems()[i].action.page)
    ensures forall i :: 0 <= i < 7 ==> (MainMenuItems()[i].children != [] <==> i == 2 || i == 3)
  {
  }

  /** The seven entries have distinct titles. */
  lemma MainMenuTitlesDistinct()
    ensures forall i, j :: 0 <= i < j < 7 ==> MainMenuItems()[i].title != MainMenuItems()[j].title
  {
    var titles := seq(7, i requires 0 <= i < 7 => MainMenuItems()[i].title);
    assert titles == ["Generate Scramble", "Delete Solve", "Theme", "Scramble Visualization",
                      "Create New Session", "Rename Session", "Delete Session"];
  }

  /** `getInputPlaceholder(pages)`: the prompt for the stack joined with ", ". */
  function Placeholder(pages: seq<string>): string {
    var key := Join(pages, ", ");
    if key == DeleteSolvePage then "Delete Solve"
    else if key == ThemePage then "Choose your theme"
    else if key == VisualizationPage then "Choose your preferred visualization"
    else if key == CreateSessionPage then "Enter session name"
    else if key == RenameSessionPage then "Choose the session to rename"
    else if key == "rename session, new name" then "Enter new session name"
    else "What do you need?"
  }

  const DefaultPrompt := "What do you need?"

  /** The empty stack and the home page share the default prompt; a single
      page has its own prompt exactly when it is one of the palette's pages
      other than the session-deletion page. */
  lemma {:induction false} PlaceholderSingle(p: string)
    ensures Placeholder([]) == DefaultPrompt
    ensures Placeholder([HomePage]) == DefaultPrompt
    ensures Placeholder([p]) != DefaultPrompt
            <==> (IsMenuPage(p) && p != DeleteSessionPage) || p == "rename session, new name"
  {
    assert Join([p], ", ") == p;
  }

  /** Text equality after a common prefix. */
  lemma {:induction false} CancelPrefix(a: string, b: string, c: string)
    ensures a + b == a + c <==> b == c
  {
    if a + b == a + c {
      assert b == (a + b)[|a|..];
      assert c == (a + c)[|a|..];
    }
  }

  /** The rename flow's second level, as the program is written: the stack
      holds the chosen session's name, while the placeholder table's entry is
      keyed on the literal "rename session, new name". So the "Enter new
      session name" prompt appears only for a session called "new name"; every
      other name falls back to the default prompt, although the step asks for
      a new name. */
  lemma {:induction false} PlaceholderRenameFlow(name: string)
    ensures Placeholder([RenameSessionPage, name]) == "Enter new session name" <==> name == "new name"
    ensures name != "new name" ==> Placeholder([RenameSessionPage, name]) == DefaultPrompt
  {
    var key := Join([RenameSessionPage, name], ", ");
    assert key == "rename session, " + name by {
      assert [RenameSessionPage, name][1..] == [name];
      assert Join([name], ", ") == name;
    }
    CancelPrefix("rename session, ", name, "new name");
    assert "rename session, new name" == "rename session, " + "new name";
    assert |key| >= 16 && key[0] == 'r' && key[14] == ',';
    assert key != DeleteSolvePage && key != ThemePage && key != VisualizationPage;
    assert key != CreateSessionPage && key != RenameSessionPage;
  }
}

=== FILE: object_map.dfy ===
/** A JavaScript plain object used as a dictionary with string keys: its own
    keys in insertion order (what `Object.keys` lists), each with one value. */
module ObjectMap {

  import opened JsValues

  datatype Entry<V> = Entry(key: string, value: V)

  type Obj<V> = seq<Entry<V>>

  /** `Object.keys(o)`. */
  function Keys<V>(o: Obj<V>): (ks: seq<string>)
    ensures |ks| == |o|
    ensures forall i :: 0 <= i < |o| ==> ks[i] == o[i].key
  {
    if o == [] then [] else [o[0].key] + Keys(o[1..])
  }

  /** A key appears at most once. */
  predicate UniqueKeys<V>(o: Obj<V>) {
    forall i, j :: 0 <= i < j < |o| ==> o[i].key != o[j].key
  }

  predicate Has<V>(o: Obj<V>, k: string) {
    k in Keys(o)
  }

  /** `o[k]`: the value, or `undefined`. */
  function Get<V>(o: Obj<V>, k: string): (r: Option<V>)
    ensures r.Some? <==> Has(o, k)
    ensures r.Some? ==> exists i :: 0 <= i < |o| && o[i] == Entry(k, r.value)
  {
    if o == [] then None
    else if o[0].key == k then Some(o[0].value)
    else
      var r := Get(o[1..], k);
      assert Keys(o) == [o[0].key] + Keys(o[1..]);
      assert r.Some? ==> exists i :: 0 <= i < |o[1..]| && o[1..][i] == Entry(k, r.value);
      r
  }

  /** `{ ...o, [k]: v }`: an existing key keeps its place and takes the new
      value; a new key goes last. */
  function Put<V>(o: Obj<V>, k: string, v: V): (r: Obj<V>)
    ensures Keys(r) == if Has(o, k) then Keys(o) else Keys(o) + [k]
  {
    if o == [] then [Entry(k, v)]
    else if o[0].key == k then
      assert Keys(o) == [o[0].key] + Keys(o[1..]);
      assert Keys([Entry(k, v)] + o[1..]) == [k] + Keys(o[1..]);
      [Entry(k, v)] + o[1..]
    else
      var rest := Put(o[1..], k, v);
      assert Keys(o) == [o[0].key] + Keys(o[1..]);
      assert Keys([o[0]] + rest) == [o[0].key] + Keys(rest);
      [o[0]] + rest
  }

  /** Reading after writing: the written key gives the written value and every
      other key reads as before. */
  lemma {:induction false} GetPut<V>(o: Obj<V>, k: string, v: V, k': string)
    ensures Get(Put(o, k, v), k') == if k' == k then Some(v) else Get(o, k')
  {
    if o != [] && o[0].key != k {
      GetPut(o[1..], k, v, k');
      assert Put(o, k, v)[1..] == Put(o[1..], k, v);
    } else if o != [] {
      assert Put(o, k, v)[1..] == o[1..];
    }
  }

  /** Writing keeps the keys distinct. */
  lemma {:induction false} PutUnique<V>(o: Obj<V>, k: string, v: V)
    ensures UniqueKeys(o) ==> UniqueKeys(Put(o, k, v))
  {
    var r := Put(o, k, v);
    var ko := Keys(o);
    if UniqueKeys(o) {
      forall i, j | 0 <= i < j < |r| ensures r[i].key != r[j].key {
        assert Keys(r)[i] == r[i].key && Keys(r)[j] == r[j].key;
        if j < |o| {
          assert ko[i] == o[i].key && ko[j] == o[j].key;
        } else {
          assert !Has(o, k) && r[j].key == k;
          assert ko[i] == r[i].key;
        }
      }
    }
  }

  /** `delete o[k]`, and the rest pattern `{ [k]: _, ...rest } = o`: the entries
      with another key, in their order. */
  function Remove<V>(o: Obj<V>, k: string): (r: Obj<V>)
    ensures |r| <= |o|
    ensures forall i :: 0 <= i < |r| ==> r[i] in o && r[i].key != k
  {
    if o == [] then []
    else if o[0].key == k then Remove(o[1..], k)
    else [o[0]] + Remove(o[1..], k)
  }

  /** Reading after deleting: the deleted key is absent and every other key
      reads as before. */
  lemma {:induction false} GetRemove<V>(o: Obj<V>, k: string, k': string)
    ensures Get(Remove(o, k), k') == if k' == k then None else Get(o, k')
  {
    if o != [] {
      GetRemove(o[1..], k, k');
      if o[0].key != k {
        assert Remove(o, k)[1..] == Remove(o[1..], k);
      }
    }
  }

  /** Deleting a key that is not there changes nothing. */
  lemma {:induction false} RemoveAbsent<V>(o: Obj<V>, k: string)
    requires !Has(o, k)
    ensures Remove(o, k) == o
  {
    if o != [] {
      assert Keys(o) == [o[0].key] + Keys(o[1..]);
      RemoveAbsent(o[1..], k);
      assert o == [o[0]] + o[1..];
    }
  }

  /** Deleting keeps the keys distinct. */
  lemma {:induction false} RemoveUnique<V>(o: Obj<V>, k: string)
    ensures UniqueKeys(o) ==> UniqueKeys(Remove(o, k))
  {
    if o != [] && UniqueKeys(o) {
      RemoveUnique(o[1..], k);
      if o[0].key != k {
        var rest := Remove(o[1..], k);
        var r := [o[0]] + rest;
        forall i, j | 0 <= i < j < |r| ensures r[i].key != r[j].key {
          if i == 0 {
            assert r[j] == rest[j - 1];
            assert r[j] in o[1..];
            var m :| 0 <= m < |o[1..]| && o[1..][m] == r[j];
            assert o[m + 1] == r[j];
          } else {
            assert r[i] == rest[i - 1] && r[j] == rest[j - 1];
          }
        }
      }
    }
  }

  /** `Object.keys(o)` after removing `k`: the same list without `k`. */
  function WithoutKey(ks: seq<string>, k: string): seq<string> {
    if ks == [] then [] else (if ks[0] == k then [] else [ks[0]]) + WithoutKey(ks[1..], k)
  }

  lemma {:induction false} KeysRemove<V>(o: Obj<V>, k: string)
    ensures Keys(Remove(o, k)) == WithoutKey(Keys(o), k)
  {
    if o != [] {
      KeysRemove(o[1..], k);
      assert Keys(o)[1..] == Keys(o[1..]);
      if o[0].key != k {
        assert Keys(Remove(o, k)) == [o[0].key] + Keys(Remove(o[1..], k));
      }
    }
  }

  /** `a` and `b` agree on every key except `k`. */
  ghost predicate SameExcept<V>(a: Obj<V>, b: Obj<V>, k: string) {
    forall k' :: k' != k ==> Get(a, k') == Get(b, k')
  }

  lemma {:induction false} PutFrame<V>(o: Obj<V>, k: string, v: V)
    ensures Get(Put(o, k, v), k) == Some(v)
    ensures SameExcept(Put(o, k, v), o, k)
  {
    GetPut(o, k, v, k);
    forall k' | k' != k ensures Get(Put(o, k, v), k') == Get(o, k') {
      GetPut(o, k, v, k');
    }
  }

  lemma {:induction false} RemoveFrame<V>(o: Obj<V>, k: string)
    ensures !Has(Remove(o, k), k)
    ensures SameExcept(Remove(o, k), o, k)
  {
    GetRemove(o, k, k);
    forall k' | k' != k ensures Get(Remove(o, k), k') == Get(o, k') {
      GetRemove(o, k, k');
    }
  }

  lemma {:induction false} WithoutKeyAppend(ks: seq<string>, k: string, n: string)
    ensures n != k ==> WithoutKey(ks + [n], k) == WithoutKey(ks, k) + [n]
  {
    if n == k {
    } else if ks == [] {
      assert WithoutKey([n], k) == [n] + WithoutKey([], k);
    } else {
      assert (ks + [n])[1..] == ks[1..] + [n];
      WithoutKeyAppend(ks[1..], k, n);
    }
  }
}

=== FILE: palette_state.dfy ===
/** The command palette's own state (src/components/CommandMenu/useCommandMenu.js
    and the key and breadcrumb handlers of CommandMenu.jsx): whether it is
    open, the typed search, the stack of pages, and the timer-input lock the
    palette drives while it is open. React's state updates within one event
    are applied in order; an effect that reacts to `open` runs only when `open`
    actually changes. */
module PaletteState {

  import opened JsValues

  datatype Palette = Palette(open: bool, search: string, pages: seq<string>, timerInputDisabled: bool)

  /** Closed, no search, no pages, timer input enabled. */
  function Initial(): Palette {
    Palette(false, "", [], false)
  }

  /** The timer takes input exactly when the palette is closed. */
  predicate TimerSynced(p: Palette) {
    p.timerInputDisabled == p.open
  }

  /** `page = pages[pages.length - 1]`: the top of the stack, or `undefined`. */
  function CurrentPage(pages: seq<string>): (r: Option<string>)
    ensures r.None? <==> pages == []
    ensures r.Some? ==> r.value == pages[|pages| - 1] && r.value in pages
  {
    if pages == [] then None else Some(pages[|pages| - 1])
  }

  /** `navigateToPage(name)`. */
  function NavigateToPage(p: Palette, name: string): (r: Palette)
    ensures |r.pages| == |p.pages| + 1 && r.pages[..|p.pages|] == p.pages
    ensures CurrentPage(r.pages) == Some(name)
    ensures r.search == "" && r.open == p.open && r.timerInputDisabled == p.timerInputDisabled
  {
    assert (p.pages + [name])[..|p.pages|] == p.pages;
    p.(pages := p.pages + [name], search := "")
  }

  /** `navigateBack()`: `pages.slice(0, -1)`, which leaves an empty stack empty. */
  function NavigateBack(p: Palette): (r: Palette)
    ensures p.pages == [] ==> r.pages == []
    ensures p.pages != [] ==> r.pages + [p.pages[|p.pages| - 1]] == p.pages
    ensures r.search == "" && r.open == p.open && r.timerInputDisabled == p.timerInputDisabled
  {
    var pages := if p.pages == [] then [] else p.pages[..|p.pages| - 1];
    p.(pages := pages, search := "")
  }

  /** `resetNavigation()`. */
  function ResetNavigation(p: Palette): (r: Palette)
    ensures r.pages == [] && r.search == ""
    ensures r.open == p.open && r.timerInputDisabled == p.timerInputDisabled
  {
    p.(pages := [], search := "")
  }

  /** `setOpen(b)` followed by the effect on `[open]`: a change of `open`
      clears the search and locks the timer input while the palette is open. */
  function SetOpen(p: Palette, b: bool): (r: Palette)
    ensures r.open == b && r.pages == p.pages
    ensures b != p.open ==> r.search == "" && r.timerInputDisabled == b
    ensures b == p.open ==> r == p
  {
    if b == p.open then p else p.(open := b, search := "", timerInputDisabled := b)
  }

  /** The document key listener: Ctrl+K or Cmd+K toggles the palette. */
  function ShortcutKey(p: Palette, key: string, metaKey: bool, ctrlKey: bool): (r: Palette)
    ensures key == "k" && (metaKey || ctrlKey) ==> r.open == !p.open && r.pages == p.pages && r.search == ""
    ensures !(key == "k" && (metaKey || ctrlKey)) ==> r == p
  {
    if key == "k" && (metaKey || ctrlKey) then SetOpen(p, !p.open) else p
  }

  /** `handleKeyDown`: Escape, or Backspace in an empty search, clears the
      search and goes back one page; Escape on an empty stack (as it was when
      the key was pressed) also closes the palette. */
  function HandleKeyDown(p: Palette, key: string): (r: Palette)
    ensures (key == "Escape" || (key == "Backspace" && p.search == "")) ==> r.search == ""
    ensures (key == "Escape" || (key == "Backspace" && p.search == "")) && p.pages != []
            ==> r.pages + [p.pages[|p.pages| - 1]] == p.pages
    ensures r.open <==> p.open && !(key == "Escape" && p.pages == [])
    ensures !(key == "Escape" || (key == "Backspace" && p.search == "")) ==> r == p
    ensures |r.pages| <= |p.pages|
  {
    var back := if key == "Escape" || (key == "Backspace" && p.search == "") then NavigateBack(p.(search := "")) else p;
    if p.pages == [] && key == "Escape" then SetOpen(back, false) else back
  }

  /** Every transition keeps the timer lock in step with `open`. */
  lemma {:induction false} TimerSyncedPreserved(p: Palette, name: string, b: bool, key: string, meta: bool, ctrl: bool)
    requires TimerSynced(p)
    ensures TimerSynced(NavigateToPage(p, name))
    ensures TimerSynced(NavigateBack(p))
    ensures TimerSynced(ResetNavigation(p))
    ensures TimerSynced(SetOpen(p, b))
    ensures TimerSynced(ShortcutKey(p, key, meta, ctrl))
    ensures TimerSynced(HandleKeyDown(p, key))
  {
  }

  /** Going to a page and back restores the stack; resetting twice is
      resetting once. */
  lemma {:induction false} NavigateRoundTrip(p: Palette, name: string)
    ensures NavigateBack(NavigateToPage(p, name)).pages == p.pages
    ensures ResetNavigation(ResetNavigation(p)) == ResetNavigation(p)
  {
    assert (p.pages + [name])[..|p.pages|] == p.pages;
  }

  /** A breadcrumb's `onClick` as written: it keeps the first
      `length - indexOf(page) - 1` pages, unless that count is 0. */
  function CrumbClick(pages: seq<string>, i: nat): (r: seq<string>)
    requires i < |pages|
    ensures r <= pages
  {
    var keep := |pages| - IndexOf(pages, pages[i]) - 1;
    if keep != 0 then pages[..keep] else pages
  }

  /** A breadcrumb as intended: the stack is cut back to the clicked page. */
  function CrumbClickFixed(pages: seq<string>, i: nat): (r: seq<string>)
    requires i < |pages|
    ensures r <= pages && r != []
    ensures r[|r| - 1] == pages[i]
    ensures pages[i] !in r[..|r| - 1]
  {
    var k := IndexOf(pages, pages[i]);
    pages[..k + 1]
  }

  /** On a stack of at most two distinct pages the two agree. Deeper stacks
      can be built, for instance through a session named like a page
      (`CommandMenu.DeepStackReachable`), and there they differ. */
  lemma {:induction false} CrumbClickShallow(pages: seq<string>, i: nat)
    requires i < |pages| <= 2
    requires |pages| == 2 ==> pages[0] != pages[1]
    ensures CrumbClick(pages, i) == CrumbClickFixed(pages, i)
  {
  }

  /** Finding: on the three-page stack ["rename session", "rename session",
      "Default"] (built in `CommandMenu.DeepStackReachable`) the first crumb
      keeps two pages, where cutting back to the clicked page keeps one. On
      ["a", "b", "c"] the first crumb keeps two pages and the second one, the
      reverse of what was clicked. */
  lemma CrumbClickDeep()
    ensures CrumbClick(["rename session", "rename session", "Default"], 0)
            == ["rename session", "rename session"]
    ensures CrumbClickFixed(["rename session", "rename session", "Default"], 0)
            == ["rename session"]
    ensures CrumbClick(["a", "b", "c"], 0) == ["a", "b"]
    ensures CrumbClick(["a", "b", "c"], 1) == ["a"]
    ensures CrumbClickFixed(["a", "b", "c"], 0) == ["a"]
    ensures CrumbClickFixed(["a", "b", "c"], 1) == ["a", "b"]
  {
    assert IndexOf(["rename session", "rename session", "Default"], "rename session") == 0;
    assert IndexOf(["a", "b", "c"], "a") == 0;
    assert ["a", "b", "c"][1..] == ["b", "c"];
    assert IndexOf(["a", "b", "c"], "b") == 1;
  }

}

=== FILE: scramble.dfy ===
/** The scramble line of src/components/Main/Top.jsx: the scramble split into
    moves, and the React key each move gets so that repeated moves stay
    distinct ("R", then "R-2", "R-3", ...). */
module Scramble {

  import opened Decimal
  import opened Text

  /** `scramble.split(" ")`; the `|| []` never applies, since `split` never
      returns an empty array. */
  function Moves(scramble: string): (moves: seq<string>)
    ensures |moves| >= 1
    ensures Join(moves, " ") == scramble
  {
    JoinSplit(scramble, ' ');
    Split(scramble, ' ')
  }

  /** How often `m` occurs in `s`. */
  function Occurrences(s: seq<string>, m: string): nat {
    if s == [] then 0 else Occurrences(s[..|s| - 1], m) + (if s[|s| - 1] == m then 1 else 0)
  }

  /** The key of the move at position `i`: the bare move the first time, and
      move + "-" + k the k-th time from the second on. */
  function KeyAt(moves: seq<string>, i: nat): string
    requires i < |moves|
  {
    var seen := Occurrences(moves[..i], moves[i]);
    if seen == 0 then moves[i] else moves[i] + "-" + NatToDecimal(seen + 1)
  }

  /** The loop of the `map` callback: a table of counts, bumped per move. */
  method MoveKeys(moves: seq<string>) returns (keys: seq<string>)
    ensures |keys| == |moves|
    ensures forall i :: 0 <= i < |moves| ==> keys[i] == KeyAt(moves, i)
  {
    var count: map<string, nat> := map[];
    keys := [];
    var i := 0;
    while i < |moves|
      invariant 0 <= i <= |moves|
      invariant |keys| == i
      invariant forall j :: 0 <= j < i ==> keys[j] == KeyAt(moves, j)
      invariant forall m :: m in count <==> Occurrences(moves[..i], m) > 0
      invariant forall m :: m in count ==> count[m] == Occurrences(moves[..i], m)
    {
      var m := moves[i];
      OccurrencesStep(moves, i);
      if m in count && count[m] > 0 {
        count := count[m := count[m] + 1];
        keys := keys + [m + "-" + NatToDecimal(count[m])];
      } else {
        count := count[m := 1];
        keys := keys + [m];
      }
      i := i + 1;
    }
  }

  /** One more move counts once more for itself and never for another move. */
  lemma {:induction false} OccurrencesStep(moves: seq<string>, i: nat)
    requires i < |moves|
    ensures forall m :: Occurrences(moves[..i + 1], m)
                        == Occurrences(moves[..i], m) + (if moves[i] == m then 1 else 0)
  {
    assert moves[..i + 1][..i] == moves[..i];
  }

  /** A later copy of a move has been seen more often than an earlier one. */
  lemma {:induction false} OccurrencesGrow(moves: seq<string>, j: nat, k: nat)
    requires j < k <= |moves|
    ensures Occurrences(moves[..k], moves[j]) >= Occurrences(moves[..j], moves[j]) + 1
  {
    if k == j + 1 {
      assert moves[..k][..j] == moves[..j];
    } else {
      OccurrencesGrow(moves, j, k - 1);
      assert moves[..k][..k - 1] == moves[..k - 1];
    }
  }

  lemma {:induction false} DigitsHaveNoDash(n: nat)
    ensures '-' !in NatToDecimal(n)
  {
    var d := NatToDecimal(n);
    forall i | 0 <= i < |d| ensures d[i] != '-' {
      assert IsDigit(d[i]);
    }
  }

  /** A suffixed key splits at its first '-' into the move and the count. */
  lemma {:induction false} SuffixedKeySplit(m: string, n: nat)
    requires '-' !in m
    ensures Split(m + "-" + NatToDecimal(n), '-') == [m, NatToDecimal(n)]
  {
    DigitsHaveNoDash(n);
    SplitPrefix(m, NatToDecimal(n), '-');
    SplitNoSeparator(NatToDecimal(n), '-');
    assert m + "-" + NatToDecimal(n) == m + (['-'] + NatToDecimal(n));
  }

  /** When no move holds a '-', every move gets a different key. */
  lemma {:induction false} KeysDistinct(moves: seq<string>, j: nat, k: nat)
    requires forall i :: 0 <= i < |moves| ==> '-' !in moves[i]
    requires j < k < |moves|
    ensures KeyAt(moves, j) != KeyAt(moves, k)
  {
    var sj := Occurrences(moves[..j], moves[j]);
    var sk := Occurrences(moves[..k], moves[k]);
    var kj := KeyAt(moves, j);
    var kk := KeyAt(moves, k);
    if sj > 0 {
      SuffixedKeySplit(moves[j], sj + 1);
      assert kj[|moves[j]|] == '-';
    }
    if sk > 0 {
      SuffixedKeySplit(moves[k], sk + 1);
      assert kk[|moves[k]|] == '-';
    }
    if moves[j] == moves[k] {
      OccurrencesGrow(moves, j, k);
      if sj == 0 {
        assert |kj| < |kk|;
      } else {
        DecValueOfNatToDecimal(sj + 1);
        DecValueOfNatToDecimal(sk + 1);
        assert Split(kj, '-')[1] != Split(kk, '-')[1];
      }
    } else if sj > 0 && sk > 0 {
      assert Split(kj, '-')[0] != Split(kk, '-')[0];
    }
  }

  /** The condition matters: a move that itself ends in "-2" collides with the
      second copy of its stem. */
  lemma KeysCollideWithDash()
    ensures KeyAt(["R", "R", "R-2"], 1) == KeyAt(["R", "R", "R-2"], 2)
  {
    var moves := ["R", "R", "R-2"];
    assert moves[..1] == ["R"];
    assert Occurrences(moves[..1], "R") == 1 by {
      assert moves[..1][..0] == [];
    }
    assert moves[..2] == ["R", "R"];
    assert Occurrences(moves[..2], "R-2") == 0 by {
      assert moves[..2][..1] == ["R"];
      assert ["R"][..0] == [];
    }
    assert NatToDecimal(2) == "2";
  }
}

=== FILE: session_info.dfy ===
/** The statistics dialog of src/components/Modals/SessionInfoModal.jsx: the
    session in chronological order, the running Ao5 and Ao12 of its chart,
    the DNF and solve counts, and the difference column of its table. */
module SessionInfo {

  import opened JsValues
  import opened Text
  import opened FormatTime
  import opened SolveRecord
  import opened Sorting
  import opened SolveTable

  /** `chronologicalSolves`: the solves sorted by ascending start time. */
  function Chronological(solves: seq<Solve>): (r: seq<Solve>)
    ensures multiset(r) == multiset(solves)
    ensures Sorted(r, Start, Asc)
    ensures StartsIncreasing(solves) ==> r == solves
  {
    InTimeOrder(solves);
    SortedSolves(solves, Asc)
  }

  lemma {:induction false} InTimeOrder(solves: seq<Solve>)
    ensures StartsIncreasing(solves) ==> SortedSolves(solves, Asc) == solves
  {
    if StartsIncreasing(solves) {
      SortedSessionOrder(solves);
    }
  }

  /** Number of DNFs among the solves. */
  function DnfCount(w: seq<Solve>): nat {
    if w == [] then 0 else (if w[0].penalty == Dnf then 1 else 0) + DnfCount(w[1..])
  }

  /** `filter(solve => solve.penalty !== "dnf").map(solve => solve.solveTime)`:
      the raw times of the solves that are not DNFs, in order; a "+2" is not
      added. */
  function ValidTimes(w: seq<Solve>): (r: seq<int>)
    ensures |r| + DnfCount(w) == |w|
  {
    if w == [] then []
    else (if w[0].penalty == Dnf then [] else [w[0].SolveTime()]) + ValidTimes(w[1..])
  }

  /** The valid times depend on each solve only through its time and whether
      it is a DNF: turning a solve into a "+2" (or back) changes nothing. */
  lemma {:induction false} ValidTimesIgnorePlusTwo(w: seq<Solve>, i: nat, p: Penalty)
    requires i < |w|
    requires w[i].penalty != Dnf && p != Dnf
    ensures ValidTimes(w[i := w[i].(penalty := p)]) == ValidTimes(w)
  {
    var w' := w[i := w[i].(penalty := p)];
    if i > 0 {
      assert w'[1..] == w[1..][i - 1 := w[i].(penalty := p)];
      ValidTimesIgnorePlusTwo(w[1..], i - 1, p);
    } else {
      assert w'[1..] == w[1..];
    }
  }

  /** `Math.ceil(size * 0.6)`, computed exactly as the least count c with
      5c >= 3 size. */
  function MinValid(size: nat): (c: nat)
    ensures 5 * c >= 3 * size
    ensures c == 0 || 5 * (c - 1) < 3 * size
  {
    (3 * size + 4) / 5
  }

  /** An Ao5 needs 3 valid times and an Ao12 needs 8. */
  lemma MinValidOfChartSizes()
    ensures MinValid(5) == 3 && MinValid(12) == 8
  {
  }

  /** `solves.slice(index - (size - 1), index + 1)`, which stops at the end
      of the list. */
  function Window(solves: seq<Solve>, index: nat, size: nat): (w: seq<Solve>)
    requires 1 <= size <= index + 1
    ensures |w| <= size
    ensures index < |solves| ==> w == solves[index + 1 - size..index + 1]
  {
    var lo := index + 1 - size;
    var hi := if index + 1 < |solves| then index + 1 else |solves|;
    if lo >= hi then [] else solves[lo..hi]
  }

  function MinOf(v: seq<int>): (m: int)
    requires |v| > 0
    ensures m in v
    ensures forall j :: 0 <= j < |v| ==> m <= v[j]
  {
    if |v| == 1 then v[0]
    else
      var rest := MinOf(v[1..]);
      if v[0] <= rest then v[0] else rest
  }

  function MaxOf(v: seq<int>): (m: int)
    requires |v| > 0
    ensures m in v
    ensures forall j :: 0 <= j < |v| ==> v[j] <= m
  {
    if |v| == 1 then v[0]
    else
      var rest := MaxOf(v[1..]);
      if v[0] >= rest then v[0] else rest
  }

  /** The key of a numeric sort, `(a, b) => a - b`. */
  function Ident(x: int): int {
    x
  }

  /** The ends of the ascending sort are the least and the greatest value. */
  lemma {:induction false} SortedEnds(v: seq<int>)
    requires |v| > 0
    ensures var s := SortBy(v, Ident, Asc);
      s[0] == MinOf(v) && s[|s| - 1] == MaxOf(v)
  {
    var s := SortBy(v, Ident, Asc);
    assert Sorted(s, Ident, Asc);
    forall i, j | 0 <= i < j < |s| ensures s[i] <= s[j] {
      assert InOrder(Ident(s[i]), Ident(s[j]), Asc);
    }
    AscendingEnds(s, v);
  }

  /** The ends of an ascending permutation of `v`. */
  lemma {:induction false} AscendingEnds(s: seq<int>, v: seq<int>)
    requires |v| > 0 && multiset(s) == multiset(v)
    requires forall i, j :: 0 <= i < j < |s| ==> s[i] <= s[j]
    ensures |s| == |v|
    ensures s[0] == MinOf(v) && s[|s| - 1] == MaxOf(v)
  {
    assert |s| == |multiset(s)| == |multiset(v)| == |v|;
    var last := |s| - 1;
    assert s[0] in multiset(v) && s[last] in multiset(v);
    var c :| 0 <= c < |v| && v[c] == s[0];
    var d :| 0 <= d < |v| && v[d] == s[last];
    assert MinOf(v) in multiset(s) && MaxOf(v) in multiset(s);
    var a :| 0 <= a < |s| && s[a] == MinOf(v);
    var b :| 0 <= b < |s| && s[b] == MaxOf(v);
    assert a == 0 || s[0] <= s[a];
    assert b == last || s[b] <= s[last];
  }

  /** `validTimes.sort((a, b) => a - b); pop(); shift()`: one least and one
      greatest value leave, everything else stays. */
  function Trimmed(v: seq<int>): (r: seq<int>)
    requires |v| >= 2
    ensures |r| == |v| - 2
    ensures multiset(r) + multiset{MinOf(v), MaxOf(v)} == multiset(v)
  {
    TrimmedParts(v);
    var s := SortBy(v, Ident, Asc);
    s[1..|s| - 1]
  }

  lemma {:induction false} TrimmedParts(v: seq<int>)
    requires |v| >= 2
    ensures var s := SortBy(v, Ident, Asc);
      multiset(s[1..|s| - 1]) + multiset{MinOf(v), MaxOf(v)} == multiset(v)
  {
    var s := SortBy(v, Ident, Asc);
    SortedEnds(v);
    EndsMultiset(s);
  }

  lemma {:induction false} EndsMultiset(s: seq<int>)
    requires |s| >= 2
    ensures multiset(s) == multiset(s[1..|s| - 1]) + multiset{s[0], s[|s| - 1]}
  {
    assert s == [s[0]] + s[1..|s| - 1] + [s[|s| - 1]];
  }

  /** The times `calculateRunningStats(solves, index, size)` averages, or
      `None` where it returns `null`: before the window is full, and when fewer
      than 60% of the window are valid. From size 4 on the least and the
      greatest time are dropped. */
  function RunningKept(solves: seq<Solve>, index: nat, size: nat): (r: Option<seq<int>>)
    requires size >= 1
    ensures r.None? <==> index + 1 < size || |ValidTimes(Window(solves, index, size))| < MinValid(size)
    ensures r.Some? && size <= 3 ==> r.value == ValidTimes(Window(solves, index, size))
    ensures r.Some? && size > 3 ==>
      var v := ValidTimes(Window(solves, index, size));
      && |r.value| >= 1 && |r.value| == |v| - 2
      && multiset(r.value) + multiset{MinOf(v), MaxOf(v)} == multiset(v)
  {
    if index + 1 < size then None
    else
      var v := ValidTimes(Window(solves, index, size));
      if |v| < MinValid(size) then None
      else if size > 3 then Some(Trimmed(v))
      else Some(v)
  }

  function Sum(v: seq<int>): int {
    if v == [] then 0 else v[0] + Sum(v[1..])
  }

  lemma {:induction false} SumBounds(v: seq<int>, lo: int, hi: int)
    requires forall j :: 0 <= j < |v| ==> lo <= v[j] <= hi
    ensures lo * |v| <= Sum(v) <= hi * |v|
  {
    if v != [] {
      SumBounds(v[1..], lo, hi);
    }
  }

  /** The chart's running average in seconds: the kept times' sum divided by
      their count (the trimmed count from size 4 on) and by 1000. Real
      arithmetic stands in for the program's floating point. */
  function RunningMean(solves: seq<Solve>, index: nat, size: nat): (r: Option<real>)
    requires size >= 1
    ensures r.Some? <==> RunningKept(solves, index, size).Some?
  {
    match RunningKept(solves, index, size)
    case None => None
    case Some(kept) => Some((Sum(kept) as real) / (|kept| as real) / 1000.0)
  }

  /** Every kept time lies between the least and the greatest valid time. */
  lemma {:induction false} KeptWithinValid(solves: seq<Solve>, index: nat, size: nat)
    requires size >= 1
    requires RunningKept(solves, index, size).Some?
    ensures var v := ValidTimes(Window(solves, index, size));
            var kept := RunningKept(solves, index, size).value;
      && |v| > 0 && |kept| > 0
      && forall j :: 0 <= j < |kept| ==> MinOf(v) <= kept[j] <= MaxOf(v)
  {
    var v := ValidTimes(Window(solves, index, size));
    var kept := RunningKept(solves, index, size).value;
    forall j | 0 <= j < |kept| ensures MinOf(v) <= kept[j] <= MaxOf(v) {
      assert kept[j] in multiset(kept);
      if size > 3 {
        assert kept[j] in multiset(v);
      }
      assert kept[j] in v;
    }
  }

  /** The running average lies between the fastest and the slowest valid time
      of its window. */
  lemma {:induction false} RunningMeanBounds(solves: seq<Solve>, index: nat, size: nat)
    requires size >= 1
    requires RunningMean(solves, index, size).Some?
    ensures var v := ValidTimes(Window(solves, index, size));
      && |v| > 0
      && (MinOf(v) as real) / 1000.0 <= RunningMean(solves, index, size).value <= (MaxOf(v) as real) / 1000.0
  {
    KeptWithinValid(solves, index, size);
    var v := ValidTimes(Window(solves, index, size));
    var kept := RunningKept(solves, index, size).value;
    SumBounds(kept, MinOf(v), MaxOf(v));
    assert RunningMean(solves, index, size).value == (Sum(kept) as real) / (|kept| as real) / 1000.0;
    MeanBetween(Sum(kept), |kept|, MinOf(v), MaxOf(v));
  }

  lemma {:induction false} MeanBetween(s: int, k: int, lo: int, hi: int)
    requires k > 0
    requires lo * k <= s <= hi * k
    ensures (lo as real) / 1000.0 <= (s as real) / (k as real) / 1000.0 <= (hi as real) / 1000.0
  {
    var q := (s as real) / (k as real);
    assert (lo * k) as real == (lo as real) * (k as real);
    assert (hi * k) as real == (hi as real) * (k as real);
    assert q * (k as real) == s as real;
    assert (lo as real) <= q <= (hi as real);
  }

  /** A "+2" never moves the chart: its raw time counts as if it had no penalty. */
  lemma {:induction false} RunningKeptIgnoresPlusTwo(solves: seq<Solve>, index: nat, size: nat, p: nat)
    requires size >= 1
    requires p < |solves| && solves[p].penalty == NoPenalty
    ensures RunningKept(solves[p := solves[p].(penalty := PlusTwo)], index, size)
            == RunningKept(solves, index, size)
  {
    if index + 1 >= size {
      var marked := solves[p := solves[p].(penalty := PlusTwo)];
      var w := Window(solves, index, size);
      var w' := Window(marked, index, size);
      var lo := index + 1 - size;
      if lo <= p < lo + |w| {
        assert w' == w[p - lo := w[p - lo].(penalty := PlusTwo)];
        ValidTimesIgnorePlusTwo(w, p - lo, PlusTwo);
      } else {
        assert w' == w;
      }
    }
  }

  /** `dnfCount` and `totalSolves` of `getSessionStats`. */
  datatype Counts = Counts(dnfCount: nat, totalSolves: nat)

  /** Both are 0 when no solve is valid; otherwise the DNFs and all solves of
      the chronological list are counted. */
  function SessionCounts(chrono: seq<Solve>): (r: Counts)
    ensures r.dnfCount <= r.totalSolves
    ensures r.totalSolves == 0 <==> DnfCount(chrono) == |chrono|
    ensures r.totalSolves - r.dnfCount == |ValidTimes(chrono)|
  {
    if ValidTimes(chrono) == [] then Counts(0, 0) else Counts(DnfCount(chrono), |chrono|)
  }

  lemma {:induction false} DnfCountAppend(a: seq<Solve>, b: seq<Solve>)
    ensures DnfCount(a + b) == DnfCount(a) + DnfCount(b)
  {
    if a != [] {
      assert (a + b)[0] == a[0];
      assert (a + b)[1..] == a[1..] + b;
      DnfCountAppend(a[1..], b);
    } else {
      assert a + b == b;
    }
  }

  /** Taking one solve out of a list takes out its share of the DNFs. */
  lemma {:induction false} DnfCountRemove(b: seq<Solve>, k: nat)
    requires k < |b|
    ensures DnfCount(b) == (if b[k].penalty == Dnf then 1 else 0) + DnfCount(b[..k] + b[k + 1..])
  {
    var rest := [b[k]] + b[k + 1..];
    assert b == b[..k] + rest;
    DnfCountAppend(b[..k], rest);
    assert rest[0] == b[k] && rest[1..] == b[k + 1..];
    assert DnfCount(rest) == (if b[k].penalty == Dnf then 1 else 0) + DnfCount(b[k + 1..]);
    DnfCountAppend(b[..k], b[k + 1..]);
  }

  /** Counting DNFs does not depend on the order. */
  lemma {:induction false} DnfCountPermutation(a: seq<Solve>, b: seq<Solve>)
    requires multiset(a) == multiset(b)
    ensures DnfCount(a) == DnfCount(b)
    decreases |a|
  {
    if a == [] {
      assert |b| == |multiset(b)| == 0;
    } else {
      var x := a[0];
      assert x in multiset(b);
      var k :| 0 <= k < |b| && b[k] == x;
      var b' := b[..k] + b[k + 1..];
      MultisetRemove(b, k);
      assert a == [x] + a[1..];
      assert multiset(a[1..]) == multiset(a) - multiset{x};
      DnfCountPermutation(a[1..], b');
      DnfCountRemove(b, k);
    }
  }

  lemma {:induction false} MultisetRemove<T>(b: seq<T>, k: nat)
    requires k < |b|
    ensures multiset(b[..k] + b[k + 1..]) == multiset(b) - multiset{b[k]}
  {
    assert b == b[..k] + [b[k]] + b[k + 1..];
  }

  /** The counts the dialog shows are those of the session itself, whatever
      order its solves were saved in. */
  lemma {:induction false} SessionCountsOfSession(solves: seq<Solve>)
    ensures var r := SessionCounts(Chronological(solves));
      && (DnfCount(solves) == |solves| ==> r == Counts(0, 0))
      && (DnfCount(solves) < |solves| ==> r == Counts(DnfCount(solves), |solves|))
  {
    var c := Chronological(solves);
    DnfCountPermutation(c, solves);
    assert |c| == |multiset(c)| == |multiset(solves)| == |solves|;
  }

  /** A session of DNFs only is reported as holding no solves and no DNFs. */
  lemma {:induction false} AllDnfShowsNothing(s: Solve)
    requires s.penalty == Dnf
    ensures SessionCounts(Chronological([s, s])) == Counts(0, 0)
  {
    SessionCountsOfSession([s, s]);
  }

  function Abs(d: int): nat {
    if d < 0 then -d else d
  }

  /** `sortedSolves[desc ? index + 1 : index - 1]`: the row the difference is
      taken against, if there is one. */
  function Neighbour(n: nat, index: nat, o: Order): (r: Option<nat>)
    requires index < n
    ensures r.Some? ==> r.value < n
    ensures r.None? <==> RowNumber(o, n, index) == 0
  {
    var j := if o == Desc then index + 1 else index - 1;
    if 0 <= j < n then Some(j) else None
  }

  /** A cell of the "Diff" column: its text, and whether it is coloured as
      faster (`Math.sign(diff) === -1`). */
  datatype DiffCell = DiffCell(text: string, faster: bool)

  /** The cell as written: the sign and `formatTime` of the absolute raw
      difference. `formatTime(0)` is `null`, which the `+` turns into "null". */
  function Diff(sorted: seq<Solve>, index: nat, o: Order): (r: DiffCell)
    requires index < |sorted|
    ensures r.text == "" <==> Neighbour(|sorted|, index, o).None?
  {
    match Neighbour(|sorted|, index, o)
    case None => DiffCell("", false)
    case Some(j) =>
      var d := sorted[index].SolveTime() - sorted[j].SolveTime();
      DiffCell((if d < 0 then "-" else "+") + Concat(FormatTime.FormatTime(Abs(d))), d < 0)
  }

  /** The cell as intended: a zero difference shows as "+00.000". */
  function DiffFixed(sorted: seq<Solve>, index: nat, o: Order): (r: DiffCell)
    requires index < |sorted|
    ensures r.text == "" <==> Neighbour(|sorted|, index, o).None?
  {
    match Neighbour(|sorted|, index, o)
    case None => DiffCell("", false)
    case Some(j) =>
      var d := sorted[index].SolveTime() - sorted[j].SolveTime();
      DiffCell((if d < 0 then "-" else "+") + FormatDigits(Abs(d)), d < 0)
  }

  /** Reads a signed difference back. */
  function ReadDiff(text: string): Option<int> {
    if |text| > 0 && (text[0] == '+' || text[0] == '-') then
      match ParseTime(text[1..])
      case Some(v) => Some(if text[0] == '-' then -v else v)
      case None => None
    else None
  }

  /** On a session saved in time order the neighbour of every row but the
      first solve's is the solve saved just before it, in either direction,
      so the column always compares a solve with its predecessor. */
  lemma {:induction false} NeighbourIsPrevious(solves: seq<Solve>, index: nat, o: Order)
    requires StartsIncreasing(solves)
    requires index < |solves|
    requires Neighbour(|solves|, index, o).Some?
    ensures var row := RowNumber(o, |solves|, index);
      && row > 0
      && SortedSolves(solves, o)[index] == solves[row]
      && SortedSolves(solves, o)[Neighbour(|solves|, index, o).value] == solves[row - 1]
  {
    RowShowsSessionPosition(solves, o, index);
    RowShowsSessionPosition(solves, o, Neighbour(|solves|, index, o).value);
  }

  /** The sign and the digits of a difference read back as the difference. */
  lemma {:induction false} SignedReads(d: int)
    ensures ReadDiff((if d < 0 then "-" else "+") + FormatDigits(Abs(d))) == Some(d)
  {
    var text := (if d < 0 then "-" else "+") + FormatDigits(Abs(d));
    DigitsRoundTrip(Abs(d));
    assert text[1..] == FormatDigits(Abs(d));
  }

  /** The corrected cell reads back as the signed difference, zero included,
      and its colour marks exactly the negative ones. */
  lemma {:induction false} DiffFixedReads(sorted: seq<Solve>, index: nat, o: Order)
    requires index < |sorted|
    requires Neighbour(|sorted|, index, o).Some?
    ensures var d := sorted[index].SolveTime() - sorted[Neighbour(|sorted|, index, o).value].SolveTime();
      && ReadDiff(DiffFixed(sorted, index, o).text) == Some(d)
      && (DiffFixed(sorted, index, o).faster <==> d < 0)
  {
    var j := Neighbour(|sorted|, index, o).value;
    var d := sorted[index].SolveTime() - sorted[j].SolveTime();
    assert DiffFixed(sorted, index, o) == DiffCell((if d < 0 then "-" else "+") + FormatDigits(Abs(d)), d < 0);
    SignedReads(d);
  }

  /** Where the difference is not zero the corrected cell is the cell as written. */
  lemma {:induction false} DiffFixedAgrees(sorted: seq<Solve>, index: nat, o: Order)
    requires index < |sorted|
    requires Neighbour(|sorted|, index, o).Some?
    requires sorted[index].SolveTime() != sorted[Neighbour(|sorted|, index, o).value].SolveTime()
    ensures DiffFixed(sorted, index, o) == Diff(sorted, index, o)
  {
    var j := Neighbour(|sorted|, index, o).value;
    var d := sorted[index].SolveTime() - sorted[j].SolveTime();
    FormatIsDigits(Abs(d));
  }

  /** Finding: two neighbouring solves of the same time show "+null", which
      reads back as no number at all. */
  lemma {:induction false} DiffEqualTimesShowsNull(sorted: seq<Solve>, index: nat, o: Order)
    requires index < |sorted|
    requires Neighbour(|sorted|, index, o).Some?
    requires sorted[index].SolveTime() == sorted[Neighbour(|sorted|, index, o).value].SolveTime()
    ensures Diff(sorted, index, o).text == "+null"
    ensures ReadDiff(Diff(sorted, index, o).text) == None
  {
    assert "+null"[1..] == "null";
    SplitAtLastAbsent("null", '.');
  }
}

=== FILE: session_store.dfy ===
/** `sessionData`: the named sessions, each holding its solves, the name of the
    current session and the chosen puzzle event, with the transitions that
    src/App.jsx, the command palette, the session select and the event select
    apply to it. Every transition is a pure function from the previous state,
    as the `setSessionData(prev => ...)` updaters are. */
module SessionStore {

  import opened JsValues
  import opened ObjectMap
  import opened SolveRecord

  /** `{ solves: [...] }`. */
  datatype Session = Session(solves: seq<Solve>)

  datatype Store = Store(sessions: Obj<Session>, currentSession: string, currentEvent: Option<string>)

  /** The state before anything was saved: one empty "Default" session, which
      is current, and no event (`currentEvent` is never initialised). */
  function Initial(): Store {
    Store([Entry("Default", Session([]))], "Default", None)
  }

  /** `sessionData.sessions[sessionData.currentSession]?.solves || []`. */
  function SessionSolves(st: Store): seq<Solve> {
    match Get(st.sessions, st.currentSession)
    case Some(s) => s.solves
    case None => []
  }

  /** The session names are distinct (true of any JS object) and the current
      one names an existing session. */
  predicate ValidStore(st: Store) {
    UniqueKeys(st.sessions) && Has(st.sessions, st.currentSession)
  }

  lemma InitialValid()
    ensures ValidStore(Initial())
    ensures SessionSolves(Initial()) == []
    ensures Keys(Initial().sessions) == ["Default"]
  {
    assert Keys(Initial().sessions)[0] == "Default";
  }

  /** Replaces the current session's solves, as `saveSolve`, `deleteSolve` and
      `updateSolve` all do through `[prev.currentSession]: {...}`. */
  function WithCurrentSolves(st: Store, solves: seq<Solve>): (r: Store)
    ensures SessionSolves(r) == solves
    ensures Has(r.sessions, st.currentSession)
    ensures SameExcept(r.sessions, st.sessions, st.currentSession)
    ensures Keys(r.sessions) == if Has(st.sessions, st.currentSession) then Keys(st.sessions)
                                else Keys(st.sessions) + [st.currentSession]
    ensures UniqueKeys(st.sessions) ==> ValidStore(r)
    ensures r.currentSession == st.currentSession && r.currentEvent == st.currentEvent
  {
    PutFrame(st.sessions, st.currentSession, Session(solves));
    PutUnique(st.sessions, st.currentSession, Session(solves));
    st.(sessions := Put(st.sessions, st.currentSession, Session(solves)))
  }

  /** `saveSolve`: appends one new solve to the current session. Reading
      `.solves` of a missing session throws, which is `None` here. */
  function SaveSolve(st: Store, id: string, scramble: string, times: Times): (r: Option<Store>)
    ensures r.Some? <==> Has(st.sessions, st.currentSession)
    ensures r.Some? ==> SessionSolves(r.value) == SessionSolves(st) + [NewSolve(id, scramble, times)]
    ensures r.Some? ==> Keys(r.value.sessions) == Keys(st.sessions)
    ensures r.Some? ==> SameExcept(r.value.sessions, st.sessions, st.currentSession)
    ensures r.Some? ==> r.value.currentSession == st.currentSession && r.value.currentEvent == st.currentEvent
    ensures r.Some? && UniqueKeys(st.sessions) ==> ValidStore(r.value)
  {
    if !Has(st.sessions, st.currentSession) then None
    else Some(WithCurrentSolves(st, SessionSolves(st) + [NewSolve(id, scramble, times)]))
  }

  /** The saved solve is the last one and every earlier solve is untouched. */
  lemma {:induction false} SaveSolveAppends(st: Store, id: string, scramble: string, times: Times)
    requires Has(st.sessions, st.currentSession)
    ensures var after := SessionSolves(SaveSolve(st, id, scramble, times).value);
      && |after| == |SessionSolves(st)| + 1
      && after[..|after| - 1] == SessionSolves(st)
      && after[|after| - 1].penalty == NoPenalty
      && after[|after| - 1].comment == ""
      && after[|after| - 1].SolveTime() == times.end - times.start
  {
    var after := SessionSolves(SaveSolve(st, id, scramble, times).value);
    assert after == SessionSolves(st) + [NewSolve(id, scramble, times)];
  }

  /** `deleteSolve`: the current session keeps the solves with another id.
      A missing current session comes back as an empty one. */
  function DeleteSolve(st: Store, id: string): (r: Store)
    ensures SessionSolves(r) == RemoveId(SessionSolves(st), id)
    ensures Has(r.sessions, st.currentSession)
    ensures !Has(st.sessions, st.currentSession) ==> SessionSolves(r) == []
    ensures SameExcept(r.sessions, st.sessions, st.currentSession)
    ensures Keys(r.sessions) == if Has(st.sessions, st.currentSession) then Keys(st.sessions)
                                else Keys(st.sessions) + [st.currentSession]
    ensures r.currentSession == st.currentSession && r.currentEvent == st.currentEvent
    ensures UniqueKeys(st.sessions) ==> ValidStore(r)
  {
    WithCurrentSolves(st, RemoveId(SessionSolves(st), id))
  }

  /** `updateSolve`: the matching solves of the current session take the change;
      a missing current session comes back as an empty one. */
  function UpdateSolve(st: Store, id: string, c: Change): (r: Store)
    ensures SessionSolves(r) == UpdateId(SessionSolves(st), id, c)
    ensures Has(r.sessions, st.currentSession)
    ensures !Has(st.sessions, st.currentSession) ==> SessionSolves(r) == []
    ensures SameExcept(r.sessions, st.sessions, st.currentSession)
    ensures Keys(r.sessions) == if Has(st.sessions, st.currentSession) then Keys(st.sessions)
                                else Keys(st.sessions) + [st.currentSession]
    ensures r.currentSession == st.currentSession && r.currentEvent == st.currentEvent
    ensures UniqueKeys(st.sessions) ==> ValidStore(r)
  {
    WithCurrentSolves(st, UpdateId(SessionSolves(st), id, c))
  }

  /** `createNewSession`: the typed name maps to an empty session (replacing one
      of the same name) and becomes current. */
  function CreateSession(st: Store, name: string): (r: Store)
    ensures Get(r.sessions, name) == Some(Session([]))
    ensures SameExcept(r.sessions, st.sessions, name)
    ensures Keys(r.sessions) == if Has(st.sessions, name) then Keys(st.sessions) else Keys(st.sessions) + [name]
    ensures r.currentSession == name && r.currentEvent == st.currentEvent
    ensures SessionSolves(r) == []
    ensures UniqueKeys(st.sessions) ==> ValidStore(r)
  {
    WithCurrentSolves(st.(currentSession := name), [])
  }

  /** `renameSession`: `newName` takes `oldName`'s session, `oldName` is deleted
      afterwards, and the current name follows the rename. Its only caller
      offers it for an existing `oldName`. */
  function RenameSession(st: Store, oldName: string, newName: string): (r: Store)
    requires Has(st.sessions, oldName)
    ensures !Has(r.sessions, oldName)
    ensures oldName != newName ==> Get(r.sessions, newName) == Get(st.sessions, oldName)
    ensures forall k :: k != oldName && k != newName ==> Get(r.sessions, k) == Get(st.sessions, k)
    ensures r.currentSession == if st.currentSession == oldName then newName else st.currentSession
    ensures r.currentEvent == st.currentEvent
    ensures UniqueKeys(st.sessions) ==> UniqueKeys(r.sessions)
    ensures oldName != newName && !Has(st.sessions, newName)
            ==> Keys(r.sessions) == WithoutKey(Keys(st.sessions), oldName) + [newName]
  {
    var moved := Put(st.sessions, newName, Get(st.sessions, oldName).value);
    PutFrame(st.sessions, newName, Get(st.sessions, oldName).value);
    RemoveFrame(moved, oldName);
    KeysRemove(moved, oldName);
    WithoutKeyAppend(Keys(st.sessions), oldName, newName);
    PutUnique(st.sessions, newName, Get(st.sessions, oldName).value);
    RemoveUnique(moved, oldName);
    Store(Remove(moved, oldName),
          if st.currentSession == oldName then newName else st.currentSession,
          st.currentEvent)
  }

  /** `deleteSession`: the key is removed; a deleted current session hands over
      to "Default", whether or not "Default" still exists. */
  function DeleteSession(st: Store, k: string): (r: Store)
    ensures !Has(r.sessions, k)
    ensures SameExcept(r.sessions, st.sessions, k)
    ensures Keys(r.sessions) == WithoutKey(Keys(st.sessions), k)
    ensures r.currentSession == if st.currentSession == k then "Default" else st.currentSession
    ensures r.currentEvent == st.currentEvent
    ensures UniqueKeys(st.sessions) ==> UniqueKeys(r.sessions)
  {
    RemoveFrame(st.sessions, k);
    KeysRemove(st.sessions, k);
    RemoveUnique(st.sessions, k);
    Store(Remove(st.sessions, k),
          if st.currentSession == k then "Default" else st.currentSession,
          st.currentEvent)
  }

  /** The session select's choices: every session name, in key order. */
  function SelectOptions(st: Store): (opts: seq<string>)
    ensures forall k :: k in opts <==> Has(st.sessions, k)
    ensures |opts| == |st.sessions|
  {
    Keys(st.sessions)
  }

  /** The session select's `onValueChange`: only the current name changes. */
  function SelectSession(st: Store, name: string): (r: Store)
    ensures r.sessions == st.sessions && r.currentEvent == st.currentEvent
    ensures r.currentSession == name
  {
    st.(currentSession := name)
  }

  /** The event select's `onValueChange`: only the event changes. */
  function SetEvent(st: Store, event: string): (r: Store)
    ensures r.sessions == st.sessions && r.currentSession == st.currentSession
    ensures r.currentEvent == Some(event)
  {
    st.(currentEvent := Some(event))
  }

  /** The props `Top` receives: the store, when it is passed at all. */
  datatype TopProps = TopProps(sessionData: Option<Store>)

  /** What App.jsx hands `Top`: the scramble and the visualisation, but neither
      `sessionData` nor `setSessionData`, whatever the store holds. */
  function AppTopProps(st: Store): (p: TopProps)
    ensures p.sessionData.None?
  {
    TopProps(None)
  }

  /** Rendering `Top`. The event select's `value` reads
      `sessionData.currentEvent`, and the mount effect reads
      `wcaEvents[currentEvent].puzzleID`; `events` is the key set of the
      cubing library's `wcaEvents`. A read through `undefined` throws, which is
      `None`; otherwise the result is the event the select shows. */
  function RenderTop(props: TopProps, events: set<string>): (r: Option<string>)
    ensures r.Some? ==> props.sessionData.Some? && r == props.sessionData.value.currentEvent
    ensures r.Some? ==> r.value in events
    ensures (props.sessionData.Some? && props.sessionData.value.currentEvent.Some?
             && props.sessionData.value.currentEvent.value in events) ==> r.Some?
  {
    match props.sessionData
    case None => None
    case Some(st) =>
      match st.currentEvent
      case None => None
      case Some(e) => if e in events then Some(e) else None
  }

  /** Finding: as App.jsx wires it, `Top` throws on its first render, so the
      event picker that `SetEvent` models is never shown. Passing the initial
      store would not help, since it holds no event. */
  lemma TopFailsAsWritten(st: Store, events: set<string>)
    ensures RenderTop(AppTopProps(st), events).None?
    ensures RenderTop(TopProps(Some(Initial())), events).None?
  {
  }

  /** The intended wiring: `Top` is given the store. */
  function FixedTopProps(st: Store): (p: TopProps)
    ensures p.sessionData == Some(st)
  {
    TopProps(Some(st))
  }

  /** The intended initial store: the select's default event "333" is written
      into the store. */
  function InitialFixed(): (st: Store)
    ensures ValidStore(st)
    ensures st.sessions == Initial().sessions && st.currentSession == Initial().currentSession
    ensures st.currentEvent == Some("333")
  {
    Initial().(currentEvent := Some("333"))
  }

  /** A run of picks in the event select, first to last. */
  function PickEvents(st: Store, picks: seq<string>): (r: Store)
    ensures r.sessions == st.sessions && r.currentSession == st.currentSession
    decreases |picks|
  {
    if picks == [] then st else PickEvents(SetEvent(st, picks[0]), picks[1..])
  }

  /** With the intended wiring `Top` keeps rendering through any run of picks
      among the known events, and shows the last one picked. */
  lemma {:induction false} PicksKeepTopRendering(st: Store, picks: seq<string>, events: set<string>)
    requires RenderTop(FixedTopProps(st), events).Some?
    requires forall i :: 0 <= i < |picks| ==> picks[i] in events
    ensures RenderTop(FixedTopProps(PickEvents(st, picks)), events)
            == (if picks == [] then st.currentEvent else Some(picks[|picks| - 1]))
    decreases |picks|
  {
    if picks != [] {
      var st' := SetEvent(st, picks[0]);
      assert forall i :: 0 <= i < |picks[1..]| ==> picks[1..][i] in events by {
        forall i | 0 <= i < |picks[1..]| ensures picks[1..][i] in events {
          assert picks[1..][i] == picks[i + 1];
        }
      }
      PicksKeepTopRendering(st', picks[1..], events);
    }
  }

  /** From the intended initial store, `Top` renders with "333" and then with
      each event picked. */
  lemma {:induction false} TopFixedRenders(picks: seq<string>, events: set<string>)
    requires "333" in events
    requires forall i :: 0 <= i < |picks| ==> picks[i] in events
    ensures RenderTop(FixedTopProps(PickEvents(InitialFixed(), picks)), events)
            == Some(if picks == [] then "333" else picks[|picks| - 1])
  {
    PicksKeepTopRendering(InitialFixed(), picks, events);
  }

  /** Picking one of the offered choices always lands on an existing session. */
  lemma {:induction false} SelectOfferedValid(st: Store, name: string)
    requires UniqueKeys(st.sessions)
    requires name in SelectOptions(st)
    ensures ValidStore(SelectSession(st, name))
    ensures SessionSolves(SelectSession(st, name)) == Get(st.sessions, name).value.solves
  {
  }

  /** Renaming to a different name keeps the store valid, and the current
      session keeps its solves unless another session is renamed onto it. */
  lemma {:induction false} RenameSessionValid(st: Store, oldName: string, newName: string)
    requires ValidStore(st) && Has(st.sessions, oldName) && oldName != newName
    ensures ValidStore(RenameSession(st, oldName, newName))
    ensures st.currentSession != newName ==> SessionSolves(RenameSession(st, oldName, newName)) == SessionSolves(st)
  {
    var r := RenameSession(st, oldName, newName);
    if st.currentSession == oldName {
      assert r.currentSession == newName;
      assert Get(r.sessions, newName) == Get(st.sessions, oldName);
    } else if st.currentSession == newName {
      assert r.currentSession == newName;
      assert Get(r.sessions, newName) == Get(st.sessions, oldName);
    } else {
      assert r.currentSession == st.currentSession;
      assert Get(r.sessions, st.currentSession) == Get(st.sessions, st.currentSession);
    }
  }

  /** Deletion leaves a valid store exactly when the current session survives,
      or it was the one deleted and a different "Default" session exists. */
  lemma {:induction false} DeleteSessionValidIff(st: Store, k: string)
    requires UniqueKeys(st.sessions)
    ensures ValidStore(DeleteSession(st, k)) <==>
      if st.currentSession == k then k != "Default" && Has(st.sessions, "Default")
      else Has(st.sessions, st.currentSession)
  {
    var r := DeleteSession(st, k);
    if st.currentSession == k {
      if k != "Default" {
        assert Get(r.sessions, "Default") == Get(st.sessions, "Default");
      }
    } else {
      assert Get(r.sessions, st.currentSession) == Get(st.sessions, st.currentSession);
    }
  }

  /** Finding: deleting "Default" while it is current leaves `currentSession`
      naming nothing, and the next `saveSolve` throws. */
  lemma {:induction false} DeleteDefaultDangles(id: string, scramble: string, times: Times)
    ensures var st := DeleteSession(Initial(), "Default");
      && !ValidStore(st)
      && SaveSolve(st, id, scramble, times) == None
  {
    InitialValid();
    DeleteSessionValidIff(Initial(), "Default");
  }

  /** Finding: renaming a session to its own name deletes it; for the current
      session this leaves `currentSession` naming nothing. */
  lemma {:induction false} RenameToSelfDeletes(st: Store, name: string)
    requires ValidStore(st) && st.currentSession == name
    ensures !ValidStore(RenameSession(st, name, name))
    ensures SaveSolve(RenameSession(st, name, name), "", "", Times(0, 0)) == None
  {
  }

  /** Deletion that never leaves the current name dangling: when the current
      session goes and no other "Default" exists, an empty "Default" is
      created and becomes current. */
  function DeleteSessionFixed(st: Store, k: string): (r: Store)
    ensures !Has(r.sessions, k) || (k == "Default" && st.currentSession == k)
    ensures forall k' :: k' != k && k' != "Default" ==> Get(r.sessions, k') == Get(st.sessions, k')
    ensures r.currentSession == if st.currentSession == k then "Default" else st.currentSession
    ensures r.currentEvent == st.currentEvent
  {
    var r := DeleteSession(st, k);
    if st.currentSession == k && !Has(r.sessions, "Default") then
      PutFrame(r.sessions, "Default", Session([]));
      r.(sessions := Put(r.sessions, "Default", Session([])))
    else r
  }

  /** The corrected deletion keeps every valid store valid, and agrees with the
      original whenever the original does. */
  lemma {:induction false} DeleteSessionFixedValid(st: Store, k: string)
    requires ValidStore(st)
    ensures ValidStore(DeleteSessionFixed(st, k))
    ensures ValidStore(DeleteSession(st, k)) ==> DeleteSessionFixed(st, k) == DeleteSession(st, k)
  {
    var r := DeleteSession(st, k);
    DeleteSessionValidIff(st, k);
    if st.currentSession == k && !Has(r.sessions, "Default") {
      PutFrame(r.sessions, "Default", Session([]));
      PutUnique(r.sessions, "Default", Session([]));
    }
  }

  /** Renaming that leaves the store alone when the name does not change. */
  function RenameSessionFixed(st: Store, oldName: string, newName: string): (r: Store)
    requires Has(st.sessions, oldName)
    ensures Get(r.sessions, newName) == Get(st.sessions, oldName)
    ensures oldName != newName ==> !Has(r.sessions, oldName)
    ensures forall k :: k != oldName && k != newName ==> Get(r.sessions, k) == Get(st.sessions, k)
    ensures r.currentSession == if st.currentSession == oldName then newName else st.currentSession
    ensures r.currentEvent == st.currentEvent
  {
    if oldName == newName then st else RenameSession(st, oldName, newName)
  }

  /** The corrected rename keeps every valid store valid, and renaming the
      current session keeps its solves on screen. */
  lemma {:induction false} RenameSessionFixedValid(st: Store, oldName: string, newName: string)
    requires ValidStore(st) && Has(st.sessions, oldName)
    ensures ValidStore(RenameSessionFixed(st, oldName, newName))
    ensures st.currentSession == oldName ==> SessionSolves(RenameSessionFixed(st, oldName, newName)) == SessionSolves(st)
  {
    if oldName != newName {
      RenameSessionValid(st, oldName, newName);
    }
  }
}

=== FILE: solve_record.dfy ===
/** A recorded solve, as src/App.jsx builds it in `saveSolve`, and the list
    operations on a session's solves: lookup by id (`findIndex`), removal by
    id (`filter`) and update by id (`map`). */
module SolveRecord {

  import opened JsValues

  /** `penalty`: `null`, "+2" or "dnf". */
  datatype Penalty = NoPenalty | PlusTwo | Dnf

  /** `times`: the wall-clock start and end of the solve, in milliseconds. */
  datatype Times = Times(start: int, end: int)

  datatype Solve = Solve(id: string, scramble: string, penalty: Penalty, times: Times, comment: string)
  {
    /** The `solveTime` getter: always recomputed from `times`. */
    function SolveTime(): int {
      times.end - times.start
    }
  }

  /** The solve `saveSolve` records: no penalty, an empty comment, the given
      times and the scramble on display. `id` is the random id the source draws. */
  function NewSolve(id: string, scramble: string, times: Times): Solve {
    Solve(id, scramble, NoPenalty, times, "")
  }

  /** The time that `getMinSolveTimeId` compares: +2000 for "+2", `Infinity` for "dnf". */
  function Penalised(s: Solve): Ext {
    match s.penalty
    case NoPenalty => Fin(s.SolveTime())
    case PlusTwo => Fin(s.SolveTime() + 2000)
    case Dnf => Inf
  }

  /** `solves.findIndex(s => s.id === id)`: the first position holding `id`, or -1. */
  function FindIndex(solves: seq<Solve>, id: string): (i: int)
    ensures -1 <= i < |solves|
    ensures i == -1 <==> forall j :: 0 <= j < |solves| ==> solves[j].id != id
    ensures i >= 0 ==> solves[i].id == id && forall j :: 0 <= j < i ==> solves[j].id != id
  {
    if solves == [] then -1
    else if solves[0].id == id then 0
    else
      var k := FindIndex(solves[1..], id);
      if k == -1 then -1 else k + 1
  }

  /** `xs` is `ys` with some elements left out, order kept. */
  predicate IsSubsequence<T(==)>(xs: seq<T>, ys: seq<T>) {
    if xs == [] then true
    else if ys == [] then false
    else if xs[0] == ys[0] then IsSubsequence(xs[1..], ys[1..])
    else IsSubsequence(xs, ys[1..])
  }

  /** Number of solves holding `id`. */
  function CountId(solves: seq<Solve>, id: string): nat {
    if solves == [] then 0 else (if solves[0].id == id then 1 else 0) + CountId(solves[1..], id)
  }

  /** `solves.filter(s => s.id !== id)`: every solve with that id is gone, the
      others stay, in order; an absent id changes nothing. */
  function RemoveId(solves: seq<Solve>, id: string): (r: seq<Solve>)
    ensures IsSubsequence(r, solves)
    ensures |r| == |solves| - CountId(solves, id)
    ensures forall s :: s in r <==> s in solves && s.id != id
    ensures CountId(solves, id) == 0 ==> r == solves
  {
    if solves == [] then []
    else if solves[0].id == id then RemoveId(solves[1..], id)
    else [solves[0]] + RemoveId(solves[1..], id)
  }

  /** The edits `updateSolve` is called with: the penalty buttons and the comment box. */
  datatype Change = SetPenalty(penalty: Penalty) | SetComment(comment: string)

  /** `{ ...solve, [property]: value }`. */
  function Apply(s: Solve, c: Change): Solve {
    match c
    case SetPenalty(p) => s.(penalty := p)
    case SetComment(t) => s.(comment := t)
  }

  /** `solves.map(s => s.id === id ? { ...s, [property]: value } : s)`: same
      length, order and ids; only the named field of the matching solves changes. */
  function UpdateId(solves: seq<Solve>, id: string, c: Change): (r: seq<Solve>)
    ensures |r| == |solves|
    ensures forall i :: 0 <= i < |r| ==>
      && r[i].id == solves[i].id
      && r[i].scramble == solves[i].scramble
      && r[i].times == solves[i].times
      && (solves[i].id != id ==> r[i] == solves[i])
      && (solves[i].id == id && c.SetPenalty? ==> r[i].penalty == c.penalty && r[i].comment == solves[i].comment)
      && (solves[i].id == id && c.SetComment? ==> r[i].comment == c.comment && r[i].penalty == solves[i].penalty)
  {
    if solves == [] then []
    else [if solves[0].id == id then Apply(solves[0], c) else solves[0]] + UpdateId(solves[1..], id, c)
  }
}

=== FILE: solve_table.dfy ===
/** The solve table of src/components/Main/Solves.jsx (repeated in the session
    dialog of src/components/Modals/SessionInfoModal.jsx) and the solve dialog
    of src/components/Modals/SolveInfoModal.jsx: the display order, the row
    numbers, the cell texts, and what the dialog's buttons do to the store. */
module SolveTable {

  import opened JsValues
  import opened Decimal
  import opened FormatTime
  import opened SolveRecord
  import opened GetTimes
  import opened Sorting
  import opened SessionStore

  /** The sort key, `solve.times.start`. */
  function Start(s: Solve): int {
    s.times.start
  }

  /** `sortedSolves`: a copy of the session's solves sorted by start time, in
      the chosen order. */
  function SortedSolves(solves: seq<Solve>, o: Order): (r: seq<Solve>)
    ensures multiset(r) == multiset(solves)
    ensures Sorted(r, Start, o)
  {
    SortBy(solves, Start, o)
  }

  /** Solves that share a start time keep their session order, in either
      direction. */
  lemma {:induction false} SortedSolvesStable(solves: seq<Solve>, o: Order, start: int)
    ensures WithKey(SortedSolves(solves, o), Start, start) == WithKey(solves, Start, start)
  {
    SortByStable(solves, Start, o, start);
  }

  /** Solves saved one after another start at increasing times. */
  predicate StartsIncreasing(solves: seq<Solve>) {
    forall i, j :: 0 <= i < j < |solves| ==> solves[i].times.start < solves[j].times.start
  }

  function Reverse<T>(s: seq<T>): (r: seq<T>)
    ensures |r| == |s|
    ensures forall i :: 0 <= i < |s| ==> r[i] == s[|s| - 1 - i]
  {
    if s == [] then [] else Reverse(s[1..]) + [s[0]]
  }

  /** In descending order a solve that starts before all others goes last. */
  lemma {:induction false} InsertEarliest(x: Solve, t: seq<Solve>)
    requires forall j :: 0 <= j < |t| ==> Start(t[j]) > Start(x)
    ensures Insert(x, t, Start, Desc) == t + [x]
  {
    if t != [] {
      InsertEarliest(x, t[1..]);
      assert t == [t[0]] + t[1..];
      assert [t[0]] + (t[1..] + [x]) == t + [x];
    }
  }

  lemma {:induction false} StartsIncreasingTail(solves: seq<Solve>)
    requires StartsIncreasing(solves) && solves != []
    ensures StartsIncreasing(solves[1..])
    ensures forall j :: 0 <= j < |solves| - 1 ==> Start(solves[1..][j]) > Start(solves[0])
  {
    var t := solves[1..];
    forall i, j | 0 <= i < j < |t| ensures t[i].times.start < t[j].times.start {
      assert t[i] == solves[i + 1] && t[j] == solves[j + 1];
    }
  }

  /** On a session saved in time order the ascending table is the session itself. */
  lemma {:induction false} SortedAscending(solves: seq<Solve>)
    requires StartsIncreasing(solves)
    ensures SortBy(solves, Start, Asc) == solves
  {
    if solves != [] {
      var x, t := solves[0], solves[1..];
      StartsIncreasingTail(solves);
      SortedAscending(t);
      SortByStep(solves, Start, Asc);
      assert t == [] || Start(x) < Start(t[0]);
      InsertFront(x, t, Start, Asc);
      assert solves == [x] + t;
    }
  }

  /** ... and the descending table is the session reversed. */
  lemma {:induction false} SortedDescending(solves: seq<Solve>)
    requires StartsIncreasing(solves)
    ensures SortBy(solves, Start, Desc) == Reverse(solves)
  {
    if solves != [] {
      var x, t := solves[0], solves[1..];
      StartsIncreasingTail(solves);
      SortedDescending(t);
      SortByStep(solves, Start, Desc);
      ReversedStartAfter(x, t);
      InsertEarliest(x, Reverse(t));
      assert Reverse(solves) == Reverse(t) + [x];
    }
  }

  lemma {:induction false} ReversedStartAfter(x: Solve, t: seq<Solve>)
    requires forall j :: 0 <= j < |t| ==> Start(t[j]) > Start(x)
    ensures forall j :: 0 <= j < |t| ==> Start(Reverse(t)[j]) > Start(x)
  {
    var rt := Reverse(t);
    forall j | 0 <= j < |t| ensures Start(rt[j]) > Start(x) {
      assert rt[j] == t[|t| - 1 - j];
    }
  }

  /** On a session saved in time order the ascending table is the session
      itself and the descending table is the session reversed. */
  lemma {:induction false} SortedSessionOrder(solves: seq<Solve>)
    requires StartsIncreasing(solves)
    ensures SortedSolves(solves, Asc) == solves
    ensures SortedSolves(solves, Desc) == Reverse(solves)
  {
    SortedAscending(solves);
    SortedDescending(solves);
  }

  /** The number shown in a row: the display index when ascending, counted
      from the end when descending. */
  function RowNumber(o: Order, n: nat, index: nat): (i: nat)
    requires index < n
    ensures i < n
  {
    if o == Asc then index else n - 1 - index
  }

  /** Row numbers are a permutation of 0..n-1: numbering twice gives the index
      back, so no two rows share a number and every number is used. */
  lemma {:induction false} RowNumbersPermutation(o: Order, n: nat)
    ensures forall k :: 0 <= k < n ==> RowNumber(o, n, RowNumber(o, n, k)) == k
    ensures forall a, b :: 0 <= a < b < n ==> RowNumber(o, n, a) != RowNumber(o, n, b)
  {
  }

  /** On a session saved in time order a row's number is the position of its
      solve in the session, which is also the dialog's "Solve #". */
  lemma {:induction false} RowShowsSessionPosition(solves: seq<Solve>, o: Order, index: nat)
    requires StartsIncreasing(solves)
    requires index < |solves|
    ensures SortedSolves(solves, o)[index] == solves[RowNumber(o, |solves|, index)]
  {
    SortedSessionOrder(solves);
  }

  /** The first cell: the row number, then "*" when the comment is not the
      empty string (a comment of blanks is marked too). */
  function RowLabel(o: Order, n: nat, index: nat, s: Solve): string
    requires index < n
  {
    NatToDecimal(RowNumber(o, n, index)) + (if s.comment != "" then "*" else "")
  }

  /** The label ends in "*" exactly when there is a comment, and the digits in
      front of it are the row number. */
  lemma {:induction false} RowLabelReads(o: Order, n: nat, index: nat, s: Solve)
    requires index < n
    ensures var r := RowLabel(o, n, index, s);
      && |r| > 0
      && (r[|r| - 1] == '*' <==> s.comment != "")
      && var digits := if s.comment != "" then r[..|r| - 1] else r;
         AllDigits(digits) && DecValue(digits) == RowNumber(o, n, index)
  {
    var d := NatToDecimal(RowNumber(o, n, index));
    DecValueOfNatToDecimal(RowNumber(o, n, index));
    assert IsDigit(d[|d| - 1]);
    if s.comment != "" {
      assert RowLabel(o, n, index, s)[..|d|] == d;
    } else {
      assert RowLabel(o, n, index, s) == d;
    }
  }

  /** The table's time cell: "+" and the penalised time for "+2", "DNF" for a
      DNF, else the time. A `null` from `formatTime` concatenates as "null" and
      renders as nothing. */
  function TimeCell(s: Solve): string {
    match s.penalty
    case PlusTwo => "+" + Concat(FormatTime.FormatTime(s.SolveTime() + 2000))
    case Dnf => "DNF"
    case NoPenalty => Render(FormatTime.FormatTime(s.SolveTime()))
  }

  /** Reads a time cell back into a number like the ones `getMinSolveTimeId`
      compares. */
  function ReadTimeCell(text: string): Option<Ext> {
    if text == "DNF" then Some(Inf)
    else if |text| > 0 && text[0] == '+' then
      match ParseTime(text[1..])
      case Some(v) => Some(Fin(v))
      case None => None
    else
      match ParseTime(text)
      case Some(v) => Some(Fin(v))
      case None => None
  }

  /** A time cell shows exactly the penalised time, and its "+" marks a "+2". */
  lemma {:induction false} TimeCellRoundTrip(s: Solve)
    requires s.SolveTime() > 0
    ensures ReadTimeCell(TimeCell(s)) == Some(Penalised(s))
    ensures |TimeCell(s)| > 0 && (TimeCell(s)[0] == '+' <==> s.penalty == PlusTwo)
  {
    match s.penalty
    case PlusTwo =>
      var t := s.SolveTime() + 2000;
      FormatIsDigits(t);
      DigitsRoundTrip(t);
      CellSignedReads(FormatDigits(t), t);
    case Dnf =>
    case NoPenalty =>
      var t := s.SolveTime();
      FormatIsDigits(t);
      DigitsRoundTrip(t);
      LeadingDigit(t);
      CellPlainReads(FormatDigits(t), t);
  }

  lemma {:induction false} CellSignedReads(d: string, v: int)
    requires ParseTime(d) == Some(v)
    ensures ReadTimeCell("+" + d) == Some(Fin(v))
  {
    assert ("+" + d)[1..] == d;
  }

  lemma {:induction false} CellPlainReads(d: string, v: int)
    requires |d| > 0 && IsDigit(d[0])
    requires ParseTime(d) == Some(v)
    ensures ReadTimeCell(d) == Some(Fin(v))
  {
    assert d != "DNF" by {
      assert "DNF"[0] == 'D';
    }
  }

  /** The dialog's time label: like the cell, but a DNF shows its time as
      "DNF(...)". */
  function TimeLabel(s: Solve): string {
    match s.penalty
    case PlusTwo => "+" + Concat(FormatTime.FormatTime(s.SolveTime() + 2000))
    case Dnf => "DNF(" + Concat(FormatTime.FormatTime(s.SolveTime())) + ")"
    case NoPenalty => Render(FormatTime.FormatTime(s.SolveTime()))
  }

  /** Reads a dialog label back into the penalty and the raw time. */
  function ReadTimeLabel(text: string): Option<(Penalty, int)> {
    if |text| >= 5 && text[..4] == "DNF(" && text[|text| - 1] == ')' then
      match ParseTime(text[4..|text| - 1])
      case Some(v) => Some((Dnf, v))
      case None => None
    else if |text| > 0 && text[0] == '+' then
      match ParseTime(text[1..])
      case Some(v) => Some((PlusTwo, v - 2000))
      case None => None
    else
      match ParseTime(text)
      case Some(v) => Some((NoPenalty, v))
      case None => None
  }

  /** Unlike the table cell, the dialog label loses nothing: penalty and raw
      time both read back from it. */
  lemma {:induction false} TimeLabelRoundTrip(s: Solve)
    requires s.SolveTime() > 0
    ensures ReadTimeLabel(TimeLabel(s)) == Some((s.penalty, s.SolveTime()))
  {
    var t := s.SolveTime();
    match s.penalty
    case PlusTwo => PlusTwoLabelReads(t);
    case Dnf => DnfLabelReads(t);
    case NoPenalty => PlainLabelReads(t);
  }

  lemma {:induction false} PlusTwoLabelReads(t: nat)
    requires t > 0
    ensures ReadTimeLabel("+" + Concat(FormatTime.FormatTime(t + 2000))) == Some((PlusTwo, t))
  {
    FormatIsDigits(t + 2000);
    DigitsRoundTrip(t + 2000);
    ReadSigned(FormatDigits(t + 2000), t + 2000);
  }

  lemma {:induction false} DnfLabelReads(t: nat)
    requires t > 0
    ensures ReadTimeLabel("DNF(" + Concat(FormatTime.FormatTime(t)) + ")") == Some((Dnf, t))
  {
    FormatIsDigits(t);
    DigitsRoundTrip(t);
    ReadBracketed(FormatDigits(t), t);
  }

  lemma {:induction false} PlainLabelReads(t: nat)
    requires t > 0
    ensures ReadTimeLabel(Render(FormatTime.FormatTime(t))) == Some((NoPenalty, t))
  {
    FormatIsDigits(t);
    DigitsRoundTrip(t);
    LeadingDigit(t);
    ReadPlain(FormatDigits(t), t);
  }

  /** The three shapes of a label, for any text that reads as a time. */
  lemma {:induction false} ReadSigned(d: string, v: int)
    requires ParseTime(d) == Some(v)
    ensures ReadTimeLabel("+" + d) == Some((PlusTwo, v - 2000))
  {
    var text := "+" + d;
    assert text[1..] == d;
    assert |text| < 5 || text[..4] != "DNF(" by {
      if |text| >= 5 {
        assert text[..4][0] == '+';
      }
    }
  }

  lemma {:induction false} ReadBracketed(d: string, v: int)
    requires ParseTime(d) == Some(v)
    ensures ReadTimeLabel("DNF(" + d + ")") == Some((Dnf, v))
  {
    var text := "DNF(" + d + ")";
    assert text[4..|text| - 1] == d;
    assert text[..4] == "DNF(";
  }

  lemma {:induction false} ReadPlain(d: string, v: int)
    requires |d| > 0 && IsDigit(d[0])
    requires ParseTime(d) == Some(v)
    ensures ReadTimeLabel(d) == Some((NoPenalty, v))
  {
    assert d[0] != '+' && d[0] != 'D';
    assert |d| < 5 || d[..4] != "DNF(" by {
      if |d| >= 5 {
        assert d[..4][0] == d[0];
      }
    }
  }

  /** The table shows no time for a DNF, so two DNFs of different length look alike. */
  lemma {:induction false} TimeCellHidesDnfTime(a: Solve, b: Solve)
    requires a.penalty == Dnf && b.penalty == Dnf
    requires a.SolveTime() > 0 && b.SolveTime() > 0 && a.SolveTime() != b.SolveTime()
    ensures TimeCell(a) == TimeCell(b)
    ensures TimeLabel(a) != TimeLabel(b)
  {
    TimeLabelRoundTrip(a);
    TimeLabelRoundTrip(b);
  }

  /** The highlight of a time cell and the crown in the dialog: the solve holds
      the id `getMinSolveTimeId` returns. A row or the dialog only asks this
      while it shows a solve of the list, so the list is not empty. */
  predicate Crowned(solves: seq<Solve>, id: string)
    requires |solves| > 0
  {
    MinSolveTimeId(solves) == id
  }

  predicate DistinctIds(solves: seq<Solve>) {
    forall i, j :: 0 <= i < j < |solves| ==> solves[i].id != solves[j].id
  }

  /** With distinct ids exactly one solve wears the crown: the first one with
      the least penalised time. */
  lemma {:induction false} CrownedIff(solves: seq<Solve>, k: nat)
    requires DistinctIds(solves)
    requires k < |solves|
    ensures Crowned(solves, solves[k].id) <==> k == MinSolveIndex(solves)
    ensures Crowned(solves, solves[k].id)
            ==> forall j :: 0 <= j < |solves| ==> LessEq(Penalised(solves[k]), Penalised(solves[j]))
  {
    var m := MinSolveIndex(solves);
    if k < m {
      assert solves[k].id != solves[m].id;
    } else if m < k {
      assert solves[m].id != solves[k].id;
    }
  }

  /** `formatTime(getAverageOfSolveTime(solves, id, n))`; `formatTime(null)` is
      `null` as well. */
  function AverageText(solves: seq<Solve>, id: string, n: nat): Option<string>
    requires n >= 1
  {
    match AverageOfSolveTime(solves, id, n)
    case None => None
    case Some(v) => FormatTime.FormatTime(v)
  }

  /** The table's Ao5 and Ao12 cells. */
  function AverageCell(solves: seq<Solve>, id: string, n: nat): string
    requires n >= 1
  {
    Render(AverageText(solves, id, n))
  }

  /** The dialog shows its Ao5 and Ao12 rows only for a truthy average. An
      average of 0 shows no row either, but leaves the text "0" in its place
      (see `AverageSlotOf`). */
  predicate AverageRowVisible(solves: seq<Solve>, id: string, n: nat)
    requires n >= 1
  {
    var a := AverageOfSolveTime(solves, id, n);
    a.Some? && a.value != 0
  }

  /** The dialog's average row is shown exactly when the table's average cell
      for the same solve is non-empty. */
  lemma {:induction false} AverageRowVisibleIff(solves: seq<Solve>, id: string, n: nat)
    requires n >= 1
    ensures AverageRowVisible(solves, id, n) <==> AverageCell(solves, id, n) != ""
  {
    var a := AverageOfSolveTime(solves, id, n);
    if a.Some? && a.value != 0 {
      var ms := a.value;
      assert |Pad(JsRem(ms, 1000), 3)| >= 3;
      assert |FormatTime.FormatTime(ms).value| >= 3;
    }
  }

  /** What the dialog puts where an average row goes. `average && <tr>…</tr>`
      renders nothing for `null`, the bare number for an average of 0 (a
      falsy number is still a React child), and the row otherwise. */
  datatype AverageSlot = NoRow | StrayText(text: string) | AverageRow(cell: string)

  function AverageSlotOf(solves: seq<Solve>, id: string, n: nat): (r: AverageSlot)
    requires n >= 1
    ensures r.NoRow? <==> AverageOfSolveTime(solves, id, n).None?
    ensures r.StrayText? <==> AverageOfSolveTime(solves, id, n) == Some(0)
    ensures r.StrayText? ==> r.text == "0"
    ensures r.AverageRow? <==> AverageRowVisible(solves, id, n)
  {
    match AverageOfSolveTime(solves, id, n)
    case None => NoRow
    case Some(v) => if v == 0 then StrayText(NatToDecimal(0)) else AverageRow(AverageCell(solves, id, n))
  }

  /** A row that is shown carries the table's cell text, which is never empty. */
  lemma {:induction false} AverageSlotMatchesCell(solves: seq<Solve>, id: string, n: nat)
    requires n >= 1
    ensures AverageSlotOf(solves, id, n).AverageRow?
            <==> AverageCell(solves, id, n) != ""
    ensures AverageSlotOf(solves, id, n).AverageRow?
            ==> AverageSlotOf(solves, id, n).cell == AverageCell(solves, id, n)
  {
    AverageRowVisibleIff(solves, id, n);
  }

  /** Five DNFs put a stray "0" where the dialog's Ao5 row would be. */
  lemma AllDnfStrayZero()
    ensures var one := Times(0, 1000);
            var w := [Solve("a", "", Dnf, one, ""), Solve("b", "", Dnf, one, ""),
                      Solve("c", "", Dnf, one, ""), Solve("d", "", Dnf, one, ""),
                      Solve("e", "", Dnf, one, "")];
            AverageSlotOf(w, "e", 5) == StrayText("0")
  {
    AllDnfAverageZero();
  }

  /** A shown positive average reads back as the average. */
  lemma {:induction false} AverageCellReads(solves: seq<Solve>, id: string, n: nat)
    requires n >= 1
    requires AverageOfSolveTime(solves, id, n).Some? && AverageOfSolveTime(solves, id, n).value > 0
    ensures ParseTime(AverageCell(solves, id, n)) == AverageOfSolveTime(solves, id, n)
  {
    FormatParseRoundTrip(AverageOfSolveTime(solves, id, n).value);
  }

  /** `sessionSolves.filter(e => e.id === solveId)`. */
  function FilterId(solves: seq<Solve>, id: string): (r: seq<Solve>)
    ensures |r| <= |solves|
    ensures forall i :: 0 <= i < |r| ==> r[i].id == id
  {
    if solves == [] then []
    else (if solves[0].id == id then [solves[0]] else []) + FilterId(solves[1..], id)
  }

  /** The filter's first hit is the solve at `findIndex`. */
  lemma {:induction false} FirstMatch(solves: seq<Solve>, id: string)
    ensures FilterId(solves, id) == [] <==> FindIndex(solves, id) == -1
    ensures FindIndex(solves, id) >= 0 ==> FilterId(solves, id)[0] == solves[FindIndex(solves, id)]
  {
    if solves != [] && solves[0].id != id {
      FirstMatch(solves[1..], id);
    }
  }

  /** The dialog's solve and its "Solve #" number. */
  datatype Shown = Shown(solve: Solve, index: nat)

  /** The solve the dialog shows: the first with the chosen id, numbered by its
      position in the session. `None` when no solve has the id, where the
      dialog's `solve.penalty` would throw. */
  function ShownSolve(solves: seq<Solve>, id: string): (r: Option<Shown>)
    ensures r.None? <==> forall j :: 0 <= j < |solves| ==> solves[j].id != id
    ensures r.Some? ==> r.value.index == FindIndex(solves, id)
    ensures r.Some? ==> r.value.index < |solves| && solves[r.value.index] == r.value.solve
    ensures r.Some? ==> r.value.solve.id == id
  {
    var matches := FilterId(solves, id);
    FirstMatch(solves, id);
    if matches == [] then None
    else
      var i := IndexOf(solves, matches[0]);
      assert solves[FindIndex(solves, id)] == matches[0];
      Some(Shown(matches[0], i))
  }

  /** The three penalty buttons of the dialog. */
  datatype PenaltyButton = OkButton | PlusTwoButton | DnfButton

  /** What each button stores: `null`, "+2" and "dnf". */
  function ButtonPenalty(b: PenaltyButton): Penalty {
    match b
    case OkButton => NoPenalty
    case PlusTwoButton => PlusTwo
    case DnfButton => Dnf
  }

  /** A button is highlighted while the shown solve carries its penalty. */
  predicate Highlighted(s: Solve, b: PenaltyButton) {
    s.penalty == ButtonPenalty(b)
  }

  /** A click on a penalty button. */
  function PressPenalty(st: Store, id: string, b: PenaltyButton): Store {
    UpdateSolve(st, id, SetPenalty(ButtonPenalty(b)))
  }

  /** A keystroke in the comment box: the comment becomes the box's text. */
  function EditComment(st: Store, id: string, text: string): Store {
    UpdateSolve(st, id, SetComment(text))
  }

  /** Any update keeps the shown solve's position, since ids do not change. */
  lemma {:induction false} ShownAfterUpdateId(solves: seq<Solve>, id: string, c: Change)
    requires ShownSolve(solves, id).Some?
    ensures var before := ShownSolve(solves, id).value;
            var after := ShownSolve(UpdateId(solves, id, c), id);
      && after.Some? && after.value.index == before.index
      && after.value.solve == Apply(before.solve, c)
  {
    var updated := UpdateId(solves, id, c);
    FindIndexSameIds(solves, updated, id);
    var k := FindIndex(solves, id);
    assert updated[k].id == id;
  }

  lemma {:induction false} ShownAfterUpdate(st: Store, id: string, c: Change)
    requires ShownSolve(SessionSolves(st), id).Some?
    ensures var before := ShownSolve(SessionSolves(st), id).value;
            var after := ShownSolve(SessionSolves(UpdateSolve(st, id, c)), id);
      && after.Some? && after.value.index == before.index
      && after.value.solve == Apply(before.solve, c)
  {
    ShownAfterUpdateId(SessionSolves(st), id, c);
  }

  /** After a click on a penalty button that button, and only that one, is
      highlighted, and the shown solve differs from before in its penalty only. */
  lemma {:induction false} PressHighlights(st: Store, id: string, b: PenaltyButton)
    requires ShownSolve(SessionSolves(st), id).Some?
    ensures var before := ShownSolve(SessionSolves(st), id).value;
            var after := ShownSolve(SessionSolves(PressPenalty(st, id, b)), id);
      && after.Some? && after.value.index == before.index
      && (forall b' :: Highlighted(after.value.solve, b') <==> b' == b)
      && after.value.solve == before.solve.(penalty := ButtonPenalty(b))
  {
    ShownAfterUpdate(st, id, SetPenalty(ButtonPenalty(b)));
  }

  /** ... and the dialog's label reads back as the new penalty with the same
      raw time. */
  lemma {:induction false} PressRelabels(st: Store, id: string, b: PenaltyButton)
    requires ShownSolve(SessionSolves(st), id).Some?
    requires ShownSolve(SessionSolves(st), id).value.solve.SolveTime() > 0
    ensures var before := ShownSolve(SessionSolves(st), id).value;
            var after := ShownSolve(SessionSolves(PressPenalty(st, id, b)), id);
      && after.Some?
      && ReadTimeLabel(TimeLabel(after.value.solve)) == Some((ButtonPenalty(b), before.solve.SolveTime()))
  {
    PressHighlights(st, id, b);
    RelabelReads(ShownSolve(SessionSolves(st), id).value.solve, ButtonPenalty(b));
  }

  /** A new penalty on a solve reads back from its label with the same raw time. */
  lemma {:induction false} RelabelReads(s: Solve, p: Penalty)
    requires s.SolveTime() > 0
    ensures ReadTimeLabel(TimeLabel(s.(penalty := p))) == Some((p, s.SolveTime()))
  {
    TimeLabelRoundTrip(s.(penalty := p));
  }

  /** After a comment edit the shown solve holds the typed text and nothing
      else about it changes. */
  lemma {:induction false} EditCommentShown(st: Store, id: string, text: string)
    requires ShownSolve(SessionSolves(st), id).Some?
    ensures var before := ShownSolve(SessionSolves(st), id).value;
            var after := ShownSolve(SessionSolves(EditComment(st, id, text)), id);
      && after.Some? && after.value.index == before.index
      && after.value.solve == before.solve.(comment := text)
  {
    ShownAfterUpdate(st, id, SetComment(text));
  }

  /** What the dialog's delete button leaves behind. */
  datatype DeleteClick = DeleteClick(store: Store, confirmOpen: bool)

  /** `handleDeleteClick(e.shiftKey)`: with shift held the solve goes at once,
      otherwise only the confirmation dialog opens (after a delay the model
      does not keep). */
  function HandleDeleteClick(st: Store, id: string, shift: bool): (r: DeleteClick)
    ensures shift ==> !r.confirmOpen && ShownSolve(SessionSolves(r.store), id).None?
    ensures shift ==> forall s :: s in SessionSolves(r.store) <==> s in SessionSolves(st) && s.id != id
    ensures !shift ==> r.store == st && r.confirmOpen
  {
    if shift then DeleteClick(DeleteSolve(st, id), false) else DeleteClick(st, true)
  }
}

=== FILE: sorting.dfy ===
/** `Array.prototype.sort` with a numeric comparator, as the solve tables and
    the session chart use it (`a.times.start - b.times.start` and its reverse,
    and `(a, b) => a - b` on times). The sort is stable, so the order is fully
    determined: sorted by key, and elements with equal keys in their original
    order. Modelled as a stable insertion sort on sequences. */
module Sorting {

  /** `sortOrder`: "asc" or "desc". */
  datatype Order = Asc | Desc

  /** `toggleSortOrder`: "asc" becomes "desc" and anything else becomes "asc". */
  function Toggle(o: Order): (r: Order)
    ensures r != o
  {
    if o == Asc then Desc else Asc
  }

  lemma {:induction false} ToggleTwice(o: Order)
    ensures Toggle(Toggle(o)) == o
  {
  }

  /** The comparator does not put `b` strictly before `a`. */
  predicate InOrder(a: int, b: int, o: Order) {
    if o == Asc then a <= b else a >= b
  }

  ghost predicate Sorted<T>(s: seq<T>, key: T -> int, o: Order) {
    forall i, j :: 0 <= i < j < |s| ==> InOrder(key(s[i]), key(s[j]), o)
  }

  /** The elements whose key is `k`, in their order in `s`. */
  function WithKey<T>(s: seq<T>, key: T -> int, k: int): seq<T> {
    if s == [] then []
    else (if key(s[0]) == k then [s[0]] else []) + WithKey(s[1..], key, k)
  }

  /** Puts `x` in front of the first element it may precede. */
  function Insert<T>(x: T, t: seq<T>, key: T -> int, o: Order): (r: seq<T>)
    ensures multiset(r) == multiset(t) + multiset{x}
    ensures |r| == |t| + 1
  {
    if t == [] || InOrder(key(x), key(t[0]), o) then [x] + t
    else
      assert t == [t[0]] + t[1..];
      [t[0]] + Insert(x, t[1..], key, o)
  }

  lemma {:induction false} InsertSorted<T>(x: T, t: seq<T>, key: T -> int, o: Order)
    requires Sorted(t, key, o)
    ensures Sorted(Insert(x, t, key, o), key, o)
  {
    var r := Insert(x, t, key, o);
    if t == [] || InOrder(key(x), key(t[0]), o) {
      forall i, j | 0 <= i < j < |r| ensures InOrder(key(r[i]), key(r[j]), o) {
        if i > 0 {
          assert r[i] == t[i - 1] && r[j] == t[j - 1];
        } else if j > 1 {
          assert r[j] == t[j - 1];
          assert InOrder(key(t[0]), key(t[j - 1]), o);
        }
      }
    } else {
      var rest := Insert(x, t[1..], key, o);
      assert r == [t[0]] + rest;
      InsertSorted(x, t[1..], key, o);
      forall j | 0 <= j < |rest| ensures InOrder(key(t[0]), key(rest[j]), o) {
        assert rest[j] in multiset(rest);
        if rest[j] != x {
          assert rest[j] in multiset(t[1..]);
          var m :| 0 <= m < |t[1..]| && t[1..][m] == rest[j];
          assert t[m + 1] == rest[j];
        }
      }
      forall i, j | 0 <= i < j < |r| ensures InOrder(key(r[i]), key(r[j]), o) {
        if i == 0 {
          assert r[j] == rest[j - 1];
        } else {
          assert r[i] == rest[i - 1] && r[j] == rest[j - 1];
        }
      }
    }
  }

  /** The stable sort: sorted, a permutation, and elements with equal keys
      keep their relative order. */
  function SortBy<T>(s: seq<T>, key: T -> int, o: Order): (r: seq<T>)
    ensures multiset(r) == multiset(s)
    ensures |r| == |s|
    ensures Sorted(r, key, o)
  {
    if s == [] then []
    else
      assert s == [s[0]] + s[1..];
      InsertSorted(s[0], SortBy(s[1..], key, o), key, o);
      Insert(s[0], SortBy(s[1..], key, o), key, o)
  }

  /** One step of the sort: the head is inserted into the sorted tail. */
  lemma {:induction false} SortByStep<T>(s: seq<T>, key: T -> int, o: Order)
    requires s != []
    ensures SortBy(s, key, o) == Insert(s[0], SortBy(s[1..], key, o), key, o)
  {
  }

  /** An element that may precede the head of `t` is put in front. */
  lemma {:induction false} InsertFront<T>(x: T, t: seq<T>, key: T -> int, o: Order)
    requires t == [] || InOrder(key(x), key(t[0]), o)
    ensures Insert(x, t, key, o) == [x] + t
  {
  }

  lemma {:induction false} InsertWithKey<T>(x: T, t: seq<T>, key: T -> int, o: Order, k: int)
    ensures WithKey(Insert(x, t, key, o), key, k)
            == (if key(x) == k then [x] else []) + WithKey(t, key, k)
  {
    if t == [] || InOrder(key(x), key(t[0]), o) {
      WithKeyCons(x, t, key, k);
    } else {
      var rest := Insert(x, t[1..], key, o);
      var a: seq<T> := if key(t[0]) == k then [t[0]] else [];
      var b: seq<T> := if key(x) == k then [x] else [];
      var w := WithKey(t[1..], key, k);
      calc {
        WithKey(Insert(x, t, key, o), key, k);
        WithKey([t[0]] + rest, key, k);
        { WithKeyCons(t[0], rest, key, k); }
        a + WithKey(rest, key, k);
        { InsertWithKey(x, t[1..], key, o, k); }
        a + (b + w);
        // t[0] sorts strictly before x, so it never shares x's key
        { SwapDisjoint(a, b, w); }
        b + (a + w);
        b + WithKey(t, key, k);
      }
    }
  }

  lemma {:induction false} WithKeyCons<T>(y: T, r: seq<T>, key: T -> int, k: int)
    ensures WithKey([y] + r, key, k) == (if key(y) == k then [y] else []) + WithKey(r, key, k)
  {
    assert ([y] + r)[1..] == r;
  }

  lemma {:induction false} SwapDisjoint<T>(a: seq<T>, b: seq<T>, w: seq<T>)
    requires a == [] || b == []
    ensures a + (b + w) == b + (a + w)
  {
    if a == [] {
      assert a + (b + w) == b + w && a + w == w;
    } else {
      assert b + (a + w) == a + w && b + w == w;
    }
  }

  /** Stability: for every key, the elements with that key appear in the
      sorted sequence in the same order as in the input. */
  lemma {:induction false} SortByStable<T>(s: seq<T>, key: T -> int, o: Order, k: int)
    ensures WithKey(SortBy(s, key, o), key, k) == WithKey(s, key, k)
  {
    if s != [] {
      SortByStable(s[1..], key, o, k);
      InsertWithKey(s[0], SortBy(s[1..], key, o), key, o, k);
    }
  }
}

=== FILE: text.dfy ===
/** The string operations of JavaScript that the modelled code uses:
    `split`, `join`, `includes`, `toLowerCase`, and searching from the right. */
module Text {

  import opened JsValues

  /** `c.toLowerCase()` restricted to ASCII: A–Z become a–z and every other
      character is left as it is. JavaScript's full Unicode case mapping,
      which also lowers letters outside ASCII, is not modelled. */
  function LowerChar(c: char): char {
    if 'A' <= c <= 'Z' then (c as int + 32) as char else c
  }

  function Lower(s: string): (r: string)
    ensures |r| == |s|
    ensures forall i :: 0 <= i < |s| ==> r[i] == LowerChar(s[i])
  {
    if s == [] then "" else [LowerChar(s[0])] + Lower(s[1..])
  }

  /** `hay.includes(needle)`, searching from the left. */
  predicate Contains(hay: string, needle: string) {
    needle <= hay || (|hay| > 0 && Contains(hay[1..], needle))
  }

  /** `needle` occurs in `hay` starting at position `i`. */
  predicate OccursAt(hay: string, needle: string, i: int) {
    0 <= i && i + |needle| <= |hay| && hay[i..i + |needle|] == needle
  }

  /** The search finds `needle` exactly when it occurs at some position. */
  lemma {:induction false} ContainsIff(hay: string, needle: string)
    ensures Contains(hay, needle) <==> exists i :: OccursAt(hay, needle, i)
  {
    if needle <= hay {
      assert OccursAt(hay, needle, 0);
    } else if |hay| > 0 {
      ContainsIff(hay[1..], needle);
      if Contains(hay[1..], needle) {
        var i :| OccursAt(hay[1..], needle, i);
        assert hay[i + 1..i + 1 + |needle|] == hay[1..][i..i + |needle|];
        assert OccursAt(hay, needle, i + 1);
      } else {
        forall i | OccursAt(hay, needle, i)
          ensures false
        {
          if i != 0 {
            assert hay[1..][i - 1..i - 1 + |needle|] == hay[i..i + |needle|];
            assert OccursAt(hay[1..], needle, i - 1);
          }
        }
      }
    }
  }

  /** `parts.join(sep)`. */
  function Join(parts: seq<string>, sep: string): string {
    if |parts| == 0 then ""
    else if |parts| == 1 then parts[0]
    else parts[0] + sep + Join(parts[1..], sep)
  }

  /** `s.split(c)` for a one-character separator: never empty ("" gives [""]),
      and no piece holds the separator. */
  function Split(s: string, c: char): (parts: seq<string>)
    ensures |parts| >= 1
    ensures forall i :: 0 <= i < |parts| ==> c !in parts[i]
  {
    if s == [] then [""]
    else if s[0] == c then [""] + Split(s[1..], c)
    else
      var rest := Split(s[1..], c);
      [[s[0]] + rest[0]] + rest[1..]
  }

  /** Splitting and joining back with the same separator gives the string. */
  lemma {:induction false} JoinSplit(s: string, c: char)
    ensures Join(Split(s, c), [c]) == s
  {
    if s != [] {
      JoinSplit(s[1..], c);
      var rest := Split(s[1..], c);
      if s[0] == c {
        assert Split(s, c)[1..] == rest;
      } else {
        var parts := Split(s, c);
        assert parts[1..] == rest[1..];
        if |rest| == 1 {
          assert s == [s[0]] + s[1..];
        } else {
          assert Join(rest, [c]) == rest[0] + [c] + Join(rest[1..], [c]);
          assert s == [s[0]] + s[1..];
        }
      }
    }
  }

  /** Joining pieces that do not hold the separator and splitting again gives
      the pieces back. */
  lemma {:induction false} SplitJoin(parts: seq<string>, c: char)
    requires |parts| >= 1
    requires forall i :: 0 <= i < |parts| ==> c !in parts[i]
    ensures Split(Join(parts, [c]), c) == parts
  {
    if |parts| == 1 {
      SplitNoSeparator(parts[0], c);
    } else {
      SplitJoin(parts[1..], c);
      SplitPrefix(parts[0], Join(parts[1..], [c]), c);
      assert Join(parts, [c]) == parts[0] + ([c] + Join(parts[1..], [c]));
      assert parts == [parts[0]] + parts[1..];
    }
  }

  lemma {:induction false} SplitNoSeparator(s: string, c: char)
    requires c !in s
    ensures Split(s, c) == [s]
  {
    if s != [] {
      assert c !in s[1..] by {
        forall k | 0 <= k < |s[1..]| ensures s[1..][k] != c {
          assert s[1..][k] == s[k + 1];
        }
      }
      SplitNoSeparator(s[1..], c);
      assert s == [s[0]] + s[1..];
    }
  }

  /** Splitting `p + c + t` where `p` holds no separator: `p` is the first piece. */
  lemma {:induction false} SplitPrefix(p: string, t: string, c: char)
    requires c !in p
    ensures Split(p + ([c] + t), c) == [p] + Split(t, c)
  {
    if p == [] {
      assert p + ([c] + t) == [c] + t;
      assert ([c] + t)[1..] == t;
    } else {
      var s := p + ([c] + t);
      assert s[1..] == p[1..] + ([c] + t);
      assert c !in p[1..] by {
        forall k | 0 <= k < |p[1..]| ensures p[1..][k] != c {
          assert p[1..][k] == p[k + 1];
        }
      }
      SplitPrefix(p[1..], t, c);
      assert p == [p[0]] + p[1..];
    }
  }

  /** Number of occurrences of `c` in `s`. */
  function CountChar(s: string, c: char): nat {
    if s == [] then 0 else (if s[0] == c then 1 else 0) + CountChar(s[1..], c)
  }

  lemma {:induction false} CountCharAppend(a: string, b: string, c: char)
    ensures CountChar(a + b, c) == CountChar(a, c) + CountChar(b, c)
  {
    if a != [] {
      assert (a + b)[1..] == a[1..] + b;
      CountCharAppend(a[1..], b, c);
    } else {
      assert a + b == b;
    }
  }

  lemma {:induction false} CountCharAbsent(s: string, c: char)
    requires c !in s
    ensures CountChar(s, c) == 0
  {
    if s != [] {
      assert c !in s[1..] by {
        forall k | 0 <= k < |s[1..]| ensures s[1..][k] != c {
          assert s[1..][k] == s[k + 1];
        }
      }
      CountCharAbsent(s[1..], c);
    }
  }

  /** The parts before and after the last `c` in `s`, or `None` when `s` has no `c`
      (`lastIndexOf` followed by two slices). */
  function SplitAtLast(s: string, c: char): Option<(string, string)> {
    if s == [] then None
    else if s[|s| - 1] == c then Some((s[..|s| - 1], ""))
    else
      match SplitAtLast(s[..|s| - 1], c)
      case None => None
      case Some(p) => Some((p.0, p.1 + [s[|s| - 1]]))
  }

  /** The part of `s` after its last `c`, or all of `s` when it has none. */
  function AfterLast(s: string, c: char): string {
    if s == [] || s[|s| - 1] == c then "" else AfterLast(s[..|s| - 1], c) + [s[|s| - 1]]
  }

  lemma {:induction false} SplitAtLastAppend(a: string, b: string, c: char)
    requires c !in b
    ensures SplitAtLast(a + [c] + b, c) == Some((a, b))
  {
    var s := a + [c] + b;
    if b == [] {
      assert s[..|s| - 1] == a;
    } else {
      var b' := b[..|b| - 1];
      assert c !in b' by {
        forall k | 0 <= k < |b'| ensures b'[k] != c {
          assert b'[k] == b[k];
        }
      }
      assert s[..|s| - 1] == a + [c] + b';
      SplitAtLastAppend(a, b', c);
      assert b' + [b[|b| - 1]] == b;
    }
  }

  /** Without a `c` there is nothing to split at. */
  lemma {:induction false} SplitAtLastAbsent(s: string, c: char)
    requires c !in s
    ensures SplitAtLast(s, c) == None
  {
    if s != [] {
      var t := s[..|s| - 1];
      assert c !in t by {
        forall k | 0 <= k < |t| ensures t[k] != c {
          assert t[k] == s[k];
        }
      }
      SplitAtLastAbsent(t, c);
    }
  }

  lemma {:induction false} AfterLastAppend(p: string, d: string, c: char)
    requires c !in d
    requires p == [] || p[|p| - 1] == c
    ensures AfterLast(p + d, c) == d
  {
    if d == [] {
      assert p + d == p;
    } else {
      var d' := d[..|d| - 1];
      assert c !in d' by {
        forall k | 0 <= k < |d'| ensures d'[k] != c {
          assert d'[k] == d[k];
        }
      }
      var s := p + d;
      assert s[|s| - 1] == d[|d| - 1] != c;
      assert s[..|s| - 1] == p + d';
      AfterLastAppend(p, d', c);
      assert AfterLast(s, c) == AfterLast(p + d', c) + [d[|d| - 1]];
      assert d' + [d[|d| - 1]] == d;
    }
  }

  /** The characters `trim()` removes: ECMAScript WhiteSpace and LineTerminator. */
  predicate IsJsSpace(c: char) {
    c == '\t' || c == '\n' || c == '\U{000B}' || c == '\U{000C}' || c == '\r' || c == ' '
    || c == '\U{00A0}' || c == '\U{1680}' || ('\U{2000}' <= c <= '\U{200A}')
    || c == '\U{2028}' || c == '\U{2029}' || c == '\U{202F}' || c == '\U{205F}'
    || c == '\U{3000}' || c == '\U{FEFF}'
  }

  /** `s.trim() === ""`. */
  predicate IsBlank(s: string) {
    forall i :: 0 <= i < |s| ==> IsJsSpace(s[i])
  }
}
